=== FILE: README.md ===
# multiplex, modelled in Dafny

multiplex is a terminal viewer. It runs several output streams (processes,
files, generators) side by side as a vertical stack of "boxes". Each box has a
title line and a body. The user scrolls the stack, focuses a box, scrolls
inside it, maximizes, wraps or collapses it, and drives it all through key
bindings. This project models the state machine behind that viewer as pure
Dafny functions and proves properties of it.

The model has four layers:

- **Per-box storage** (`buffer.py`):
  - a pyte screen extended with SGR interning, erase and reverse index (`Style`, `Lined`);
  - the line-tracking grid (`Lined.LinedBuffer`);
  - the capped and uncapped raw stores (`RawStore`);
  - the `Buffer` that keeps a raw copy, an unwrapped grid and a wrapped grid in step, with eviction (`Buffers`).
- **The box** (`box.py`): `BoxState` and every motion, resize, wrap and collapse operation; the cropping of a box's lines to the screen (`Box`).
- **The viewer**:
  - the stack layout (`_get_box_line`), keeping the focused box in view, the scroll range, swapping boxes, recomputing box heights, and when a key handler asks for a full redraw (`Viewers`);
  - every command bound to a key (`Commands`);
  - the help screen (`Help`);
  - key naming and binding (`Keys`);
  - the input matcher (`KeysInput`).
- **The edges**:
  - the actions a controller queues onto a box (`Actions`);
  - the controller's non-thread-safe queue (`Controllers`);
  - command-line validation and the IPC request built from it (`Cli`);
  - the iterator title rules (`Titles`).

Python conventions are modelled explicitly:
- an exception is an `Err` of `Wrappers.Error` (`IndexError`, `KeyError`, `AttributeError`, `TypeError`, `ZeroDivisionError`, `RuntimeError`);
- a dict is an association list (`Dicts`), so insertion order is kept;
- negative indexing goes through `Viewers.PyIndex`;
- `//` goes through `Viewers.FloorDiv`;
- slice bounds go through `Viewers.SliceBound`;
- truthiness of optional strings goes through `Cli.Given` and `Titles.Truthy`.

The terminal size, the wide-character test (`wcwidth`) and the terminal's column count are parameters.

## Model

| member | source | states |
|---|---|---|
| Style.Intern | src/multiplex/buffer.py:115-132 | A known style gets its existing id and the table is unchanged. A new style gets the next counter value and is added to both directions of the table. |
| Style.InternValid | src/multiplex/buffer.py:115-132 | Interning keeps the two tables mutual inverses. The returned id is always in the table. |
| Style.InternIdempotent | src/multiplex/buffer.py:115-132 | Interning the same style twice returns the same id and table as once. |
| Style.InternDistinct | src/multiplex/buffer.py:115-132 | Two different styles never share an id. |
| Style.SelectGraphicRendition | src/multiplex/buffer.py:57-134 | No attributes, or a lone 0, selects style 0 and leaves the table alone. Anything else interns the style derived from the cursor's current style. |
| Style.SgrKeepsTableValid | src/multiplex/buffer.py:57-134 | A successful SGR call leaves a valid table and a cursor id that is in it. |
| Style.Extended256Consumes | src/multiplex/buffer.py:84-97 | `38;5;n` and `48;5;n` consume three parameters and set that colour. |
| Style.ExtendedRgbConsumes | src/multiplex/buffer.py:84-97 | `38;2;r;g;b` and `48;2;r;g;b` consume five parameters and set that colour. |
| Style.TruncatedExtendedColorFails | src/multiplex/buffer.py:84-97 | An extended colour cut short raises IndexError. |
| Style.AixtermAddsBold | src/multiplex/buffer.py:78-83 | The bright (aixterm) colours set that colour and add bold. |
| Style.ZeroClearsEmphasis | src/multiplex/buffer.py:68-105 | A 0 among the attributes removes every emphasis code the cursor had. |
| Style.HighCodesKeepEmphasis | src/multiplex/buffer.py:98-105 | Without a 0, only the 21-29 "off" codes remove emphasis. Every other emphasis the cursor had is kept. |
| Style.NewMeta | src/multiplex/buffer.py:62-112 | Creating the new style fails exactly when parsing the attributes fails. |
| Lined.NewLinedBuffer | src/multiplex/buffer.py:190-200 | A new grid is empty with first and last line 0. Its width is the given width, or unbounded when none or 0 is given. |
| Lined.Feed | src/multiplex/buffer.py:202-204 | Feeding text keeps the grid valid and never changes the width, the first or last line, or the raw-line maps. The cursor only moves down. Newly dirty rows lie between the old and the new cursor row. |
| Lined.DrawNarrow | src/multiplex/buffer.py:202-204 | Drawing a narrow character puts it at the cursor and advances the cursor by one. |
| Lined.FeedNarrowRun | src/multiplex/buffer.py:202-204 | A run of narrow printable characters lands in consecutive cells of the cursor's row, when it fits. |
| Lined.FeedAppend | src/multiplex/buffer.py:202-204 | Feeding a text in two chunks leaves the same grid as feeding it at once, so a stream may be cut anywhere. |
| Lined.FeedLineEnd | src/multiplex/buffer.py:202-204 | A text ended by a line feed leaves the grid the text alone leaves, followed by one line feed. |
| Lined.DrawParked | src/multiplex/buffer.py:190-204 | After the last column is filled the cursor waits past it (deferred wrap). A character drawn there is drawn at the start of the next row, which is marked dirty first. |
| Lined.DrawWrapsCells | src/multiplex/buffer.py:190-204 | A narrow character drawn with the cursor waiting past the last column lands in column 0 of the next row, and the cursor moves to column 1 of that row. No other cell changes. |
| Lined.FeedParked | src/multiplex/buffer.py:190-204 | Feeding a text that starts with a printable character while the cursor waits past the last column is feeding it from the start of the next row. |
| Lined.FeedKeepsRowsAbove | src/multiplex/buffer.py:202-204 | Feeding never changes a row above the cursor. |
| Lined.FeedWrappedRun | src/multiplex/buffer.py:190-204 | A run of narrow printable characters fed from column 0 is cut into rows of the grid's width. Character i lands in column i mod width of the row i div width below the cursor, in the cursor's style, while the run fits on the screen. Rows above the cursor are unchanged. |
| Lined.WrapAtFive | tests/test_buffer.py:4-17 | In a 5-column grid, "123456789" fed from column 0 puts "5" in the last column of the cursor's row, "6" at the start of the next row and "9" in its fourth column, as in the rows "12345" and "6789". |
| Lined.WrapAtThree | tests/test_buffer.py:21-26 | In a 3-column grid the same text puts "3" at the end of the cursor's row, "4" at the start of the next and "9" at the end of the one after, as in "123", "456", "789". |
| Lined.Update | src/multiplex/buffer.py:206-213 | Draining the dirty rows returns them sorted, extends the last line to the highest dirty row, and clears the dirty set. |
| Lined.Write | src/multiplex/buffer.py:202-213 | Writing keeps the grid valid and returns the dirty rows sorted. It never lowers the last line, and leaves the width, the first line and the raw-line maps alone. |
| Lined.FeedScreen | src/multiplex/buffer.py:202-204 | What a text draws depends only on the rows, the cursor and the width: two grids that agree on them agree after the same text. |
| Lined.FeedMarks | src/multiplex/buffer.py:202-213 | Text holding a character other than `\r` and `\n` always leaves some row dirty, so the write reports a dirty line. |
| Lined.WriteRows | src/multiplex/buffer.py:202-213 | From a grid with nothing dirty, a write clears the dirty set, never moves the cursor up, and hands out only rows between the old and the new cursor row. |
| Lined.WriteLineRows | src/multiplex/buffer.py:202-213 | A write ended by a line feed moves the cursor down and hands out only rows above the new cursor row, unless the cursor has reached the screen's last row. |
| Lined.RemoveLines | src/multiplex/buffer.py:215-219 | Removing n rows from `start` drops exactly the rows in [start, start+n). The new first line is start+n. |
| Lined.EraseInLine | src/multiplex/buffer.py:152-166 | Modes 0, 1 and 2 blank from the cursor to the end, from the start to the cursor, or the whole row, and mark the row dirty. Other rows are untouched. Any other mode raises TypeError. |
| Lined.EraseInDisplay | src/multiplex/buffer.py:136-150 | Only mode 1 succeeds. It blanks the painted cells of every row above the cursor and the cursor's row up to the cursor, marking those rows dirty. Modes 0, 2 and 3 raise AttributeError; other modes raise TypeError. |
| Lined.ReverseIndex | src/multiplex/buffer.py:171-181 | At the top line, reverse index shifts rows down between the first and last line and marks them dirty. Elsewhere it moves the cursor up one row. |
| Lined.GetLines | src/multiplex/buffer.py:221-252 | A start past the last line gives no lines. Otherwise it gives exactly `lines` rendered rows. |
| Lined.GetLinesOkIff | src/multiplex/buffer.py:221-252 | Rendering fails exactly when a visible cell has no character or a style id without an ANSI string. |
| Lined.RowTokensFaithful | src/multiplex/buffer.py:226-250 | A rendered row paints exactly the visible cells with their styles. It switches style only when the style changes, and every switch has a known ANSI string. |
| Lined.TokenRowsFaithful | src/multiplex/buffer.py:221-252 | Over a range of rows, the rendered lines paint exactly the visible cells of each row. The style carries across lines and ends back at 0. |
| Lined.PaintedAppend | src/multiplex/buffer.py:226-250 | Painting two token runs in a row equals painting their concatenation. |
| RawStore.NewRawStore | src/multiplex/buffer.py:291-294 | A positive `buffer_lines` gives a capped store holding at most `buffer_lines + 1` lines. Otherwise the store is uncapped. |
| RawStore.UncappedKeepsEverything | src/multiplex/buffer.py:274-288 | Writing a chunk through the uncapped store appends it verbatim. |
| RawStore.CappedKeepsLastLines | src/multiplex/buffer.py:255-271 | The capped store holds the last `maxlen` lines of everything written, with the first piece of a chunk glued to the unfinished last line. |
| RawStore.CappedReplay | src/multiplex/buffer.py:270-271 | Splitting the capped store's value on newlines gives back its lines. |
| RawStore.ChunkKeepsHolds | src/multiplex/buffer.py:311-323 | If a store holds the text t, then after a chunk it holds t followed by the chunk. The uncapped store holds it all; the capped store holds its last lines. |
| Buffers.NewBuffer | src/multiplex/buffer.py:291-301 | A new buffer is valid and its unwrapped grid is unbounded. The wrapped grid's width is the given width, else the terminal's columns. |
| Buffers.NewBufferHoldsNothing | src/multiplex/buffer.py:291-301 | A new buffer's raw store holds the empty text. |
| Buffers.ConvertLineNumber | src/multiplex/buffer.py:369-386 | A row maps, through its raw line, to the other grid's first row for that raw line. A missing link gives 0, or RuntimeError when `fail_on_error` is set. |
| Buffers.ConvertRoundTrip | src/multiplex/buffer.py:369-386 | In a linked buffer (see `Buffers.WriteKeepsLinked`) whose cursors are above the screen's last row, converting the first row of a raw line to the other grid and back gives the row again, whenever the other grid drew that raw line. |
| Buffers.Segment | src/multiplex/buffer.py:326-328 | Every piece but the last is terminated with `\r\n`, or with `\n` when it already ends in `\r`. |
| Buffers.Evict | src/multiplex/buffer.py:335-345 | It does nothing when the unwrapped grid fits in `buffer_lines`. Otherwise it keeps exactly the newest `buffer_lines` rows, and drops the wrapped rows before the new first row's wrapped row. It fails exactly when that row has no raw line. |
| Buffers.WriteLined | src/multiplex/buffer.py:329-334 | One grid's share of a piece: the raw line then maps to the first row the piece dirtied, the lowest of them, and every dirtied row maps to the raw line. Every other row keeps its raw line and no row loses one. |
| Buffers.WritePiece | src/multiplex/buffer.py:314-345 | One piece stores its text in the raw store and counts a new raw line for every piece but the first. Each grid it writes ends with the maps and cursor of writing the piece's segment under the piece's raw line; trimming changes neither. With `buffer_lines` set, the unwrapped grid then fits in it. |
| Buffers.WritePieces | src/multiplex/buffer.py:314-345 | The loop stores the pieces in the raw store and counts one raw line per piece after the first. It fails only through eviction. The replay of the width setter leaves the raw store, the count and the unwrapped grid alone. |
| Buffers.Write | src/multiplex/buffer.py:311-345 | Writing keeps the buffer valid and passes the whole chunk to the raw store. It fails only through eviction. |
| Buffers.WriteRecordsRawLines | src/multiplex/buffer.py:311-345 | A write drops no row or raw line from either grid's maps. Every entry it adds or changes carries a raw line from the current one to the current one plus the chunk's newline count. |
| Buffers.WriteLinedTracks | src/multiplex/buffer.py:329-334 | Writing part of the open raw line keeps a grid's maps inverse to each other: every recorded raw line maps to a row that maps back to it. No mapped row lies below the cursor, and a mapped cursor row belongs to the open line. |
| Buffers.WriteLinedCloses | src/multiplex/buffer.py:326-334 | A segment ended by a line feed leaves every mapped row above the cursor, so the next raw line starts on unmapped rows. |
| Buffers.NewBufferLinked | src/multiplex/buffer.py:291-301 | A new buffer's two grids are linked: no mappings, nothing dirty. |
| Buffers.WriteKeepsLinked | src/multiplex/buffer.py:311-345 | A write keeps both grids linked: nothing dirty, and above the screen's last row each grid's maps are inverse to each other and track the current raw line. |
| Buffers.SetWidthKeepsLinked | src/multiplex/buffer.py:351-354 | Replaying the raw text into a wrapped grid of a new width keeps the buffer linked. |
| Buffers.WriteKeepsRawText | src/multiplex/buffer.py:311-345 | After a write, the raw store holds the previous text followed by the chunk. |
| Buffers.SetWidth | src/multiplex/buffer.py:347-354 | Setting the width rebuilds the wrapped grid at that width (or the terminal's), leaving the raw store and the unwrapped grid untouched. The new grid's rows and cursor are those of a blank grid of that width fed the stored text line by line, each line but the last ended with `\r\n`. |
| Buffers.WritePiecesReplays | src/multiplex/buffer.py:311-334 | A write with `skip_raw` to the wrapped grid alone never fails, and draws on that grid what feeding it the replay text draws: each line, all but the last ended with `\r\n`. |
| Buffers.WritePiecesReplayGrid | src/multiplex/buffer.py:311-334 | A write with `skip_raw` to the wrapped grid alone gives the wrapped grid that writing each line in turn produces, the i-th of n lines recorded as raw line `raw_lines - n + i + 1`. |
| Buffers.ReplayGridRecords | src/multiplex/buffer.py:323-334 | Replaying lines i.. of n keeps every row and raw line already recorded, and every entry it adds or changes carries a raw line from `last - n + i + 1` to `last`. |
| Buffers.ReplayGridDraws | src/multiplex/buffer.py:323-334 | A replayed line that draws a character other than `\r` and `\n` gets its raw line, `last - n + j + 1` for line j, recorded in the grid. |
| Buffers.SetWidthReplaysGrid | src/multiplex/buffer.py:351-354 | The width setter's wrapped grid is the line-by-line replay of the stored text onto a blank grid of the new width, counted back from the current raw line. |
| Buffers.SetWidthRecordsRawLines | src/multiplex/buffer.py:351-354 | After the width setter, with n stored lines, every raw line the wrapped grid records, and every raw line a row maps to, lies in `raw_lines - n + 1 .. raw_lines`. |
| Buffers.SetWidthRecordsDrawn | src/multiplex/buffer.py:351-354 | After the width setter, the i-th of n stored lines (from 0), when it draws a character, is recorded in the wrapped grid as raw line `raw_lines - n + i + 1`. |
| Buffers.UncappedWriteKeepsText | tests/test_buffer.py:4-28 | A buffer without a line cap, written once, gives back exactly the text written. |
| Buffers.RewrapAtThree | tests/test_buffer.py:21-26 | A 5-column buffer written "123456789" and then set to width 3 shows "3" at the end of its first wrapped row, "4" at the start of the second and "9" at the end of the third: the rows "123", "456", "789". |
| Titles.SecondPiece | src/multiplex/iterator.py:86-87 | Splitting on `://` fails unless the separator occurs. Otherwise it gives the text between the first and second separator. |
| Titles.ExtractTitle | src/multiplex/iterator.py:82-102 | A given title is kept. A `file://` or `asciinema://` string is titled by the text after the scheme, up to any further separator. Any other string, and a path, titles itself. An object is titled by the first truthy one of its `title`, `__name__` and class name, in that order, and has no title exactly when all three are empty. |
| Titles.SchemeTitle | src/multiplex/iterator.py:85-87 | A `file://rest` or `asciinema://rest` string, with no further separator, is titled `rest`. |
| Titles.ToIterator | src/multiplex/iterator.py:293-340 | SPLIT keeps its title, with inner type "split" and no metadata. Any other object keeps the given inner type and metadata, and is titled by its extracted title, or "N/A" exactly when there is none (or the title is "N/A" itself). |
| Dicts.PutGetSame | src/multiplex/keys.py:139-157 | Looking up a key just stored gives the stored value. |
| Dicts.PutGetOther | src/multiplex/keys.py:139-157 | Storing one key leaves every other key's value unchanged. |
| Keys.GenericKeyToName | src/multiplex/keys.py:98-102 | A printable code is named by its character; any other code is named by its number. |
| Keys.GenericNameInjective | src/multiplex/keys.py:98-102 | Different codes get different generic names. |
| Keys.SeqToName | src/multiplex/keys.py:105-118 | Control names come first, then predefined names, then the generic name of a single key. Longer unnamed sequences are named only with `fallback`. |
| Keys.EscapeIsCtrlBracket | src/multiplex/keys.py:39-49 | Code 27 is named `^[`, so the key list `a` + ESC is described as `a^[`. |
| Keys.IsMulti | src/multiplex/keys.py:121-122 | Indexing the first element fails exactly on an empty key list. |
| Keys.KeyToSeq | src/multiplex/keys.py:125-136 | A string maps to its code points and a tuple to itself. A multi-key list maps to the concatenation of its keys. |
| Keys.StrKeyRoundTrip | src/multiplex/keys.py:125-136 | A string key's sequence decodes back to the string. |
| Keys.MultiConcatenates | src/multiplex/keys.py:125-136 | A two-key list maps to the concatenation of the two keys' sequences. |
| Keys.DefaultRegistry | src/multiplex/keys.py:78-95 | Both registries start with the modes normal, scroll, global and help, and empty tables. |
| Keys.KeyNames | src/multiplex/keys.py:139-157 | Every key of a binding is named independently, in order. |
| Keys.Bind | src/multiplex/keys.py:139-157 | Binding succeeds exactly when every key converts and the mode exists in both dictionaries. |
| Keys.BindBinds | src/multiplex/keys.py:139-157 | After binding, every key's sequence maps to the handler in that mode, other sequences and modes are unchanged, and the description is filed under the keys' names. |
| Keys.PutAllBinds | src/multiplex/keys.py:150-157 | Storing one handler under several sequences keeps the table's keys unique. Each of those sequences then maps to the handler, and every other sequence keeps its value. |
| KeysInput.SelectMode | src/multiplex/keys_input.py:80-90 | Help mode wins, then input mode, then scroll mode when any box is scrolled, and normal mode otherwise. |
| KeysInput.ActiveTables | src/multiplex/keys_input.py:80-95 | Input mode uses its own table only. Every other mode uses its table followed by the global table. A missing table raises KeyError. |
| KeysInput.Process | src/multiplex/keys_input.py:96-111 | The keys still pending are always a suffix of the keys read. |
| KeysInput.ProcessHandlersBound | src/multiplex/keys_input.py:96-111 | Every handler returned is bound in one of the active tables. |
| KeysInput.DropsFirstKey | src/multiplex/keys_input.py:96-111 | A first key that starts no binding is dropped and matching restarts at the next key. |
| KeysInput.PendingKept | src/multiplex/keys_input.py:96-111 | Keys that are a strict prefix of some binding, and fully match none, stay pending. |
| KeysInput.ProcessAbA | src/multiplex/keys_input.py:96-111 | With `ab` and `cd` bound, typing `aba` runs the `ab` handler and leaves `a` pending. |
| KeysInput.ProcessAcd | src/multiplex/keys_input.py:96-111 | With `ab` and `cd` bound, typing `acd` drops the `a` and runs the `cd` handler. |
| KeysInput.ReadIteration | src/multiplex/keys_input.py:41-65 | Nothing available gives nothing. In input mode every key is passed through; otherwise reading stops at a backspace. |
| KeysInput.BackspaceRemovesLast | src/multiplex/keys_input.py:52-62 | A backspace outside input mode removes the last pending key. |
| Box.NewBoxState | src/multiplex/box.py:20-33 | A new box wraps, auto-scrolls and starts at line 0, column 0. It is not collapsed, not in input mode and not done. Its height counts as changed exactly when one was given. |
| Box.MaxStartLine | src/multiplex/box.py:246-254 | The last start line is the later of the first start line and the start of the last full page. |
| Box.UpMotion | src/multiplex/box.py:89-113 | Moving up keeps the start line between the first and last start line. |
| Box.DownMotion | src/multiplex/box.py:89-113 | Moving down never moves the start line up. |
| Box.MoveAllUp | src/multiplex/box.py:104-106 | Moving to the top sets the start line to the first start line. |
| Box.MoveAllDown | src/multiplex/box.py:107-109 | Moving to the bottom sets the start line to the last start line. |
| Box.LineDownThenUp | src/multiplex/box.py:89-100 | Away from the bottom edge, a line down then a line up restores the box. |
| Box.PageDownThenUp | src/multiplex/box.py:89-100 | Away from the edges, a page down then a page up restores the box. |
| Box.AllMotionsIdempotent | src/multiplex/box.py:104-109 | Moving to the top or bottom twice is the same as once. |
| Box.Horizontal | src/multiplex/box.py:115-155 | A wrapped box ignores horizontal motion and asks for no redraw. Otherwise only the first column changes. |
| Box.HorizontalKeepsColumnInRange | src/multiplex/box.py:115-155 | Horizontal moves keep the first column in range. |
| Box.RightThenLeft | src/multiplex/box.py:115-155 | Away from the right edge, one column right then one left restores the box. |
| Box.IncreaseBoxHeight | src/multiplex/box.py:157-160 | The height grows by one, capped at the screen's last box line, and is marked as changed. |
| Box.DecreaseBoxHeight | src/multiplex/box.py:161-165 | The height shrinks by one, never below 0, and is marked as changed. |
| Box.IncreaseThenDecrease | src/multiplex/box.py:157-165 | Below the cap, growing then shrinking restores the height. |
| Box.ToggleAutoScroll | src/multiplex/box.py:167-170 | Only the auto-scroll flag flips, and a redraw is asked for. |
| Box.ActivateInputMode | src/multiplex/box.py:172-175 | Only input mode is switched on. |
| Box.ExitInputMode | src/multiplex/box.py:177-179 | Only input mode is switched off. |
| Box.ToggleAutoScrollTwice | src/multiplex/box.py:167-170 | Toggling auto-scroll twice gives back the same state. |
| Box.InputModeRoundTrip | src/multiplex/box.py:172-179 | Entering input mode and leaving it gives back a state that was not in input mode. Entering always ends in input mode and leaving always ends outside it. |
| Box.ToggleWrap | src/multiplex/box.py:181-195 | Setting wrap to its current value does nothing. Otherwise wrap flips and the first column resets. An auto-scrolling unfinished box keeps its start line; any other box has it converted to the other grid. |
| Box.ToggleWrapTwice | src/multiplex/box.py:181-195 | Toggling wrap twice restores the wrap flag and leaves the first column at 0. |
| Box.ToggleCollapse | src/multiplex/box.py:197-203 | Only the collapsed flag changes: it is set to the given value or flipped. |
| Box.ToggleCollapseTwice | src/multiplex/box.py:197-203 | Toggling collapse twice restores the box. |
| Box.StripEmptyLines | src/multiplex/box.py:205-208 | A finished box (or any box, when asked) has its height cut to its buffer's line count. An unfinished box is untouched. The height never grows. |
| Box.Longest | src/multiplex/box.py:74-87 | The widest visible line is at least as long as every line and is one of them (0 for no lines). |
| Box.UpdateText | src/multiplex/box.py:74-87 | An auto-scrolling unfinished box moves to its last start line first. The lines read are the grid's lines from the start line. An unwrapped box records the widest of them. |
| Box.SetWidth | src/multiplex/box.py:262-266 | Setting the width rebuilds the wrapped grid, and only the start line of the box may change. A box that is unwrapped, or that follows live output, keeps its state. A wrapped box that does not follow moves to the new grid's first row of the raw line its start row mapped to (raw line 0 if it mapped to none). When the new grid has no row for that raw line, KeyError is raised. |
| Box.SetWidthReanchors | src/multiplex/box.py:262-266 | For a linked buffer whose rebuilt grid keeps its maps inverse, a successful re-anchoring moves a wrapped, non-following box to a row that maps back to the raw line it showed before. |
| Actions.Run | src/multiplex/actions.py:14-41 | SetTitle replaces the title and Collapse collapses the box. UpdateMetadata merges into the metadata, the new values winning. A batch runs its actions in order. |
| Actions.RunAll | src/multiplex/actions.py:35-41 | Running a batch never changes the box's index or buffer. |
| Actions.RunAllAppend | src/multiplex/actions.py:35-41 | Running two batches in a row equals running their concatenation. |
| Actions.NestedBatch | src/multiplex/actions.py:35-41 | A batch action runs exactly its contents. |
| Actions.CollapseIdempotent | src/multiplex/actions.py:22-24 | Collapsing twice is the same as once. |
| Actions.SetTitleLastWins | src/multiplex/actions.py:14-19 | Of two titles set in a row, the last one wins. |
| Actions.MetadataUpdatesMerge | src/multiplex/actions.py:27-32 | Two metadata updates in a row equal one update with the merged map. |
| Help.HelpHeight | src/multiplex/help.py:9-14 | The help text has a heading line, two lines per mode and one line per description. |
| Help.NewHelp | src/multiplex/help.py:5-8 | The help screen starts hidden at line 0. |
| Help.Toggle | src/multiplex/help.py:16-19 | Toggling flips visibility and returns to line 0. |
| Help.MoveLineUp | src/multiplex/help.py:21-23 | Moving up decrements the line, never below 0. |
| Help.MoveLineDown | src/multiplex/help.py:25-30 | Moving down increments the line, never past the last top line. |
| Help.ToggleTwice | src/multiplex/help.py:16-19 | Toggling twice restores the help state, back at line 0. |
| Help.DownThenUp | src/multiplex/help.py:21-30 | Away from the end, down then up restores the help state. |
| Help.UpThenDown | src/multiplex/help.py:21-30 | Away from line 0, up then down restores the help state. |
| Help.MovesKeepInRange | src/multiplex/help.py:21-30 | Both moves keep the line between 0 and the last top line. |
| Viewers.PyIndex | src/multiplex/viewer.py:168-181 | Python list indexing: valid exactly for -n <= i < n, with negative indices counted from the end. Anything else raises IndexError. |
| Viewers.Classify | src/multiplex/viewer.py:637-646 | A stack row classifies as above, in view or below the screen. The classification round-trips back to the same screen row. |
| Viewers.GetBoxLine | src/multiplex/viewer.py:609-646 | Maximized: the focused box's top is row 0 and its bottom the last box row; everything else is not drawn. Otherwise a box line sits at its stack row minus the view line; it is in view exactly when that lies on screen; a collapsed box has only a title. |
| Viewers.MaximizedFillsScreen | src/multiplex/viewer.py:609-621 | A maximized box runs from row 0 down to the line above the status bar. |
| Viewers.BodyFollowsTitle | src/multiplex/viewer.py:622-637 | An expanded box's top line is right under its title, and its bottom line is `box_height - 1` rows below its top. |
| Viewers.NextTitleFollows | src/multiplex/viewer.py:622-637 | Each title comes right after the previous box's bottom line, or right after its title when it is collapsed. |
| Viewers.VerifyFocusedBoxInView | src/multiplex/viewer.py:556-570 | Only the view line changes. A maximized viewer is unchanged. A focus out of range raises IndexError. |
| Viewers.FocusedBoxInView | src/multiplex/viewer.py:556-570 | When the focused box fits on screen, afterwards its title is in view, and so is its bottom unless it is collapsed. |
| Viewers.ViewLineStaysNonNeg | src/multiplex/viewer.py:556-570 | Bringing the focus into view never scrolls above the top of the stack. |
| Viewers.VerifyIdempotent | src/multiplex/viewer.py:556-570 | Bringing the focus into view a second time changes nothing. |
| Viewers.MaxCurrentLine | src/multiplex/viewer.py:584-592 | The scroll limit is 0, or the stack's height minus the screen's box lines when that is larger. |
| Viewers.LastBottomAtEdge | src/multiplex/viewer.py:584-592 | Scrolled to the limit, the last box's bottom sits just above the last box row. |
| Viewers.SwapIndices | src/multiplex/viewer.py:136-146 | The two holders trade places and take each other's index. Every other holder is unchanged. The focus follows a moved box. Indices out of range raise IndexError. |
| Viewers.SwapKeepsConsistent | src/multiplex/viewer.py:136-146 | Swapping keeps every holder's index equal to its position, and the focus stays on the same box. |
| Viewers.SwapTwice | src/multiplex/viewer.py:136-146 | Swapping the same two boxes twice restores the viewer. |
| Viewers.FloorDiv | src/multiplex/viewer.py:283-290 | Python's `//`: the quotient rounded toward minus infinity. |
| Viewers.DefaultBoxHeight | src/multiplex/viewer.py:283-290 | The default height is at least the minimum box height (7). When the screen has room, n boxes of that height plus their titles fit. |
| Viewers.UpdateHolders | src/multiplex/viewer.py:283-290 | No boxes raises ZeroDivisionError. Otherwise every box whose height was never changed by hand gets the default height; the others keep theirs. |
| Viewers.UpdateOne | src/multiplex/viewer.py:286-290 | One box: a column change resizes it first; it keeps its index and iterator, gets the default height unless its height was changed by hand, and without a column change nothing but its height moves: wrap, scroll position, first column, collapse and input mode all stay. |
| Viewers.UpdateHoldersNoResize | src/multiplex/viewer.py:283-290 | Without a column change, recomputing heights succeeds whenever there is at least one box. |
| Viewers.ProcessKeyHandler | src/multiplex/viewer.py:379-391 | An index or full-refresh result is passed on. Otherwise a moved focus or view line asks for a full refresh. |
| Viewers.IsVisible | src/multiplex/box.py:218-230 | Maximized: only the focused box is visible. A collapsed box is not visible. Otherwise a box is visible unless its top is below the screen or its bottom is above it. |
| Viewers.SliceBound | src/multiplex/box.py:46-72 | A Python slice bound is clamped into [0, n]. |
| Viewers.Crop | src/multiplex/box.py:46-72 | The lines above the screen are cut from the front and the lines below it from the back. The drawn range is clamped to the screen. |
| Viewers.DrawBox | src/multiplex/box.py:46-72 | A maximized focused box fills rows 0 to the last box row. A box index out of range raises IndexError. |
| Viewers.CropFits | src/multiplex/box.py:46-72 | For a visible box, the drawn lines are exactly the part of the box on screen, one line per screen row. |
| Commands.FocusOn | src/multiplex/commands.py:83-122 | Focusing sets the focus and changes nothing else but the view line. When the box fits the box area, its title, and its last row unless it is collapsed, are on screen afterwards. It succeeds exactly when the viewer is maximized or the new focus is a valid index. |
| Commands.NextBox | src/multiplex/commands.py:83-87 | The focus moves one box down, stopping at the last box. |
| Commands.PreviousBox | src/multiplex/commands.py:89-93 | The focus moves one box up, stopping at the first box. |
| Commands.AllUp | src/multiplex/commands.py:113-117 | The focus moves to the first box. |
| Commands.AllDown | src/multiplex/commands.py:119-123 | The focus moves to the last box. |
| Commands.FocusStaysInRange | src/multiplex/commands.py:83-93 | Next and previous keep the focus on an existing box. |
| Commands.NextThenPrevious | src/multiplex/commands.py:83-93 | Away from the last box, next then previous returns to the same box. |
| Commands.FocusCommandShowsBox | src/multiplex/commands.py:83-87 | After moving the focus, the focused box's title is on screen. |
| Commands.SwitchWithNextBox | src/multiplex/commands.py:95-102 | At the last box nothing happens. Otherwise the box trades places with the next one and keeps the focus. |
| Commands.SwitchWithPreviousBox | src/multiplex/commands.py:104-111 | At the first box nothing happens. Otherwise the box trades places with the previous one and keeps the focus. |
| Commands.SwitchNextThenPrevious | src/multiplex/commands.py:95-111 | Switching with the next box, then with the previous one, restores the order. |
| Commands.ScrollDown | src/multiplex/commands.py:125-152 | Page, half-page and line down change only the view line, clamped to the scroll limit. |
| Commands.ScrollUp | src/multiplex/commands.py:125-152 | Page, half-page and line up change only the view line, never below 0. |
| Commands.ScrollKeepsRange | src/multiplex/commands.py:125-152 | Scrolling keeps the view line between 0 and the scroll limit. |
| Commands.LineDownThenUp | src/multiplex/commands.py:145-152 | Away from the limit, a line down then a line up restores the viewer. |
| Commands.PageUpThenDown | src/multiplex/commands.py:125-134 | Far enough from the top, a page up then a page down restores the viewer. |
| Commands.WrapEach | src/multiplex/box.py:184-194 | Every box's wrap is set to the value. A box that already had it is untouched. A box whose wrap flips starts again at column 0, and its start line is converted to the other grid unless it follows live output; nothing else changes. |
| Commands.CollapseEach | src/multiplex/commands.py:34-41 | Every box's collapsed flag is set to the value and nothing else changes. |
| Commands.ToggleWrapAll | src/multiplex/commands.py:19-26 | The "all wrapped" flag flips and the boxes become `WrapEach` of the old ones with the new value. Focus, maximized flag, help and the collapse flag stay, and only the view line moves. A fitting focused box is on screen afterwards, and a full refresh is asked for. |
| Commands.ToggleCollapseAll | src/multiplex/commands.py:34-41 | The "all collapsed" flag flips and the boxes become `CollapseEach` of the old ones with the new value. Focus, maximized flag, help and the wrap flag stay, and only the view line moves. A fitting focused box is on screen afterwards, and a full refresh is asked for. |
| Commands.CollapseAllTwice | src/multiplex/commands.py:34-41 | Toggling collapse-all twice returns every box to the original flag. |
| Commands.WrapAllTwice | src/multiplex/commands.py:19-26 | Toggling wrap-all twice returns every box to the original flag. |
| Commands.ToggleMaximize | src/multiplex/commands.py:44-47 | Only the maximized flag flips, and a full refresh is asked for. |
| Commands.MaximizeTwice | src/multiplex/commands.py:44-47 | Maximizing twice restores the viewer. |
| Commands.OnFocused | src/multiplex/commands.py:155-204 | A per-box command changes only the focused box's state. The box's own return value is passed on. |
| Commands.FocusedCollapseTwice | src/multiplex/commands.py:29-31 | Collapsing the focused box twice restores the viewer. |
| Commands.ToggleHelp | src/multiplex/commands.py:50-52 | Only the help state changes: visibility flips and the help returns to line 0. A full refresh is asked for. |
| Commands.HelpLineDown | src/multiplex/commands.py:207-210 | Only the help state changes, and its line stays in range. |
| Commands.HelpLineUp | src/multiplex/commands.py:212-215 | Only the help state changes, and its line stays in range. |
| Commands.FocusMoveRedraws | src/multiplex/viewer.py:379-391 | Moving the focus to another box asks for a full refresh. |
| Commands.ScrollRedraws | src/multiplex/viewer.py:379-391 | Scrolling the stack by a line asks for a full refresh whenever the view line moved. |
| Controllers.NewController | src/multiplex/controller.py:7-12 | A new controller has no queue and nothing buffered. |
| Controllers.Write | src/multiplex/controller.py:20-27 | Before init, a write is buffered; after it, the write is queued. |
| Controllers.WriteAllAppends | src/multiplex/controller.py:20-27 | Writes are buffered or queued in order. |
| Controllers.Init | src/multiplex/controller.py:14-18 | Init creates the queue holding every buffered write, in order. |
| Controllers.DeliveredInOrder | src/multiplex/controller.py:7-27 | Writes before and after init reach the queue in the order they were made. |
| Controllers.SetTitle | src/multiplex/controller.py:29-30 | Setting a title writes one SetTitle action. |
| Controllers.Collapse | src/multiplex/controller.py:32-33 | Collapsing writes one Collapse action. |
| Cli.Validate | src/multiplex/main.py:58-82 | With `--load`, only a missing directory or missing metadata is rejected. Otherwise the arguments pass exactly when there is a process, the title count is 0 or the process count, `--wait` comes with a socket, and the wait and box-height counts are at most 1 or the process count. |
| Cli.Defaults | src/multiplex/main.py:137-139 | Missing titles and box heights default to one "none". Missing waits default to one `True`. Given values are kept in order. |
| Cli.CollapseValue | src/multiplex/main.py:28-30 | `/` toggles, `-` collapses and `+` expands. |
| Cli.Bodies | src/multiplex/main.py:33-37 | Process i is paired with title, box height and wait i, each list cycling when shorter. |
| Cli.IpcRequest | src/multiplex/main.py:13-37 | A load wins. No process raises IndexError. `@save` saves and `:` quits. A collapse token becomes a collapse request. "@" becomes a split with the first box height, titled by the first title, or by the rest of the command line joined with spaces when that title is empty. A single other process becomes one addition with the first title, box height and wait. A longer command line becomes a batch with one addition per process. |
| Cli.ValidatedRequest | src/multiplex/main.py:13-82 | Arguments that pass validation always build a request. A batch carries each process's own title. |

## Left out

- Rendering, the asyncio event loop, the terminal, process spawning, IPC sockets, export and logging are I/O and are not modelled. The terminal size is a parameter.
- The pyte screen beyond what `buffer.py` overrides is not modelled. That covers scroll margins (DECSTBM), tabs, cursor addressing and character sets. The cursor is treated as if no margins were set.
- Lined.Feed: every character other than `\r` and `\n` is drawn as a glyph. pyte's parsing of escape sequences (ESC, CSI such as SGR) and its other control characters (TAB, BS, BEL, VT, FF) is not modelled, so the model is faithful only for text of printable characters, `\r` and `\n`.
- Lined.DrawNarrow: draws whatever character it is given, control characters included, for the reason given for `Lined.Feed`.
- Lined.Write: feeds through `Lined.Feed` and shares its limitation on control characters and escape sequences.
- Buffers.Write: writes through `Lined.Write` and shares its limitation on control characters and escape sequences.
- Buffers.ConvertRoundTrip: requires both cursors above the screen's last row (row 999999). There a line feed cannot move the cursor down, so the next raw line redraws rows of the last one and the maps stop being inverse. It also assumes the buffer linked, which `Buffers.NewBufferLinked`, `Buffers.WriteKeepsLinked` and `Buffers.SetWidthKeepsLinked` establish for every buffer built by the model's operations.
- Wide characters: `wcwidth` is a parameter `wide: char -> bool` (wide means two columns). Zero-width characters are not modelled.
- The `end` command closes the viewer through the event loop and is not modelled.
- `Controller.expand` and `Controller.toggle_collapse` are not modelled: they refer to `Expand` and `ToggleCollapse` actions that `actions.py` does not define.
- The thread-safe controller path (`call_soon_threadsafe`) is concurrency and is not modelled.
- Viewer state after an exception is not modelled: an `Err` stands for the exception and nothing after it.
- A box height of `None` on an existing box, and a negative `--box-height`, are not modelled. `Cli.Defaults` carries box heights as given.
- Iterator adapters (`_process_to_iterator`, `_path_to_iterator` and the rest) are I/O and are not modelled. Only their titles, the "N/A" default and the SPLIT short-circuit are.
- Keys.GenericKeyToName: names codes above 255 by number rather than by their character, because `chr(k).isprintable()` for the whole Unicode range is not modelled.
- Keys.KeyToSeq: a flat key list whose first element is neither a string nor a code is reported as TypeError rather than whatever Python would raise later.
- Metadata values are strings (`map<string, string>`); arbitrary Python values are not modelled.
- Cli.IpcRequest: `wait` is taken to be an empty list when the option is not given.
- Commands.HelpLineDown: states only that the help line stays in range. The exact step is stated by `Help.MoveLineDown`.
- Commands.HelpLineUp: states only that the help line stays in range. The exact step is stated by `Help.MoveLineUp`.
- Where the documentation and the code disagree, the model follows the code. `remove_lines` keeps the raw-line maps of removed rows. A box height is clamped to [0, lines - 2], not [1, lines - 2].
- Buffers.Evict: a chunk whose new first unwrapped row is a blank raw line (for instance `"a\n\nb"` with `buffer_lines` 2) makes eviction raise RuntimeError. This is modelled as the code behaves.

=== FILE: actions.dfy ===
/** The box actions of src/multiplex/actions.py: messages a producer sends to
    change its own box's title, collapse state or metadata, alone or in
    batches. */
module Actions {
  import opened Wrappers
  import Titles
  import Box

  datatype Action =
    | SetTitle(title: string)
    | Collapse
    | UpdateMetadata(metadata: map<string, string>)
    | BoxActions(actions: seq<Action>)

  /** `BoxAction.run(box_holder)`. */
  function Run(a: Action, h: Box.Holder): (r: Box.Holder)
    decreases a, 1
    ensures a.SetTitle? ==> r == h.(iter := h.iter.(title := Some(a.title)))
    ensures a.Collapse? ==> r == h.(state := h.state.(collapsed := true))
    ensures a.UpdateMetadata? ==>
              && r == h.(iter := r.iter)
              && r.iter == h.iter.(metadata := r.iter.metadata)
              && (forall k :: k in a.metadata ==> k in r.iter.metadata && r.iter.metadata[k] == a.metadata[k])
              && (forall k :: k !in a.metadata && k in h.iter.metadata ==>
                    k in r.iter.metadata && r.iter.metadata[k] == h.iter.metadata[k])
              && r.iter.metadata.Keys == h.iter.metadata.Keys + a.metadata.Keys
    ensures r.index == h.index && r.buffer == h.buffer
  {
    match a
    case SetTitle(title) => h.(iter := h.iter.(title := Some(title)))
    case Collapse => h.(state := Box.ToggleCollapse(h.state, Some(true)).state)
    case UpdateMetadata(m) => h.(iter := h.iter.(metadata := h.iter.metadata + m))
    case BoxActions(actions) => RunAll(actions, h)
  }

  /** The actions of a batch, in order. */
  function RunAll(actions: seq<Action>, h: Box.Holder): (r: Box.Holder)
    decreases actions, 0
    ensures r.index == h.index && r.buffer == h.buffer
    ensures |actions| == 0 ==> r == h
  {
    if |actions| == 0 then h else RunAll(actions[1..], Run(actions[0], h))
  }

  /** A batch of two batches is the second run after the first. */
  lemma {:induction false} RunAllAppend(xs: seq<Action>, ys: seq<Action>, h: Box.Holder)
    ensures RunAll(xs + ys, h) == RunAll(ys, RunAll(xs, h))
    decreases |xs|
  {
    if |xs| > 0 {
      assert (xs + ys)[0] == xs[0];
      assert (xs + ys)[1..] == xs[1..] + ys;
      RunAllAppend(xs[1..], ys, Run(xs[0], h));
    } else {
      assert xs + ys == ys;
    }
  }

  /** Nesting a batch changes nothing. */
  lemma NestedBatch(xs: seq<Action>, h: Box.Holder)
    ensures Run(BoxActions(xs), h) == RunAll(xs, h)
  {
  }

  /** Collapsing twice is collapsing once. */
  lemma CollapseIdempotent(h: Box.Holder)
    ensures Run(Collapse, Run(Collapse, h)) == Run(Collapse, h)
  {
  }

  /** The last title wins. */
  lemma SetTitleLastWins(t1: string, t2: string, h: Box.Holder)
    ensures Run(SetTitle(t2), Run(SetTitle(t1), h)) == Run(SetTitle(t2), h)
  {
  }

  /** Two metadata updates are one update with the merged dictionary, the
      second's values winning. */
  lemma MetadataUpdatesMerge(m1: map<string, string>, m2: map<string, string>, h: Box.Holder)
    ensures Run(UpdateMetadata(m2), Run(UpdateMetadata(m1), h)) == Run(UpdateMetadata(m1 + m2), h)
  {
    var h1 := Run(UpdateMetadata(m1), h);
    RunMetadata(m1, h);
    RunMetadata(m2, h1);
    RunMetadata(m1 + m2, h);
    assert h.iter.metadata + m1 + m2 == h.iter.metadata + (m1 + m2);
  }

  lemma RunMetadata(m: map<string, string>, h: Box.Holder)
    ensures Run(UpdateMetadata(m), h) == h.(iter := h.iter.(metadata := h.iter.metadata + m))
  {
  }
}

=== FILE: box.dfy ===
/** The per-box viewport of src/multiplex/box.py: `BoxState` and the `TextBox`
    operations, as functions from the box's state, its buffer and what the
    box needs to know of the viewer to the new state and the handler's return
    value. */
module Box {
  import opened Wrappers
  import opened Handler
  import Lined
  import Buffers
  import Titles

  /** `BoxState`. `boxHeight` is the height the viewer assigned; a height
      still unset (`None`) is not part of this model. */
  datatype BoxState = BoxState(
    wrap: bool,
    autoScroll: bool,
    inputMode: bool,
    streamDone: bool,
    collapsed: bool,
    startLine: int,          // buffer_start_line
    firstColumn: int,
    viewLongestLine: int,
    changedHeight: bool,
    boxHeight: int)

  /** `BoxHolder`: a box's position among the boxes, the iterator of its
      source, its buffer and its view state. */
  datatype Holder = Holder(index: int, iter: Titles.Iterator, buffer: Buffers.Buffer, state: BoxState)

  /** `BoxState(box_height)`: wrapped, auto-scrolling, at the top; the height
      counts as changed when one was given. */
  function NewBoxState(boxHeight: Option<int>, defaultHeight: int): (s: BoxState)
    ensures s.wrap && s.autoScroll && !s.inputMode && !s.streamDone && !s.collapsed
    ensures s.startLine == 0 && s.firstColumn == 0 && s.viewLongestLine == 0
    ensures s.changedHeight <==> boxHeight.Some?
  {
    BoxState(true, true, false, false, false, 0, 0, 0, boxHeight.Some?, boxHeight.GetOr(defaultHeight))
  }

  /** What a box reads from the viewer: the terminal size, whether the viewer
      is maximized, whether this box is the focused one, and its index. */
  datatype Frame = Frame(lines: int, cols: int, maximized: bool, focused: bool, index: int)

  /** `viewer.get_max_box_line()`: the last screen row boxes may use. */
  function MaxBoxLine(f: Frame): int {
    f.lines - 2
  }

  predicate IsMaximized(f: Frame) {
    f.maximized && f.focused
  }

  /** `num_view_lines`: the whole screen but the status bar when this box is
      maximized, else its height. */
  function NumViewLines(s: BoxState, f: Frame): int {
    if IsMaximized(f) then f.lines - 1 else s.boxHeight
  }

  function MinStartLine(s: BoxState, b: Buffers.Buffer): int {
    Buffers.View(b, s.wrap).minLine
  }

  /** `max_start_line`: the start line that shows the last row at the bottom,
      but never before the first row. */
  function MaxStartLine(s: BoxState, b: Buffers.Buffer, f: Frame): (m: int)
    ensures m >= MinStartLine(s, b)
    ensures m >= Buffers.View(b, s.wrap).maxLine - NumViewLines(s, f) + 1
    ensures m == MinStartLine(s, b) || m == Buffers.View(b, s.wrap).maxLine - NumViewLines(s, f) + 1
  {
    var g := Buffers.View(b, s.wrap);
    Max(g.minLine, g.maxLine - NumViewLines(s, f) + 1)
  }

  function NumBufferLines(s: BoxState, b: Buffers.Buffer): int {
    Buffers.View(b, s.wrap).maxLine - Buffers.View(b, s.wrap).minLine + 1
  }

  function MaxFirstColumn(s: BoxState, f: Frame): (m: int)
    ensures m >= 0 && m >= s.viewLongestLine - f.cols
  {
    Max(0, s.viewLongestLine - f.cols)
  }

  function Max(a: int, b: int): int { if a >= b then a else b }
  function Min(a: int, b: int): int { if a <= b then a else b }

  datatype Step = Step(state: BoxState, ret: Ret)

  // ---------------------------------------------------------------------------
  // Vertical motion

  /** `_set_min_max_motion`: move the start line to `value`, but not past the
      last start line and not before `minValue`. */
  function SetMinMaxMotion(s: BoxState, b: Buffers.Buffer, f: Frame, value: int, minValue: int): (r: Step)
    ensures r.ret == Index(f.index)
    ensures r.state == s.(startLine := r.state.startLine)
    ensures r.state.startLine >= minValue
    ensures minValue <= MaxStartLine(s, b, f) ==> r.state.startLine <= MaxStartLine(s, b, f)
    ensures minValue <= value <= MaxStartLine(s, b, f) ==> r.state.startLine == value
  {
    Step(s.(startLine := Max(minValue, Min(MaxStartLine(s, b, f), value))), Index(f.index))
  }

  /** Up motions stop at the first start line. */
  function UpMotion(s: BoxState, b: Buffers.Buffer, f: Frame, value: int): (r: Step)
    ensures MinStartLine(s, b) <= r.state.startLine <= MaxStartLine(s, b, f)
    ensures r.state == s.(startLine := r.state.startLine) && r.ret == Index(f.index)
  {
    SetMinMaxMotion(s, b, f, value, MinStartLine(s, b))
  }

  /** Down motions never move the start line up. */
  function DownMotion(s: BoxState, b: Buffers.Buffer, f: Frame, value: int): (r: Step)
    ensures r.state.startLine >= s.startLine
    ensures s.startLine <= MaxStartLine(s, b, f) ==> r.state.startLine <= MaxStartLine(s, b, f)
    ensures r.state == s.(startLine := r.state.startLine) && r.ret == Index(f.index)
  {
    SetMinMaxMotion(s, b, f, value, s.startLine)
  }

  function MoveLineUp(s: BoxState, b: Buffers.Buffer, f: Frame): Step {
    UpMotion(s, b, f, s.startLine - 1)
  }

  function MoveLineDown(s: BoxState, b: Buffers.Buffer, f: Frame): Step {
    DownMotion(s, b, f, s.startLine + 1)
  }

  function MovePageUp(s: BoxState, b: Buffers.Buffer, f: Frame): Step {
    UpMotion(s, b, f, s.startLine - NumViewLines(s, f))
  }

  function MovePageDown(s: BoxState, b: Buffers.Buffer, f: Frame): Step {
    DownMotion(s, b, f, s.startLine + NumViewLines(s, f))
  }

  /** Half pages use Python's floor division. */
  function MoveHalfPageUp(s: BoxState, b: Buffers.Buffer, f: Frame): Step {
    UpMotion(s, b, f, s.startLine - NumViewLines(s, f) / 2)
  }

  function MoveHalfPageDown(s: BoxState, b: Buffers.Buffer, f: Frame): Step {
    DownMotion(s, b, f, s.startLine + NumViewLines(s, f) / 2)
  }

  function MoveAllUp(s: BoxState, b: Buffers.Buffer, f: Frame): (r: Step)
    ensures r.state == s.(startLine := MinStartLine(s, b)) && r.ret == Index(f.index)
  {
    Step(s.(startLine := MinStartLine(s, b)), Index(f.index))
  }

  function MoveAllDown(s: BoxState, b: Buffers.Buffer, f: Frame): (r: Step)
    ensures r.state == s.(startLine := MaxStartLine(s, b, f)) && r.ret == Index(f.index)
  {
    Step(s.(startLine := MaxStartLine(s, b, f)), Index(f.index))
  }

  /** A line down undone by a line up, away from both ends. */
  lemma LineDownThenUp(s: BoxState, b: Buffers.Buffer, f: Frame)
    requires MinStartLine(s, b) <= s.startLine < MaxStartLine(s, b, f)
    ensures var down := MoveLineDown(s, b, f).state;
      MoveLineUp(down, b, f).state == s
  {
  }

  /** A page down undone by a page up, when a whole page fits below. */
  lemma PageDownThenUp(s: BoxState, b: Buffers.Buffer, f: Frame)
    requires NumViewLines(s, f) >= 0
    requires MinStartLine(s, b) <= s.startLine && s.startLine + NumViewLines(s, f) <= MaxStartLine(s, b, f)
    ensures var down := MovePageDown(s, b, f).state;
      MovePageUp(down, b, f).state == s
  {
  }

  /** Jumping to either end twice is jumping once. */
  lemma AllMotionsIdempotent(s: BoxState, b: Buffers.Buffer, f: Frame)
    ensures MoveAllUp(MoveAllUp(s, b, f).state, b, f) == MoveAllUp(s, b, f)
    ensures MoveAllDown(MoveAllDown(s, b, f).state, b, f) == MoveAllDown(s, b, f)
  {
  }

  // ---------------------------------------------------------------------------
  // Horizontal motion (only without wrapping)

  /** The horizontal moves do nothing and return False while wrapping. */
  function Horizontal(s: BoxState, f: Frame, column: int): (r: Step)
    ensures s.wrap ==> r == Step(s, Bool(false))
    ensures !s.wrap ==> r == Step(s.(firstColumn := column), Index(f.index))
  {
    if s.wrap then Step(s, Bool(false)) else Step(s.(firstColumn := column), Index(f.index))
  }

  function MoveRight(s: BoxState, f: Frame): Step {
    Horizontal(s, f, Min(s.firstColumn + 1, MaxFirstColumn(s, f)))
  }

  function MoveLeft(s: BoxState, f: Frame): Step {
    Horizontal(s, f, Max(0, s.firstColumn - 1))
  }

  function MoveHalfScreenRight(s: BoxState, f: Frame): Step {
    Horizontal(s, f, Min(s.firstColumn + f.cols / 2, MaxFirstColumn(s, f)))
  }

  function MoveHalfScreenLeft(s: BoxState, f: Frame): Step {
    Horizontal(s, f, Max(0, s.firstColumn - f.cols / 2))
  }

  function MoveRightUntilEnd(s: BoxState, f: Frame): Step {
    Horizontal(s, f, MaxFirstColumn(s, f))
  }

  function MoveLeftUntilStart(s: BoxState, f: Frame): Step {
    Horizontal(s, f, 0)
  }

  predicate ColumnInRange(s: BoxState, f: Frame) {
    0 <= s.firstColumn <= MaxFirstColumn(s, f)
  }

  /** Every horizontal move keeps the first column within `[0, max_first_column]`,
      changes nothing else, and changes nothing at all while wrapping. */
  lemma HorizontalKeepsColumnInRange(s: BoxState, f: Frame)
    requires ColumnInRange(s, f)
    requires f.cols >= 0
    ensures ColumnInRange(MoveRight(s, f).state, f) && ColumnInRange(MoveLeft(s, f).state, f)
    ensures ColumnInRange(MoveHalfScreenRight(s, f).state, f) && ColumnInRange(MoveHalfScreenLeft(s, f).state, f)
    ensures ColumnInRange(MoveRightUntilEnd(s, f).state, f) && ColumnInRange(MoveLeftUntilStart(s, f).state, f)
  {
  }

  /** A step right undone by a step left, when there is room on the right. */
  lemma RightThenLeft(s: BoxState, f: Frame)
    requires !s.wrap && 0 <= s.firstColumn < MaxFirstColumn(s, f)
    ensures MoveLeft(MoveRight(s, f).state, f).state == s
  {
  }

  // ---------------------------------------------------------------------------
  // Height, modes and toggles

  function IncreaseBoxHeight(s: BoxState, f: Frame): (r: Step)
    ensures r.state.boxHeight <= MaxBoxLine(f)
    ensures r.state.boxHeight == Min(MaxBoxLine(f), s.boxHeight + 1)
    ensures r.state == s.(boxHeight := r.state.boxHeight, changedHeight := true) && r.ret == Bool(true)
  {
    Step(s.(boxHeight := Min(MaxBoxLine(f), s.boxHeight + 1), changedHeight := true), Bool(true))
  }

  function DecreaseBoxHeight(s: BoxState): (r: Step)
    ensures r.state.boxHeight >= 0
    ensures r.state.boxHeight == Max(0, s.boxHeight - 1)
    ensures r.state == s.(boxHeight := r.state.boxHeight, changedHeight := true) && r.ret == FullRefresh
  {
    Step(s.(boxHeight := Max(0, s.boxHeight - 1), changedHeight := true), FullRefresh)
  }

  /** Growing and then shrinking a box restores its height when there was room. */
  lemma IncreaseThenDecrease(s: BoxState, f: Frame)
    requires 0 <= s.boxHeight < MaxBoxLine(f)
    ensures DecreaseBoxHeight(IncreaseBoxHeight(s, f).state).state == s.(changedHeight := true)
  {
  }

  function ToggleAutoScroll(s: BoxState): (r: Step)
    ensures r.state == s.(autoScroll := !s.autoScroll) && r.ret == Bool(true)
  {
    Step(s.(autoScroll := !s.autoScroll), Bool(true))
  }

  /** Flipping auto-scroll twice restores the box. */
  lemma ToggleAutoScrollTwice(s: BoxState)
    ensures ToggleAutoScroll(ToggleAutoScroll(s).state).state == s
  {
  }

  /** Showing and hiding the terminal cursor is output, not modelled. */
  function ActivateInputMode(s: BoxState): (r: Step)
    ensures r.state == s.(inputMode := true) && r.ret == Bool(true)
  {
    Step(s.(inputMode := true), Bool(true))
  }

  function ExitInputMode(s: BoxState): (r: Step)
    ensures r.state == s.(inputMode := false) && r.ret == Bool(true)
  {
    Step(s.(inputMode := false), Bool(true))
  }

  /** Entering and then leaving input mode restores a box that was not in
      it; input mode is on after entering and off after leaving. */
  lemma InputModeRoundTrip(s: BoxState)
    requires !s.inputMode
    ensures ExitInputMode(ActivateInputMode(s).state).state == s
    ensures ActivateInputMode(s).state.inputMode && !ExitInputMode(s).state.inputMode
  {
  }

  /** `toggle_wrap(value)`: nothing happens (False) when the wrap setting
      would not change; otherwise wrapping switches, the first column resets,
      and unless the box is following live output the start line is carried
      to the row of the same raw line in the other grid (0 when there is none). */
  function ToggleWrap(s: BoxState, b: Buffers.Buffer, value: Option<bool>): (r: Step)
    ensures var target := value.GetOr(!s.wrap);
      && (target == s.wrap ==> r == Step(s, Bool(false)))
      && (target != s.wrap ==> r.ret == Bool(true) && r.state.wrap == target && r.state.firstColumn == 0)
    ensures r.state.wrap != s.wrap && s.autoScroll && !s.streamDone ==>
              r.state == s.(wrap := !s.wrap, firstColumn := 0)
    ensures r.state.wrap != s.wrap && (!s.autoScroll || s.streamDone) ==>
              r.state == s.(wrap := !s.wrap, firstColumn := 0,
                            startLine := Buffers.ConvertLineNumber(b, s.startLine, s.wrap, false).value)
  {
    var target := value.GetOr(!s.wrap);
    if target == s.wrap then Step(s, Bool(false))
    else
      var s1 := s.(firstColumn := 0, wrap := target);
      if !s.autoScroll || s.streamDone then
        var line := Buffers.ConvertLineNumber(b, s.startLine, s.wrap, false).value;
        Step(s1.(startLine := line), Bool(true))
      else Step(s1, Bool(true))
  }

  /** Toggling wrap twice with no forced value restores the setting. */
  lemma ToggleWrapTwice(s: BoxState, b: Buffers.Buffer)
    ensures ToggleWrap(ToggleWrap(s, b, None).state, b, None).state.wrap == s.wrap
    ensures ToggleWrap(ToggleWrap(s, b, None).state, b, None).state.firstColumn == 0
  {
  }

  /** `toggle_collapse(value)`: collapse (or expand) as forced, else flip;
      collapsing asks for a full refresh. */
  function ToggleCollapse(s: BoxState, value: Option<bool>): (r: Step)
    ensures r.state == s.(collapsed := value.GetOr(!s.collapsed))
    ensures r.ret == if r.state.collapsed then FullRefresh else Bool(true)
  {
    var collapsed := value.GetOr(!s.collapsed);
    Step(s.(collapsed := collapsed), if collapsed then FullRefresh else Bool(true))
  }

  lemma ToggleCollapseTwice(s: BoxState)
    ensures ToggleCollapse(ToggleCollapse(s, None).state, None).state == s
  {
  }

  /** `strip_empty_lines`: once the stream is done (or when asked regardless),
      shrink the box to the rows its buffer holds. */
  function StripEmptyLines(s: BoxState, b: Buffers.Buffer, includeNotStreamDone: bool): (s': BoxState)
    ensures !includeNotStreamDone && !s.streamDone ==> s' == s
    ensures includeNotStreamDone || s.streamDone ==>
              s' == s.(boxHeight := Min(s.boxHeight, NumBufferLines(s, b)))
    ensures s'.boxHeight <= s.boxHeight
  {
    if !includeNotStreamDone && !s.streamDone then s
    else s.(boxHeight := Min(s.boxHeight, NumBufferLines(s, b)))
  }

  // ---------------------------------------------------------------------------
  // Reading text and resizing

  datatype Text = Text(state: BoxState, lines: seq<string>)

  /** The longest of the reported line lengths, or 0. */
  function Longest(ls: seq<(nat, string)>): (m: nat)
    ensures forall i :: 0 <= i < |ls| ==> ls[i].0 <= m
    ensures |ls| == 0 ==> m == 0
    ensures |ls| > 0 ==> exists i :: 0 <= i < |ls| && ls[i].0 == m
  {
    if |ls| == 0 then 0
    else
      var rest := Longest(ls[1..]);
      assert forall i :: 1 <= i < |ls| ==> ls[i] == ls[1..][i - 1];
      if ls[0].0 >= rest then ls[0].0 else rest
  }

  /** `update_text`: a box following live output first jumps to its last start
      line; then the rows in view are read from the grid the wrap setting
      selects, and an unwrapped box remembers its longest row. */
  function UpdateText(s: BoxState, b: Buffers.Buffer, f: Frame, ansi: map<nat, string>,
                      wide: char -> bool): (r: Result<Text>)
    ensures var start := if s.autoScroll && !s.streamDone then MaxStartLine(s, b, f) else s.startLine;
            var got := Lined.GetLines(Buffers.View(b, s.wrap), ansi, NumViewLines(s, f), start, f.cols, s.firstColumn, wide);
      && r.Ok? == got.Ok?
      && (r.Ok? ==> |r.value.lines| == |got.value|
                    && (forall i :: 0 <= i < |got.value| ==> r.value.lines[i] == got.value[i].1)
                    && r.value.state.startLine == start
                    && r.value.state.viewLongestLine == (if s.wrap then s.viewLongestLine else Longest(got.value))
                    && r.value.state == s.(startLine := start, viewLongestLine := r.value.state.viewLongestLine))
  {
    var start := if s.autoScroll && !s.streamDone then MaxStartLine(s, b, f) else s.startLine;
    var s1 := s.(startLine := start);
    var got :- Lined.GetLines(Buffers.View(b, s.wrap), ansi, NumViewLines(s, f), start, f.cols, s.firstColumn, wide);
    var s2 := if !s.wrap then s1.(viewLongestLine := Longest(got)) else s1;
    Ok(Text(s2, seq(|got|, i requires 0 <= i < |got| => got[i].1)))
  }

  datatype Resized = Resized(state: BoxState, buffer: Buffers.Buffer)

  /** `set_width`: rebuild the wrapped grid at the new width; a wrapped box not
      following live output moves its start line to the first wrapped row of
      the raw line it showed (raw line 0 when its row had none), which fails
      when the new grid has no row for that raw line. */
  function SetWidth(s: BoxState, b: Buffers.Buffer, width: nat, terminalColumns: nat,
                    wide: char -> bool): (r: Result<Resized>)
    requires Buffers.Valid(b)
    ensures r.Ok? ==> r.value.state == s.(startLine := r.value.state.startLine)
    ensures var b' := Buffers.SetWidth(b, width, terminalColumns, wide);
            var raw := if s.startLine in b.wrapping.selfToRaw then b.wrapping.selfToRaw[s.startLine] else 0;
      && (!(s.wrap && (!s.autoScroll || s.streamDone)) ==> r == Ok(Resized(s, b')))
      && (s.wrap && (!s.autoScroll || s.streamDone) ==>
            if raw in b'.wrapping.rawToSelf
            then r == Ok(Resized(s.(startLine := b'.wrapping.rawToSelf[raw]), b'))
            else r == Err(KeyError))
  {
    var raw := if s.startLine in b.wrapping.selfToRaw then b.wrapping.selfToRaw[s.startLine] else 0;
    var b' := Buffers.SetWidth(b, width, terminalColumns, wide);
    if s.wrap && (!s.autoScroll || s.streamDone) then
      if raw in b'.wrapping.rawToSelf then Ok(Resized(s.(startLine := b'.wrapping.rawToSelf[raw]), b'))
      else Err(KeyError)
    else Ok(Resized(s, b'))
  }

  /** What the re-anchoring in `set_width` achieves: once the rebuilt grid
      keeps its maps inverse (its cursor above the screen's last row), the
      start line a wrapped, non-following box moves to is a row of the new
      grid belonging to the very raw line the box showed before. */
  lemma SetWidthReanchors(s: BoxState, b: Buffers.Buffer, width: nat, terminalColumns: nat, wide: char -> bool)
    requires Buffers.Valid(b) && Buffers.Linked(b)
    requires Buffers.SetWidth(b, width, terminalColumns, wide).wrapping.cursor.y < Lined.Big - 1
    requires s.wrap && (!s.autoScroll || s.streamDone)
    requires SetWidth(s, b, width, terminalColumns, wide).Ok?
    ensures var r := SetWidth(s, b, width, terminalColumns, wide).value;
      && r.state.startLine in r.buffer.wrapping.selfToRaw
      && r.buffer.wrapping.selfToRaw[r.state.startLine]
           == (if s.startLine in b.wrapping.selfToRaw then b.wrapping.selfToRaw[s.startLine] else 0)
  {
    Buffers.SetWidthKeepsLinked(b, width, terminalColumns, wide);
  }
}

=== FILE: buffer.dfy ===
/** `Buffer` of src/multiplex/buffer.py: one output stream kept three ways, as
    raw text, as an unwrapped grid (`lined`) and as a grid wrapped at the box
    width (`wrapping`), with each grid mapping its rows to raw line numbers and
    back so positions can be carried between the two. With `buffer_lines` set,
    the unwrapped grid is trimmed to that many rows and the wrapped grid to the
    same raw lines. */
module Buffers {
  import opened Wrappers
  import opened Text
  import Lined
  import RawStore

  datatype Buffer = Buffer(
    bufferLines: nat,            // 0 when unset
    raw: RawStore.RawStore,
    rawLines: int,
    lined: Lined.LinedBuffer,
    wrapping: Lined.LinedBuffer)

  ghost predicate Valid(b: Buffer) {
    Lined.Valid(b.lined) && Lined.Valid(b.wrapping)
  }

  /** `Buffer(width, buffer_lines)`; `terminalColumns` stands for
      `shutil.get_terminal_size().columns`, used when no width is given. */
  function NewBuffer(width: nat, bufferLines: nat, terminalColumns: nat): (b: Buffer)
    ensures Valid(b)
    ensures b.lined.width == Lined.Big
    ensures b.wrapping.width == if width > 0 then width else if terminalColumns > 0 then terminalColumns else Lined.Big
    ensures b.raw == RawStore.NewRawStore(bufferLines) && b.rawLines == 0
  {
    Buffer(bufferLines, RawStore.NewRawStore(bufferLines), 0,
           Lined.NewLinedBuffer(None), Lined.NewLinedBuffer(Some(if width > 0 then width else terminalColumns)))
  }

  /** The grid `get_lines`, `get_min_line`, `get_max_line` and `get_cursor` read. */
  function View(b: Buffer, wrap: bool): Lined.LinedBuffer {
    if wrap then b.wrapping else b.lined
  }

  /** `Buffer.convert_line_number`: the row of the other grid holding the first
      row of the same raw line. A row with no raw line, or a raw line the other
      grid never drew, gives 0, or a `RuntimeError` when failing is asked for. */
  function ConvertLineNumber(b: Buffer, line: int, fromWrapped: bool, failOnError: bool): (r: Result<int>)
    ensures var from := View(b, fromWrapped);
            var to := View(b, !fromWrapped);
      r.Ok? && (line !in from.selfToRaw || from.selfToRaw[line] !in to.rawToSelf) ==> r.value == 0
    ensures var from := View(b, fromWrapped);
            var to := View(b, !fromWrapped);
      r == Err(RuntimeError) <==> failOnError && (line !in from.selfToRaw || from.selfToRaw[line] !in to.rawToSelf)
    ensures var from := View(b, fromWrapped);
            var to := View(b, !fromWrapped);
      line in from.selfToRaw && from.selfToRaw[line] in to.rawToSelf ==> r == Ok(to.rawToSelf[from.selfToRaw[line]])
  {
    var from := View(b, fromWrapped);
    var to := View(b, !fromWrapped);
    if line !in from.selfToRaw then
      if failOnError then Err(RuntimeError) else Ok(0)
    else
      var raw := from.selfToRaw[line];
      if raw !in to.rawToSelf then
        if failOnError then Err(RuntimeError) else Ok(0)
      else Ok(to.rawToSelf[raw])
  }

  /** Converting a row that starts its raw line to the other grid and back
      gives the row again, whenever the other grid drew that raw line: the
      maps `Write` and `SetWidth` keep linked (`Linked`) make the other
      grid's first row of the line map back to it. */
  lemma ConvertRoundTrip(b: Buffer, line: int, fromWrapped: bool, failOnError: bool)
    requires Linked(b) && b.lined.cursor.y < Lined.Big - 1 && b.wrapping.cursor.y < Lined.Big - 1
    requires var from := View(b, fromWrapped);
      line in from.selfToRaw && from.selfToRaw[line] in from.rawToSelf && from.rawToSelf[from.selfToRaw[line]] == line
    requires View(b, fromWrapped).selfToRaw[line] in View(b, !fromWrapped).rawToSelf
    ensures ConvertLineNumber(b, line, fromWrapped, failOnError).Ok?
    ensures ConvertLineNumber(b, ConvertLineNumber(b, line, fromWrapped, failOnError).value, !fromWrapped, failOnError)
         == Ok(line)
  {
    var to := View(b, !fromWrapped);
    assert MapsInverse(to);
  }

  // ---------------------------------------------------------------------------
  // Writing

  /** The text fed to the grids for one piece of a chunk: every piece but the
      last gets its line ended, adding a carriage return unless it already
      ends with one. */
  function Segment(piece: string, last: bool): (s: string)
    ensures last ==> s == piece
    ensures !last ==> s == piece + "\r\n" || (|piece| > 0 && piece[|piece| - 1] == '\r' && s == piece + "\n")
  {
    if last then piece
    else piece + (if |piece| > 0 && piece[|piece| - 1] == '\r' then "" else "\r") + "\n"
  }

  /** One grid's share of a piece: write it, then map the raw line to the
      first row it dirtied and every dirtied row to the raw line. */
  function WriteLined(g: Lined.LinedBuffer, seg: string, raw: int, wide: char -> bool): (g': Lined.LinedBuffer)
    requires Lined.Valid(g)
    ensures Lined.Valid(g')
    ensures g'.width == g.width && g'.minLine == g.minLine && g'.maxLine >= g.maxLine
    ensures var d := Lined.Write(g, seg, wide).rows;
      && (|d| > 0 ==> g'.rawToSelf == g.rawToSelf[raw := d[0]]
                      && forall z :: z in d ==> g'.rawToSelf[raw] <= z)
      && (|d| == 0 ==> g'.rawToSelf == g.rawToSelf)
      && (forall z :: z in g'.selfToRaw <==> z in g.selfToRaw || z in d)
      && (forall z :: z in g'.selfToRaw ==> g'.selfToRaw[z] == if z in d then raw else g.selfToRaw[z])
  {
    var d := Lined.Write(g, seg, wide);
    if |d.rows| == 0 then d.grid
    else
      var dirty := set z | z in d.rows;
      d.grid.(rawToSelf := d.grid.rawToSelf[raw := d.rows[0]],
              selfToRaw := map z | z in d.grid.selfToRaw.Keys + dirty
                             :: if z in dirty then raw else d.grid.selfToRaw[z])
  }

  /** The trimming at the end of each piece when `buffer_lines` is set: the
      unwrapped grid drops its oldest rows down to `buffer_lines`, and the
      wrapped grid drops every row before the wrapped row of the unwrapped
      grid's new first row. That conversion fails when the new first row has
      no raw line. */
  function Evict(b: Buffer): (r: Result<Buffer>)
    requires Valid(b) && b.bufferLines > 0
    ensures r.Ok? ==> Valid(r.value)
    ensures r.Ok? ==> r.value.lined.maxLine - r.value.lined.minLine + 1 <= b.bufferLines
    ensures r.Ok? ==> r.value.raw == b.raw && r.value.rawLines == b.rawLines && r.value.bufferLines == b.bufferLines
    ensures r.Ok? ==> r.value.lined.width == b.lined.width && r.value.wrapping.width == b.wrapping.width
    ensures r.Ok? ==> r.value.lined.maxLine == b.lined.maxLine && r.value.wrapping.maxLine == b.wrapping.maxLine
    ensures r.Ok? ==> && r.value.lined == b.lined.(rows := r.value.lined.rows, minLine := r.value.lined.minLine)
                      && r.value.wrapping == b.wrapping.(rows := r.value.wrapping.rows, minLine := r.value.wrapping.minLine)
    ensures b.lined.maxLine - b.lined.minLine + 1 <= b.bufferLines ==> r == Ok(b)
    ensures var total := b.lined.maxLine - b.lined.minLine + 1;
            var newMin := b.lined.maxLine - b.bufferLines + 1;
      total > b.bufferLines ==>
        && r.Ok? == (newMin in b.lined.selfToRaw && b.lined.selfToRaw[newMin] in b.wrapping.rawToSelf)
        && (r.Ok? ==> && r.value.lined.minLine == newMin
                      && r.value.wrapping.minLine == b.wrapping.rawToSelf[b.lined.selfToRaw[newMin]]
                      && (forall y :: y in r.value.lined.rows <==> y in b.lined.rows && !(b.lined.minLine <= y < newMin))
                      && (forall y :: y in r.value.wrapping.rows <==>
                            y in b.wrapping.rows && !(b.wrapping.minLine <= y < r.value.wrapping.minLine)))
  {
    var total := b.lined.maxLine - b.lined.minLine + 1;
    if total <= b.bufferLines then Ok(b)
    else
      var rl := Lined.RemoveLines(b.lined, total - b.bufferLines, b.lined.minLine);
      var b1 := b.(lined := rl.grid.(minLine := rl.newMin));
      var conv :- ConvertLineNumber(b1, b1.lined.minLine, false, true);
      var rw := Lined.RemoveLines(b.wrapping, conv - b.wrapping.minLine, b.wrapping.minLine);
      Ok(b1.(wrapping := rw.grid.(minLine := rw.newMin)))
  }

  /** The raw line number a piece is recorded under: the running count when
      the raw store is written, else counted back from it (a replay of the
      stored text). */
  function CurrentRaw(b: Buffer, n: nat, i: nat, skipRaw: bool): int {
    if skipRaw then b.rawLines - n + i + 1 else b.rawLines
  }

  /** The raw store after piece `i` of `n`: the first piece continues the
      current line, later pieces start new ones, and every piece but the last
      is followed by a newline. */
  function RawAfterPiece(r: RawStore.RawStore, piece: string, i: nat, n: nat): RawStore.RawStore {
    var r1 := if i > 0 then RawStore.WriteLine(r, piece) else RawStore.Write(r, piece);
    if i + 1 < n then RawStore.Newline(r1) else r1
  }

  /** One iteration of the loop of `Buffer.write`: piece `i` of `pieces`. */
  function WritePiece(b: Buffer, pieces: seq<string>, i: nat, skipRaw: bool, both: bool,
                      wide: char -> bool): (r: Result<Buffer>)
    requires Valid(b) && i < |pieces|
    ensures r.Ok? ==> Valid(r.value)
    ensures skipRaw || b.bufferLines == 0 ==> r.Ok?
    ensures r.Ok? ==> r.value.bufferLines == b.bufferLines
    ensures r.Ok? ==> r.value.lined.width == b.lined.width && r.value.wrapping.width == b.wrapping.width
    ensures r.Ok? && skipRaw ==> r.value.raw == b.raw && r.value.rawLines == b.rawLines
    ensures r.Ok? && !skipRaw ==> r.value.raw == RawAfterPiece(b.raw, pieces[i], i, |pieces|)
    ensures r.Ok? && !skipRaw ==> r.value.rawLines == b.rawLines + (if i > 0 then 1 else 0)
    ensures r.Ok? && !both && skipRaw ==> r.value.lined == b.lined
    ensures r.Ok? && !skipRaw && b.bufferLines > 0 ==>
              r.value.lined.maxLine - r.value.lined.minLine + 1 <= b.bufferLines
    ensures var cur := PieceRaw(b, |pieces|, i, skipRaw);
            var seg := Segment(pieces[i], i == |pieces| - 1);
      r.Ok? ==> && LinksOf(r.value.wrapping) == LinksOf(WriteLined(b.wrapping, seg, cur, wide))
                && (both ==> LinksOf(r.value.lined) == LinksOf(WriteLined(b.lined, seg, cur, wide)))
                && r.value.rawLines == (if skipRaw then b.rawLines else cur)
  {
    var piece := pieces[i];
    var raw := if skipRaw then b.raw else RawAfterPiece(b.raw, piece, i, |pieces|);
    var rawLines := if !skipRaw && i > 0 then b.rawLines + 1 else b.rawLines;
    var b1 := b.(raw := raw, rawLines := rawLines);
    var current := CurrentRaw(b1, |pieces|, i, skipRaw);
    var seg := Segment(piece, i == |pieces| - 1);
    var lined := if both then WriteLined(b1.lined, seg, current, wide) else b1.lined;
    var wrapping := WriteLined(b1.wrapping, seg, current, wide);
    var b2 := b1.(lined := lined, wrapping := wrapping);
    if !skipRaw && b.bufferLines > 0 then Evict(b2) else Ok(b2)
  }

  /** The loop of `Buffer.write` over the pieces of a chunk from piece `i`;
      `both` is false when only the wrapped grid is written (the replay in
      the width setter). */
  function WritePieces(b: Buffer, pieces: seq<string>, i: nat, skipRaw: bool, both: bool,
                       wide: char -> bool): (r: Result<Buffer>)
    requires Valid(b)
    ensures r.Ok? ==> Valid(r.value)
    ensures skipRaw || b.bufferLines == 0 ==> r.Ok?
    ensures r.Ok? ==> r.value.bufferLines == b.bufferLines
    ensures r.Ok? ==> r.value.lined.width == b.lined.width && r.value.wrapping.width == b.wrapping.width
    ensures r.Ok? && skipRaw ==> r.value.raw == b.raw && r.value.rawLines == b.rawLines
    ensures r.Ok? && !skipRaw ==> r.value.raw == RawStore.WritePieces(b.raw, pieces, i)
    ensures r.Ok? && !skipRaw ==> r.value.rawLines == b.rawLines + (if i < |pieces| then |pieces| - (if i == 0 then 1 else i) else 0)
    ensures r.Ok? && !both && skipRaw ==> r.value.lined == b.lined
    ensures r.Ok? && !skipRaw && b.bufferLines > 0 && i < |pieces| ==>
              r.value.lined.maxLine - r.value.lined.minLine + 1 <= b.bufferLines
    decreases |pieces| - i
  {
    if i >= |pieces| then Ok(b)
    else
      var b1 :- WritePiece(b, pieces, i, skipRaw, both, wide);
      WritePieces(b1, pieces, i + 1, skipRaw, both, wide)
  }

  /** `Buffer.write(data)`. */
  function Write(b: Buffer, data: string, wide: char -> bool): (r: Result<Buffer>)
    requires Valid(b)
    ensures r.Ok? ==> Valid(r.value)
    ensures r.Ok? ==> r.value.raw == RawStore.WriteChunk(b.raw, data)
    ensures r.Ok? ==> r.value.rawLines == b.rawLines + Count(data, '\n')
    ensures r.Ok? && b.bufferLines > 0 ==> r.value.lined.maxLine - r.value.lined.minLine + 1 <= b.bufferLines
    ensures r.Ok? ==> r.value.lined.width == b.lined.width && r.value.wrapping.width == b.wrapping.width
    ensures b.bufferLines == 0 ==> r.Ok?
  {
    WritePieces(b, Split(data, '\n'), 0, false, true, wide)
  }

  /** The `width` setter: a fresh wrapped grid of the new width, into which
      the stored raw text is replayed, its pieces numbered back from the
      current raw line. Nothing else changes. */
  function SetWidth(b: Buffer, width: nat, terminalColumns: nat, wide: char -> bool): (b': Buffer)
    requires Valid(b)
    ensures Valid(b')
    ensures b'.wrapping.width == if width > 0 then width else if terminalColumns > 0 then terminalColumns else Lined.Big
    ensures b'.lined == b.lined && b'.raw == b.raw && b'.rawLines == b.rawLines && b'.bufferLines == b.bufferLines
    ensures var blank := Lined.NewLinedBuffer(Some(if width > 0 then width else terminalColumns));
      Lined.Screen(b'.wrapping) == Lined.Screen(Lined.Feed(blank, Replay(Split(RawStore.GetValue(b.raw), '\n'), 0), wide))
  {
    var blank := Lined.NewLinedBuffer(Some(if width > 0 then width else terminalColumns));
    WritePiecesReplays(b.(wrapping := blank), Split(RawStore.GetValue(b.raw), '\n'), 0, wide);
    WritePieces(b.(wrapping := blank), Split(RawStore.GetValue(b.raw), '\n'), 0, true, false, wide).value
  }

  // ---------------------------------------------------------------------------
  // What the width setter draws

  /** The text a replay of `pieces` from piece `i` on feeds the wrapped grid:
      each piece ended as `Segment` ends it. */
  function Replay(pieces: seq<string>, i: nat): string
    decreases |pieces| - i
  {
    if i >= |pieces| then "" else Segment(pieces[i], i == |pieces| - 1) + Replay(pieces, i + 1)
  }

  /** One grid's share of a piece draws exactly what feeding the segment draws. */
  lemma WriteLinedScreen(g: Lined.LinedBuffer, seg: string, raw: int, wide: char -> bool)
    requires Lined.Valid(g)
    ensures Lined.Screen(WriteLined(g, seg, raw, wide)) == Lined.Screen(Lined.Feed(g, seg, wide))
  {
  }

  /** A replayed piece touches the wrapped grid only, and never fails. */
  lemma ReplayPiece(b: Buffer, pieces: seq<string>, i: nat, wide: char -> bool)
    requires Valid(b) && i < |pieces|
    ensures WritePiece(b, pieces, i, true, false, wide)
         == Ok(b.(wrapping := WriteLined(b.wrapping, Segment(pieces[i], i == |pieces| - 1), PieceRaw(b, |pieces|, i, true), wide)))
  {
  }

  /** Replaying pieces `i ..` draws what feeding their `Replay` text draws. */
  lemma {:induction false} WritePiecesReplays(b: Buffer, pieces: seq<string>, i: nat, wide: char -> bool)
    requires Valid(b)
    ensures var r := WritePieces(b, pieces, i, true, false, wide);
      r.Ok? && Lined.Screen(r.value.wrapping) == Lined.Screen(Lined.Feed(b.wrapping, Replay(pieces, i), wide))
    decreases |pieces| - i
  {
    if i < |pieces| {
      var seg := Segment(pieces[i], i == |pieces| - 1);
      var g := b.wrapping;
      var b1 := b.(wrapping := WriteLined(g, seg, PieceRaw(b, |pieces|, i, true), wide));
      ReplayPiece(b, pieces, i, wide);
      assert WritePieces(b, pieces, i, true, false, wide) == WritePieces(b1, pieces, i + 1, true, false, wide);
      WritePiecesReplays(b1, pieces, i + 1, wide);
      var rest := Replay(pieces, i + 1);
      WriteLinedScreen(g, seg, PieceRaw(b, |pieces|, i, true), wide);
      Lined.FeedScreen(b1.wrapping, Lined.Feed(g, seg, wide), rest, wide);
      Lined.FeedAppend(g, seg, rest, wide);
    } else {
      assert WritePieces(b, pieces, i, true, false, wide) == Ok(b);
    }
  }

  // ---------------------------------------------------------------------------
  // The row maps stay each other's inverse

  /** Every raw line a grid records points at a row that maps back to it. */
  ghost predicate MapsInverse(g: Lined.LinedBuffer) {
    forall r :: r in g.rawToSelf ==> g.rawToSelf[r] in g.selfToRaw && g.selfToRaw[g.rawToSelf[r]] == r
  }

  /** No mapped row lies below the cursor row, and a mapped cursor row belongs
      to raw line `cur`, the line still being written. */
  ghost predicate OpenAt(g: Lined.LinedBuffer, cur: int) {
    forall z :: z in g.selfToRaw ==> z <= g.cursor.y && (z == g.cursor.y ==> g.selfToRaw[z] == cur)
  }

  /** Every mapped row lies above the cursor row: the last line was ended. */
  ghost predicate Closed(g: Lined.LinedBuffer) {
    forall z :: z in g.selfToRaw ==> z < g.cursor.y
  }

  /** A grid between writes with raw line `cur` open. On the screen's last row
      a line feed cannot move the cursor down, so the next raw line redraws
      rows of the last one; the maps are claimed inverse only above that row. */
  ghost predicate Tracks(g: Lined.LinedBuffer, cur: int) {
    g.dirty == [] && (g.cursor.y < Lined.Big - 1 ==> MapsInverse(g) && OpenAt(g, cur))
  }

  /** A grid whose last line was ended, ready for any next raw line. */
  ghost predicate Fresh(g: Lined.LinedBuffer) {
    g.dirty == [] && (g.cursor.y < Lined.Big - 1 ==> MapsInverse(g) && Closed(g))
  }

  /** Both grids track the buffer's current raw line. */
  ghost predicate Linked(b: Buffer) {
    Tracks(b.lined, b.rawLines) && Tracks(b.wrapping, b.rawLines)
  }

  lemma FreshTracks(g: Lined.LinedBuffer, cur: int)
    requires Fresh(g)
    ensures Tracks(g, cur)
  {
  }

  /** Writing a segment of the open raw line keeps the grid tracking it. */
  lemma WriteLinedTracks(g: Lined.LinedBuffer, seg: string, raw: int, wide: char -> bool)
    requires Lined.Valid(g) && Tracks(g, raw)
    ensures Tracks(WriteLined(g, seg, raw, wide), raw)
  {
    var d := Lined.Write(g, seg, wide);
    var g' := WriteLined(g, seg, raw, wide);
    Lined.WriteRows(g, seg, wide);
    assert g'.cursor == d.grid.cursor && g'.dirty == d.grid.dirty;
    if g'.cursor.y < Lined.Big - 1 {
      forall r | r in g'.rawToSelf
        ensures g'.rawToSelf[r] in g'.selfToRaw && g'.selfToRaw[g'.rawToSelf[r]] == r
      {
        if |d.rows| == 0 || r != raw {
          assert g.rawToSelf[r] in g.selfToRaw && g.selfToRaw[g.rawToSelf[r]] == r;
          assert g.rawToSelf[r] !in d.rows;
        }
      }
    }
  }

  /** Writing a segment that ends its line leaves the grid ready for the next. */
  lemma WriteLinedCloses(g: Lined.LinedBuffer, seg: string, raw: int, wide: char -> bool)
    requires Lined.Valid(g) && Tracks(g, raw)
    requires |seg| > 0 && seg[|seg| - 1] == '\n'
    ensures Fresh(WriteLined(g, seg, raw, wide))
  {
    var s := seg[..|seg| - 1];
    assert seg == s + "\n";
    WriteLinedTracks(g, seg, raw, wide);
    Lined.WriteRows(g, seg, wide);
    Lined.WriteLineRows(g, s, wide);
  }

  /** The raw line piece `i` of `n` is recorded under (`CurrentRaw` after the
      piece's own increment). */
  function PieceRaw(b: Buffer, n: nat, i: nat, skipRaw: bool): int {
    if skipRaw then b.rawLines - n + i + 1 else if i > 0 then b.rawLines + 1 else b.rawLines
  }

  /** What a grid holds before piece `i` of `n`: the first piece continues
      the open line, a later one starts after an ended line, and after the
      last piece the buffer's current raw line is open. */
  ghost predicate PieceStart(g: Lined.LinedBuffer, b: Buffer, n: nat, i: nat, skipRaw: bool) {
    if i == 0 then Tracks(g, PieceRaw(b, n, 0, skipRaw))
    else if i < n then Fresh(g)
    else Tracks(g, b.rawLines)
  }

  ghost predicate Ready(b: Buffer, n: nat, i: nat, skipRaw: bool, both: bool) {
    PieceStart(b.wrapping, b, n, i, skipRaw) && (both ==> PieceStart(b.lined, b, n, i, skipRaw))
  }

  /** The parts of a grid the row maps' invariants speak of. */
  function LinksOf(g: Lined.LinedBuffer): (int, map<int, int>, map<int, int>, seq<int>) {
    (g.cursor.y, g.rawToSelf, g.selfToRaw, g.dirty)
  }

  lemma PieceEnd(g: Lined.LinedBuffer, g': Lined.LinedBuffer, seg: string, cur: int, last: bool, wide: char -> bool)
    requires Lined.Valid(g) && Tracks(g, cur)
    requires LinksOf(g') == LinksOf(WriteLined(g, seg, cur, wide))
    requires !last ==> |seg| > 0 && seg[|seg| - 1] == '\n'
    ensures last ==> Tracks(g', cur)
    ensures !last ==> Fresh(g')
  {
    var h := WriteLined(g, seg, cur, wide);
    assert g'.cursor.y == h.cursor.y && g'.rawToSelf == h.rawToSelf && g'.selfToRaw == h.selfToRaw && g'.dirty == h.dirty;
    if last {
      WriteLinedTracks(g, seg, cur, wide);
    } else {
      WriteLinedCloses(g, seg, cur, wide);
    }
  }

  /** Each written grid tracks the buffer's current raw line. */
  ghost predicate Settled(b: Buffer, both: bool) {
    Tracks(b.wrapping, b.rawLines) && (both ==> Tracks(b.lined, b.rawLines))
  }

  lemma WritePieceLinks(b: Buffer, pieces: seq<string>, i: nat, skipRaw: bool, both: bool, wide: char -> bool)
    requires Valid(b) && i < |pieces| && Ready(b, |pieces|, i, skipRaw, both)
    ensures var r := WritePiece(b, pieces, i, skipRaw, both, wide);
      r.Ok? ==> Ready(r.value, |pieces|, i + 1, skipRaw, both)
  {
    var n := |pieces|;
    var cur := PieceRaw(b, n, i, skipRaw);
    var seg := Segment(pieces[i], i == n - 1);
    var r := WritePiece(b, pieces, i, skipRaw, both, wide);
    if i > 0 {
      FreshTracks(b.wrapping, cur);
      if both { FreshTracks(b.lined, cur); }
    }
    if r.Ok? {
      PieceEnd(b.wrapping, r.value.wrapping, seg, cur, i + 1 == n, wide);
      if both { PieceEnd(b.lined, r.value.lined, seg, cur, i + 1 == n, wide); }
    }
  }

  lemma {:induction false} WritePiecesLinks(b: Buffer, pieces: seq<string>, i: nat, skipRaw: bool, both: bool,
                                            wide: char -> bool)
    requires Valid(b) && 0 < |pieces| && i <= |pieces| && Ready(b, |pieces|, i, skipRaw, both)
    ensures var r := WritePieces(b, pieces, i, skipRaw, both, wide);
      r.Ok? ==> Settled(r.value, both)
    decreases |pieces| - i
  {
    if i < |pieces| {
      var r1 := WritePiece(b, pieces, i, skipRaw, both, wide);
      if r1.Ok? {
        var r := WritePieces(b, pieces, i, skipRaw, both, wide);
        var r2 := WritePieces(r1.value, pieces, i + 1, skipRaw, both, wide);
        assert r == r2;
        assert Ready(r1.value, |pieces|, i + 1, skipRaw, both) by {
          WritePieceLinks(b, pieces, i, skipRaw, both, wide);
        }
        WritePiecesLinks(r1.value, pieces, i + 1, skipRaw, both, wide);
        assert r2.Ok? ==> Settled(r2.value, both);
      } else {
        assert WritePieces(b, pieces, i, skipRaw, both, wide).Err?;
      }
    } else {
      assert WritePieces(b, pieces, i, skipRaw, both, wide) == Ok(b);
    }
  }

  /** A new buffer's maps are empty, so trivially linked. */
  lemma NewBufferLinked(width: nat, bufferLines: nat, terminalColumns: nat)
    ensures Linked(NewBuffer(width, bufferLines, terminalColumns))
  {
  }

  /** `write` keeps both grids' maps each other's inverse. */
  lemma WriteKeepsLinked(b: Buffer, data: string, wide: char -> bool)
    requires Valid(b) && Linked(b)
    ensures Write(b, data, wide).Ok? ==> Linked(Write(b, data, wide).value)
  {
    WritePiecesLinks(b, Split(data, '\n'), 0, false, true, wide);
  }

  /** The width setter keeps them too: the replayed grid maps afresh. */
  lemma SetWidthKeepsLinked(b: Buffer, width: nat, terminalColumns: nat, wide: char -> bool)
    requires Valid(b) && Linked(b)
    ensures Linked(SetWidth(b, width, terminalColumns, wide))
  {
    var blank := Lined.NewLinedBuffer(Some(if width > 0 then width else terminalColumns));
    WritePiecesLinks(b.(wrapping := blank), Split(RawStore.GetValue(b.raw), '\n'), 0, true, false, wide);
  }

  // ---------------------------------------------------------------------------
  // Which raw lines a write records

  /** Every entry `g'` adds to or changes in `g`'s maps carries raw line
      `lo .. hi`, and no row or raw line is dropped. */
  ghost predicate RecordsWithin(g: Lined.LinedBuffer, g': Lined.LinedBuffer, lo: int, hi: int) {
    && (forall z :: z in g.selfToRaw ==> z in g'.selfToRaw)
    && (forall r :: r in g.rawToSelf ==> r in g'.rawToSelf)
    && (forall z :: z in g'.selfToRaw && (z !in g.selfToRaw || g'.selfToRaw[z] != g.selfToRaw[z]) ==>
          lo <= g'.selfToRaw[z] <= hi)
    && (forall r :: r in g'.rawToSelf && (r !in g.rawToSelf || g'.rawToSelf[r] != g.rawToSelf[r]) ==>
          lo <= r <= hi)
  }

  lemma RecordsWithinChain(g0: Lined.LinedBuffer, g1: Lined.LinedBuffer, g2: Lined.LinedBuffer,
                           lo1: int, hi1: int, lo2: int, hi2: int)
    requires RecordsWithin(g0, g1, lo1, hi1) && RecordsWithin(g1, g2, lo2, hi2)
    requires lo1 <= lo2 && hi1 <= hi2
    ensures RecordsWithin(g0, g2, lo1, hi2)
  {
  }

  /** One grid's share of a piece records only the piece's raw line. */
  lemma WriteLinedRecords(g: Lined.LinedBuffer, g': Lined.LinedBuffer, seg: string, raw: int, wide: char -> bool)
    requires Lined.Valid(g)
    requires LinksOf(g') == LinksOf(WriteLined(g, seg, raw, wide))
    ensures RecordsWithin(g, g', raw, raw)
  {
    var h := WriteLined(g, seg, raw, wide);
    assert g'.rawToSelf == h.rawToSelf && g'.selfToRaw == h.selfToRaw;
  }

  lemma WritePieceRecords(b: Buffer, pieces: seq<string>, i: nat, wide: char -> bool)
    requires Valid(b) && i < |pieces|
    ensures var r := WritePiece(b, pieces, i, false, true, wide);
            var cur := PieceRaw(b, |pieces|, i, false);
      r.Ok? ==> RecordsWithin(b.lined, r.value.lined, cur, cur) && RecordsWithin(b.wrapping, r.value.wrapping, cur, cur)
  {
    var r := WritePiece(b, pieces, i, false, true, wide);
    if r.Ok? {
      var cur := PieceRaw(b, |pieces|, i, false);
      var seg := Segment(pieces[i], i == |pieces| - 1);
      WriteLinedRecords(b.lined, r.value.lined, seg, cur, wide);
      WriteLinedRecords(b.wrapping, r.value.wrapping, seg, cur, wide);
    }
  }

  /** Both grids of `b'` record only raw lines `lo .. hi` beyond those of `b`. */
  ghost predicate BufferRecordsWithin(b: Buffer, b': Buffer, lo: int, hi: int) {
    RecordsWithin(b.lined, b'.lined, lo, hi) && RecordsWithin(b.wrapping, b'.wrapping, lo, hi)
  }

  lemma BufferRecordsChain(b0: Buffer, b1: Buffer, b2: Buffer, lo1: int, hi1: int, lo2: int, hi2: int)
    requires BufferRecordsWithin(b0, b1, lo1, hi1) && BufferRecordsWithin(b1, b2, lo2, hi2)
    requires lo1 <= lo2 && hi1 <= hi2
    ensures BufferRecordsWithin(b0, b2, lo1, hi2)
  {
    RecordsWithinChain(b0.lined, b1.lined, b2.lined, lo1, hi1, lo2, hi2);
    RecordsWithinChain(b0.wrapping, b1.wrapping, b2.wrapping, lo1, hi1, lo2, hi2);
  }

  /** Piece `i` followed by the rest records raw lines from piece `i`'s on. */
  lemma PieceRecordsStep(b: Buffer, b1: Buffer, b2: Buffer, pieces: seq<string>, i: nat, wide: char -> bool)
    requires Valid(b) && i < |pieces| && WritePiece(b, pieces, i, false, true, wide) == Ok(b1)
    requires BufferRecordsWithin(b1, b2, PieceRaw(b1, |pieces|, i + 1, false), b2.rawLines)
    requires b1.rawLines <= b2.rawLines
    ensures BufferRecordsWithin(b, b2, PieceRaw(b, |pieces|, i, false), b2.rawLines)
  {
    var cur := PieceRaw(b, |pieces|, i, false);
    WritePieceRecords(b, pieces, i, wide);
    BufferRecordsChain(b, b1, b2, cur, cur, PieceRaw(b1, |pieces|, i + 1, false), b2.rawLines);
  }

  lemma {:induction false} WritePiecesRecords(b: Buffer, pieces: seq<string>, i: nat, wide: char -> bool)
    requires Valid(b)
    ensures var r := WritePieces(b, pieces, i, false, true, wide);
      r.Ok? ==> BufferRecordsWithin(b, r.value, PieceRaw(b, |pieces|, i, false), r.value.rawLines)
    decreases |pieces| - i
  {
    if i < |pieces| {
      var r1 := WritePiece(b, pieces, i, false, true, wide);
      if r1.Ok? {
        var b1 := r1.value;
        var r2 := WritePieces(b1, pieces, i + 1, false, true, wide);
        WritePiecesRecords(b1, pieces, i + 1, wide);
        if r2.Ok? {
          PieceRecordsStep(b, b1, r2.value, pieces, i, wide);
        }
        assert r2.Ok? ==> BufferRecordsWithin(b, r2.value, PieceRaw(b, |pieces|, i, false), r2.value.rawLines);
        assert WritePieces(b, pieces, i, false, true, wide) == r2;
      } else {
        assert WritePieces(b, pieces, i, false, true, wide).Err?;
      }
    } else {
      assert WritePieces(b, pieces, i, false, true, wide) == Ok(b);
    }
  }

  /** `write(data)` records only raw lines from the current one to the one it
      leaves open, `data`'s newlines later, and drops no mapping. */
  lemma WriteRecordsRawLines(b: Buffer, data: string, wide: char -> bool)
    requires Valid(b)
    ensures var r := Write(b, data, wide);
            var hi := b.rawLines + Count(data, '\n');
      r.Ok? ==> BufferRecordsWithin(b, r.value, b.rawLines, hi)
  {
    WritePiecesRecords(b, Split(data, '\n'), 0, wide);
  }

  /** The replay of pieces `i ..` on the wrapped grid alone, piece `j`
      under raw line `last - n + j + 1`: what the width setter's write does
      to that grid. */
  function ReplayGrid(g: Lined.LinedBuffer, pieces: seq<string>, i: nat, last: int, wide: char -> bool): (g': Lined.LinedBuffer)
    requires Lined.Valid(g)
    ensures Lined.Valid(g') && g'.width == g.width
    decreases |pieces| - i
  {
    if i >= |pieces| then g
    else ReplayGrid(WriteLined(g, Segment(pieces[i], i == |pieces| - 1), last - |pieces| + i + 1, wide), pieces, i + 1, last, wide)
  }

  /** Replaying from piece `i` is replaying piece `i`, then the rest. */
  lemma ReplayGridStep(g: Lined.LinedBuffer, g1: Lined.LinedBuffer, pieces: seq<string>, i: nat, last: int, raw: int,
                       wide: char -> bool)
    requires Lined.Valid(g) && i < |pieces| && raw == last - |pieces| + i + 1
    requires g1 == WriteLined(g, Segment(pieces[i], i == |pieces| - 1), raw, wide)
    ensures ReplayGrid(g, pieces, i, last, wide) == ReplayGrid(g1, pieces, i + 1, last, wide)
  {
    assert g1 == WriteLined(g, Segment(pieces[i], i == |pieces| - 1), last - |pieces| + i + 1, wide);
    assert !(i >= |pieces|);
  }

  /** A replay without raw bookkeeping never fails and touches nothing but
      the wrapped grid, which it leaves as `ReplayGrid` does. */
  lemma {:induction false} WritePiecesReplayGrid(b: Buffer, pieces: seq<string>, i: nat, wide: char -> bool)
    requires Valid(b)
    ensures WritePieces(b, pieces, i, true, false, wide) == Ok(b.(wrapping := ReplayGrid(b.wrapping, pieces, i, b.rawLines, wide)))
    decreases |pieces| - i
  {
    if i < |pieces| {
      var seg := Segment(pieces[i], i == |pieces| - 1);
      var b1 := b.(wrapping := WriteLined(b.wrapping, seg, PieceRaw(b, |pieces|, i, true), wide));
      ReplayPiece(b, pieces, i, wide);
      assert WritePieces(b, pieces, i, true, false, wide) == WritePieces(b1, pieces, i + 1, true, false, wide);
      WritePiecesReplayGrid(b1, pieces, i + 1, wide);
      ReplayGridStep(b.wrapping, b1.wrapping, pieces, i, b.rawLines, PieceRaw(b, |pieces|, i, true), wide);
    } else {
      assert WritePieces(b, pieces, i, true, false, wide) == Ok(b);
    }
  }

  /** A replay from piece `i` records raw lines from piece `i`'s on, up to
      `last`, and drops no mapping. */
  lemma {:induction false} ReplayGridRecords(g: Lined.LinedBuffer, pieces: seq<string>, i: nat, last: int, wide: char -> bool)
    requires Lined.Valid(g)
    ensures RecordsWithin(g, ReplayGrid(g, pieces, i, last, wide), last - |pieces| + i + 1, last)
    decreases |pieces| - i
  {
    if i < |pieces| {
      var seg := Segment(pieces[i], i == |pieces| - 1);
      var cur := last - |pieces| + i + 1;
      var g1 := WriteLined(g, seg, cur, wide);
      ReplayGridStep(g, g1, pieces, i, last, cur, wide);
      ReplayGridRecords(g1, pieces, i + 1, last, wide);
      WriteLinedRecords(g, g1, seg, cur, wide);
      RecordsWithinChain(g, g1, ReplayGrid(g1, pieces, i + 1, last, wide), cur, cur, cur + 1, last);
    } else {
      assert ReplayGrid(g, pieces, i, last, wide) == g;
    }
  }

  /** A piece draws when it holds a character other than a carriage return
      or a line feed. */
  predicate Draws(piece: string) {
    exists k :: 0 <= k < |piece| && piece[k] != '\r' && piece[k] != '\n'
  }

  /** A character of a piece that draws. */
  lemma DrawnAt(piece: string) returns (k: nat)
    requires Draws(piece)
    ensures k < |piece| && piece[k] != '\r' && piece[k] != '\n'
  {
    k :| 0 <= k < |piece| && piece[k] != '\r' && piece[k] != '\n';
  }

  /** A segment with something to draw gets its raw line recorded. */
  lemma WriteLinedRecordsDrawn(g: Lined.LinedBuffer, seg: string, raw: int, wide: char -> bool, k: nat)
    requires Lined.Valid(g) && k < |seg| && seg[k] != '\r' && seg[k] != '\n'
    ensures raw in WriteLined(g, seg, raw, wide).rawToSelf
  {
    var f := Lined.Feed(g, seg, wide);
    Lined.FeedMarks(g, seg, wide, k);
    assert f.dirty[0] in Lined.Write(g, seg, wide).rows;
  }

  /** A replayed piece `j` that draws (its character `k`) has its raw line
      `key` recorded by the end of the replay. */
  lemma {:induction false} ReplayGridDraws(g: Lined.LinedBuffer, pieces: seq<string>, i: nat, last: int,
                                           wide: char -> bool, j: nat, k: nat, key: int)
    requires Lined.Valid(g) && i <= j < |pieces| && k < |pieces[j]| && pieces[j][k] != '\r' && pieces[j][k] != '\n'
    requires key == last - |pieces| + j + 1
    ensures key in ReplayGrid(g, pieces, i, last, wide).rawToSelf
    decreases j - i
  {
    var seg := Segment(pieces[i], i == |pieces| - 1);
    if i < j {
      var g1 := WriteLined(g, seg, last - |pieces| + i + 1, wide);
      ReplayGridStep(g, g1, pieces, i, last, last - |pieces| + i + 1, wide);
      ReplayGridDraws(g1, pieces, i + 1, last, wide, j, k, key);
    } else {
      assert i == j;
      var g1 := WriteLined(g, seg, key, wide);
      ReplayGridStep(g, g1, pieces, i, last, key, wide);
      assert seg[k] == pieces[i][k];
      WriteLinedRecordsDrawn(g, seg, key, wide, k);
      ReplayGridRecords(g1, pieces, i + 1, last, wide);
      KeepsRawLine(g1, ReplayGrid(g1, pieces, i + 1, last, wide), last - |pieces| + (i + 1) + 1, last, key);
    }
  }

  /** Starting from a grid that records nothing, recording within a range
      leaves only raw lines of that range. */
  lemma RecordsFromNothing(g: Lined.LinedBuffer, g': Lined.LinedBuffer, lo: int, hi: int)
    requires g.rawToSelf == map[] && g.selfToRaw == map[] && RecordsWithin(g, g', lo, hi)
    ensures forall r :: r in g'.rawToSelf ==> lo <= r <= hi
    ensures forall z :: z in g'.selfToRaw ==> lo <= g'.selfToRaw[z] <= hi
  {
  }

  /** A whole replay onto a grid that records nothing records only the raw
      lines of its pieces, and every one whose piece draws. */
  lemma ReplayFromNothing(g: Lined.LinedBuffer, pieces: seq<string>, last: int, wide: char -> bool)
    requires Lined.Valid(g) && g.rawToSelf == map[] && g.selfToRaw == map[]
    ensures forall r :: r in ReplayGrid(g, pieces, 0, last, wide).rawToSelf ==> last - |pieces| + 1 <= r <= last
    ensures forall z :: z in ReplayGrid(g, pieces, 0, last, wide).selfToRaw ==>
              last - |pieces| + 1 <= ReplayGrid(g, pieces, 0, last, wide).selfToRaw[z] <= last
  {
    ReplayGridRecords(g, pieces, 0, last, wide);
    RecordsFromNothing(g, ReplayGrid(g, pieces, 0, last, wide), last - |pieces| + 1, last);
  }

  /** A grid change that records within a range keeps every raw line
      already recorded. */
  lemma KeepsRawLine(g: Lined.LinedBuffer, g': Lined.LinedBuffer, lo: int, hi: int, r: int)
    requires RecordsWithin(g, g', lo, hi) && r in g.rawToSelf
    ensures r in g'.rawToSelf
  {
  }

  /** After the width setter the wrapped grid records raw lines only from the
      `n` stored lines, numbered back from the current raw line. */
  lemma SetWidthRecordsRawLines(b: Buffer, width: nat, terminalColumns: nat, wide: char -> bool,
                                 g: Lined.LinedBuffer, pieces: seq<string>)
    requires Valid(b)
    requires g == SetWidth(b, width, terminalColumns, wide).wrapping
    requires pieces == Split(RawStore.GetValue(b.raw), '\n')
    ensures forall r :: r in g.rawToSelf ==> b.rawLines - |pieces| + 1 <= r <= b.rawLines
    ensures forall z :: z in g.selfToRaw ==> b.rawLines - |pieces| + 1 <= g.selfToRaw[z] <= b.rawLines
  {
    var blank := Lined.NewLinedBuffer(Some(if width > 0 then width else terminalColumns));
    SetWidthReplaysGrid(b, width, terminalColumns, wide);
    GridRecordsRawLines(blank, g, pieces, b.rawLines, wide);
  }

  /** After the width setter the wrapped grid records every stored line that
      draws something: the `i`-th of `n` as raw line `raw_lines - n + i + 1`. */
  lemma SetWidthRecordsDrawn(b: Buffer, width: nat, terminalColumns: nat, wide: char -> bool,
                             g: Lined.LinedBuffer, pieces: seq<string>, i: nat, raw: int)
    requires Valid(b)
    requires g == SetWidth(b, width, terminalColumns, wide).wrapping
    requires pieces == Split(RawStore.GetValue(b.raw), '\n')
    requires i < |pieces| && Draws(pieces[i]) && raw == b.rawLines - |pieces| + i + 1
    ensures raw in g.rawToSelf
  {
    var blank := Lined.NewLinedBuffer(Some(if width > 0 then width else terminalColumns));
    SetWidthReplaysGrid(b, width, terminalColumns, wide);
    var k := DrawnAt(pieces[i]);
    ReplayGridDraws(blank, pieces, 0, b.rawLines, wide, i, k, raw);
  }

  /** The wrapped grid `SetWidth` builds is the grid-level replay of the raw
      text's lines onto a blank grid of the new width. */
  lemma SetWidthReplaysGrid(b: Buffer, width: nat, terminalColumns: nat, wide: char -> bool)
    requires Valid(b)
    ensures SetWidth(b, width, terminalColumns, wide).wrapping ==
            ReplayGrid(Lined.NewLinedBuffer(Some(if width > 0 then width else terminalColumns)),
                       Split(RawStore.GetValue(b.raw), '\n'), 0, b.rawLines, wide)
  {
    var blank := Lined.NewLinedBuffer(Some(if width > 0 then width else terminalColumns));
    WritePiecesReplayGrid(b.(wrapping := blank), Split(RawStore.GetValue(b.raw), '\n'), 0, wide);
  }

  /** Every raw-line record of a whole replay from a blank grid lies among
      the replayed lines. */
  lemma GridRecordsRawLines(blank: Lined.LinedBuffer, g: Lined.LinedBuffer, pieces: seq<string>, last: int, wide: char -> bool)
    requires Lined.Valid(blank) && blank.rawToSelf == map[] && blank.selfToRaw == map[]
    requires g == ReplayGrid(blank, pieces, 0, last, wide)
    ensures forall r :: r in g.rawToSelf ==> last - |pieces| + 1 <= r <= last
    ensures forall z :: z in g.selfToRaw ==> last - |pieces| + 1 <= g.selfToRaw[z] <= last
  {
    ReplayFromNothing(blank, pieces, last, wide);
  }

  /** The width setter at work on tests/test_buffer.py:21-26: a buffer
      five columns wide, written "123456789", then narrowed to three columns,
      shows "123", "456" and "789" on its first three wrapped rows. */
  lemma RewrapAtThree(terminalColumns: nat, data: string, wide: char -> bool)
    requires data == "123456789" && Lined.PlainRun(data, wide)
    ensures Write(NewBuffer(5, 0, terminalColumns), data, wide).Ok?
    ensures var g := SetWidth(Write(NewBuffer(5, 0, terminalColumns), data, wide).value, 3, terminalColumns, wide).wrapping;
      && Lined.CellAt(Lined.RowAt(g, 0), 2) == Lined.Cell(Some('3'), 0)
      && Lined.CellAt(Lined.RowAt(g, 1), 0) == Lined.Cell(Some('4'), 0)
      && Lined.CellAt(Lined.RowAt(g, 2), 2) == Lined.Cell(Some('9'), 0)
  {
    UncappedWriteKeepsText(5, terminalColumns, data, wide);
    var b := Write(NewBuffer(5, 0, terminalColumns), data, wide).value;
    var blank := Lined.NewLinedBuffer(Some(3));
    SetWidthOneLine(b, 3, terminalColumns, data, wide);
    Lined.WrapAtThree(blank, data, wide);
  }

  /** A buffer whose stored text is one line, re-wrapped: the new wrapped
      grid shows what feeding that line to a blank grid of the new width
      shows. */
  lemma SetWidthOneLine(b: Buffer, width: nat, terminalColumns: nat, data: string, wide: char -> bool)
    requires Valid(b) && RawStore.GetValue(b.raw) == data && Free(data, '\n')
    ensures Lined.Screen(SetWidth(b, width, terminalColumns, wide).wrapping) ==
            Lined.Screen(Lined.Feed(Lined.NewLinedBuffer(Some(if width > 0 then width else terminalColumns)), data, wide))
  {
    assert Split(data, '\n') == [data] by {
      SplitFreePrefix(data, "", '\n');
      assert data + "" == data;
    }
    assert Replay([data], 0) == data;
  }

  /** An uncapped buffer's raw store gives back, unchanged, the text first
      written to it. */
  lemma UncappedWriteKeepsText(width: nat, terminalColumns: nat, data: string, wide: char -> bool)
    ensures Write(NewBuffer(width, 0, terminalColumns), data, wide).Ok?
    ensures RawStore.GetValue(Write(NewBuffer(width, 0, terminalColumns), data, wide).value.raw) == data
  {
    RawStore.UncappedKeepsEverything("", data);
    assert "" + data == data;
  }

  /** A buffer's raw store stays faithful to everything written to it: the
      whole text when uncapped, its last `buffer_lines + 1` lines when capped. */
  lemma WriteKeepsRawText(b: Buffer, t: string, data: string, wide: char -> bool)
    requires Valid(b) && RawStore.Holds(b.raw, t)
    requires Write(b, data, wide).Ok?
    ensures RawStore.Holds(Write(b, data, wide).value.raw, t + data)
  {
    RawStore.ChunkKeepsHolds(b.raw, t, data);
  }

  lemma NewBufferHoldsNothing(width: nat, bufferLines: nat, terminalColumns: nat)
    ensures RawStore.Holds(NewBuffer(width, bufferLines, terminalColumns).raw, "")
  {
    RawStore.NewStoreHoldsNothing(bufferLines);
  }
}

=== FILE: cli.dfy ===
/** The command line of src/multiplex/main.py: argument validation, the
    defaults filled in before running, and which request IPC mode sends. */
module Cli {
  import opened Wrappers
  import Text

  /** The parsed options. `load` and `socketPath` count only when non-empty,
      as in Python's truth tests. */
  datatype Args = Args(
    process: seq<string>,
    title: seq<string>,
    boxHeight: seq<int>,
    wait: seq<bool>,
    load: Option<string>,
    socketPath: Option<string>)

  predicate Given(o: Option<string>) { o.Some? && |o.value| > 0 }

  /** The `ClickException`s `validate` raises, by message. */
  datatype Invalid =
    | NoSuchDir            // "No such dir"
    | InvalidDirectory     // no metadata.json in it
    | NoProcess            // "At least one command is required"
    | TitleCount           // titles given, but not one per process
    | WaitWithoutSocket    // wait outside a process started by multiplex
    | WaitCount            // more than one wait, but not one per process
    | BoxHeightCount       // more than one box height, but not one per process

  /** `validate(...)`; `isDir` and `hasMetadata` stand for the file-system
      checks on `load`. */
  function Validate(a: Args, isDir: bool, hasMetadata: bool): (r: Option<Invalid>)
    ensures Given(a.load) ==>
              r == (if !isDir then Some(NoSuchDir) else if !hasMetadata then Some(InvalidDirectory) else None)
    ensures !Given(a.load) ==>
              (r.None? <==> && |a.process| > 0
                            && (|a.title| == 0 || |a.title| == |a.process|)
                            && (|a.wait| == 0 || Given(a.socketPath))
                            && (|a.wait| <= 1 || |a.wait| == |a.process|)
                            && (|a.boxHeight| <= 1 || |a.boxHeight| == |a.process|))
    ensures !Given(a.load) && |a.process| == 0 ==> r == Some(NoProcess)
    ensures !Given(a.load) && r == Some(WaitWithoutSocket) ==> |a.wait| > 0 && !Given(a.socketPath)
  {
    if Given(a.load) then
      if !isDir then Some(NoSuchDir)
      else if !hasMetadata then Some(InvalidDirectory)
      else None
    else if |a.process| == 0 then Some(NoProcess)
    else if |a.title| > 0 && |a.title| != |a.process| then Some(TitleCount)
    else if |a.wait| > 0 && !Given(a.socketPath) then Some(WaitWithoutSocket)
    else if |a.wait| > 1 && |a.wait| != |a.process| then Some(WaitCount)
    else if |a.boxHeight| > 1 && |a.boxHeight| != |a.process| then Some(BoxHeightCount)
    else None
  }

  /** The lists after defaulting: an empty one becomes a single "unset"
      (`[None]`), or `[True]` for wait. */
  datatype Settings = Settings(titles: seq<Option<string>>, boxHeights: seq<Option<int>>, waits: seq<bool>)

  function Defaults(a: Args): (s: Settings)
    ensures |s.titles| > 0 && |s.boxHeights| > 0 && |s.waits| > 0
    ensures |a.title| == 0 ==> s.titles == [None]
    ensures |a.title| > 0 ==> |s.titles| == |a.title| && forall i :: 0 <= i < |a.title| ==> s.titles[i] == Some(a.title[i])
    ensures |a.boxHeight| == 0 ==> s.boxHeights == [None]
    ensures |a.boxHeight| > 0 ==>
              |s.boxHeights| == |a.boxHeight| && forall i :: 0 <= i < |a.boxHeight| ==> s.boxHeights[i] == Some(a.boxHeight[i])
    ensures s.waits == if |a.wait| == 0 then [true] else a.wait
  {
    Settings(
      if |a.title| == 0 then [None] else seq(|a.title|, i requires 0 <= i < |a.title| => Some(a.title[i])),
      if |a.boxHeight| == 0 then [None] else seq(|a.boxHeight|, i requires 0 <= i < |a.boxHeight| => Some(a.boxHeight[i])),
      if |a.wait| == 0 then [true] else a.wait)
  }

  /** One box to add. */
  datatype AddBody = AddBody(process: string, title: Option<string>, boxHeight: Option<int>, wait: bool)

  /** What IPC mode asks of the running viewer. */
  datatype Request =
    | Load(dir: string)
    | Split(title: string, boxHeight: Option<int>)
    | Save
    | Quit
    | ToggleCollapse(value: Option<bool>)
    | Add(body: AddBody)
    | Batch(bodies: seq<AddBody>)

  /** The collapse tokens: `/` toggles, `-` collapses, `+` expands. */
  function CollapseValue(token: string): (r: Option<bool>)
    ensures token == "/" ==> r.None?
    ensures token == "-" ==> r == Some(true)
    ensures token == "+" ==> r == Some(false)
  {
    if token == "/" then None else if token == "-" then Some(true) else Some(false)
  }

  /** `zip(process, cycle(title), cycle(box_height), cycle(wait))`: one body
      per process, each list reused from its start when shorter. */
  function Bodies(process: seq<string>, s: Settings): (r: seq<AddBody>)
    requires |s.titles| > 0 && |s.boxHeights| > 0 && |s.waits| > 0
    ensures |r| == |process|
    ensures forall i :: 0 <= i < |process| ==>
              r[i] == AddBody(process[i], s.titles[i % |s.titles|], s.boxHeights[i % |s.boxHeights|], s.waits[i % |s.waits|])
  {
    seq(|process|, i requires 0 <= i < |process| =>
      AddBody(process[i], s.titles[i % |s.titles|], s.boxHeights[i % |s.boxHeights|], s.waits[i % |s.waits|]))
  }

  /** `ipc_mode(...)` on the defaulted lists: the first argument selects the
      request; with no process and no load, reading the first argument
      raises `IndexError`. */
  function IpcRequest(process: seq<string>, s: Settings, load: Option<string>): (r: Result<Request>)
    requires |s.titles| > 0 && |s.boxHeights| > 0 && |s.waits| > 0
    ensures Given(load) ==> r == Ok(Load(load.value))
    ensures !Given(load) && |process| == 0 ==> r == Err(IndexError)
    ensures !Given(load) && |process| > 0 && process[0] in {"/", "+", "-"} ==>
              r == Ok(ToggleCollapse(CollapseValue(process[0])))
    ensures !Given(load) && |process| > 1 && process[0] !in {"@", "@save", ":", "/", "+", "-"} ==>
              r.Ok? && r.value.Batch? && |r.value.bodies| == |process|
    ensures !Given(load) && |process| > 0 && process[0] == "@" ==>
              r.Ok? && r.value.Split? && r.value.boxHeight == s.boxHeights[0]
              && (s.titles[0].Some? && |s.titles[0].value| > 0 ==> r.value.title == s.titles[0].value)
              && (s.titles[0].None? || |s.titles[0].value| == 0 ==> r.value.title == Text.Join(process[1..], " "))
    ensures !Given(load) && |process| > 0 && process[0] == "@save" ==> r == Ok(Save)
    ensures !Given(load) && |process| > 0 && process[0] == ":" ==> r == Ok(Quit)
    ensures !Given(load) && |process| == 1 && process[0] !in {"@", "@save", ":", "/", "+", "-"} ==>
              r == Ok(Add(AddBody(process[0], s.titles[0], s.boxHeights[0], s.waits[0])))
    ensures !Given(load) && |process| > 1 && process[0] !in {"@", "@save", ":", "/", "+", "-"} ==>
              r == Ok(Batch(Bodies(process, s)))
  {
    if Given(load) then Ok(Load(load.value))
    else if |process| == 0 then Err(IndexError)
    else
      var first := process[0];
      if first == "@" then
        var title := if s.titles[0].Some? && |s.titles[0].value| > 0 then s.titles[0].value
                     else Text.Join(process[1..], " ");
        Ok(Split(title, s.boxHeights[0]))
      else if first == "@save" then Ok(Save)
      else if first == ":" then Ok(Quit)
      else if first in {"/", "+", "-"} then Ok(ToggleCollapse(CollapseValue(first)))
      else if |process| == 1 then Ok(Add(AddBody(first, s.titles[0], s.boxHeights[0], s.waits[0])))
      else Ok(Batch(Bodies(process, s)))
  }

  /** Arguments that pass validation never reach the `IndexError`, and a
      batch gives every process its own title when one was given per
      process. */
  lemma ValidatedRequest(a: Args, isDir: bool, hasMetadata: bool)
    requires Validate(a, isDir, hasMetadata).None?
    ensures IpcRequest(a.process, Defaults(a), a.load).Ok?
    ensures var r := IpcRequest(a.process, Defaults(a), a.load).value;
      r.Batch? && |a.title| > 0 ==> forall i :: 0 <= i < |a.process| ==> r.bodies[i].title == Some(a.title[i])
  {
    var s := Defaults(a);
    ValidatedOk(a, isDir, hasMetadata);
    var r := IpcRequest(a.process, s, a.load);
    if r.value.Batch? && |a.title| > 0 {
      BatchBodies(a.process, s, a.load);
      BatchTitles(a);
    }
  }

  lemma ValidatedOk(a: Args, isDir: bool, hasMetadata: bool)
    requires Validate(a, isDir, hasMetadata).None?
    ensures IpcRequest(a.process, Defaults(a), a.load).Ok?
  {
    assert Given(a.load) || |a.process| > 0;
  }

  /** One title per process: each body gets its own. */
  lemma BatchTitles(a: Args)
    requires |a.title| == |a.process|
    ensures var s := Defaults(a);
      forall i :: 0 <= i < |a.process| ==> Bodies(a.process, s)[i].title == Some(a.title[i])
  {
    var s := Defaults(a);
    var b := Bodies(a.process, s);
    forall i | 0 <= i < |a.process|
      ensures b[i].title == Some(a.title[i])
    {
      ModBelow(i, |s.titles|);
    }
  }

  lemma ModBelow(i: nat, n: nat)
    requires i < n
    ensures i % n == i
  {
  }

  /** A batch holds one body per process, as `zip` builds them. */
  lemma BatchBodies(process: seq<string>, s: Settings, load: Option<string>)
    requires |s.titles| > 0 && |s.boxHeights| > 0 && |s.waits| > 0
    requires IpcRequest(process, s, load).Ok? && IpcRequest(process, s, load).value.Batch?
    ensures IpcRequest(process, s, load).value.bodies == Bodies(process, s)
  {
  }
}

=== FILE: commands.dfy ===
/** The key commands of src/multiplex/commands.py, as functions from the
    viewer to the new viewer and what the handler returns. */
module Commands {
  import opened Wrappers
  import opened Handler
  import Box
  import Help
  import opened Viewers

  /** A handler's effect: the viewer after it and its return value. */
  datatype Outcome = Outcome(viewer: Viewer, ret: Ret)

  function Min(a: int, b: int): int { if a <= b then a else b }
  function Max(a: int, b: int): int { if a >= b then a else b }

  /** Focus a box, then keep it in view: when the box fits, its title (and
      its last row unless collapsed) ends up on screen. */
  function FocusOn(v: Viewer, index: int): (r: Result<Outcome>)
    ensures r.Ok? <==> v.maximized || -|v.holders| <= index < |v.holders|
    ensures r.Ok? ==> r.value.ret == NoneRet && r.value.viewer == v.(focused := index, viewLine := r.value.viewer.viewLine)
    ensures r.Ok? && !v.maximized && 0 <= index < |v.holders| && FocusFits(v.(focused := index)) ==>
              ShowsFocus(r.value.viewer)
  {
    if !v.maximized && 0 <= index < |v.holders| && FocusFits(v.(focused := index)) then
      FocusedBoxInView(v.(focused := index));
      Ok(Outcome(VerifyFocusedBoxInView(v.(focused := index)).value, NoneRet))
    else
      var w :- VerifyFocusedBoxInView(v.(focused := index));
      Ok(Outcome(w, NoneRet))
  }

  /** The focused box's title is on screen, and its last row too unless it
      is collapsed. */
  predicate ShowsFocus(v: Viewer)
    requires !v.maximized && 0 <= v.focused < |v.holders|
  {
    && GetBoxLine(v, v.focused, Title).value.location == InView
    && (!v.holders[v.focused].state.collapsed ==> GetBoxLine(v, v.focused, Bottom).value.location == InView)
  }

  /** `next_box`: the box below, but not past the last. */
  function NextBox(v: Viewer): (r: Result<Outcome>)
    ensures r.Ok? ==> r.value.viewer.focused == Min(v.focused + 1, |v.holders| - 1)
    ensures r.Ok? <==> v.maximized || (|v.holders| > 0 && v.focused >= -|v.holders| - 1)
  {
    FocusOn(v, Min(v.focused + 1, |v.holders| - 1))
  }

  /** `previous_box`: the box above, but not before the first. */
  function PreviousBox(v: Viewer): (r: Result<Outcome>)
    ensures r.Ok? ==> r.value.viewer.focused == Max(v.focused - 1, 0)
    ensures r.Ok? <==> v.maximized || (|v.holders| > 0 && v.focused <= |v.holders|)
  {
    FocusOn(v, Max(v.focused - 1, 0))
  }

  /** `all_up`: the first box. */
  function AllUp(v: Viewer): (r: Result<Outcome>)
    ensures r.Ok? ==> r.value.viewer.focused == 0
    ensures r.Ok? <==> v.maximized || |v.holders| > 0
  {
    FocusOn(v, 0)
  }

  /** `all_down`: the last box. */
  function AllDown(v: Viewer): (r: Result<Outcome>)
    ensures r.Ok? ==> r.value.viewer.focused == |v.holders| - 1
    ensures r.Ok? <==> v.maximized || |v.holders| > 0
  {
    FocusOn(v, |v.holders| - 1)
  }

  predicate FocusInRange(v: Viewer) {
    0 <= v.focused < |v.holders|
  }

  /** Focus commands keep the focus on an existing box, moving it by at
      most one, and stop at the ends of the stack. */
  lemma FocusStaysInRange(v: Viewer)
    requires FocusInRange(v)
    ensures FocusInRange(NextBox(v).value.viewer) && FocusInRange(PreviousBox(v).value.viewer)
    ensures FocusInRange(AllUp(v).value.viewer) && FocusInRange(AllDown(v).value.viewer)
    ensures v.focused < |v.holders| - 1 ==> NextBox(v).value.viewer.focused == v.focused + 1
    ensures v.focused == |v.holders| - 1 ==> NextBox(v).value.viewer.focused == v.focused
    ensures v.focused > 0 ==> PreviousBox(v).value.viewer.focused == v.focused - 1
    ensures v.focused == 0 ==> PreviousBox(v).value.viewer.focused == 0
  {
  }

  /** Next then previous comes back to the same box, away from the last. */
  lemma NextThenPrevious(v: Viewer)
    requires 0 <= v.focused < |v.holders| - 1
    ensures PreviousBox(NextBox(v).value.viewer).value.viewer.focused == v.focused
  {
  }

  /** After a focus command the newly focused box is in view when it fits. */
  lemma FocusCommandShowsBox(v: Viewer)
    requires !v.maximized && 0 <= v.focused < |v.holders| - 1
    requires FocusFits(v.(focused := v.focused + 1))
    ensures var w := NextBox(v).value.viewer;
      GetBoxLine(w, w.focused, Title).value.location == InView
  {
    FocusedBoxInView(v.(focused := v.focused + 1));
  }

  // ---------------------------------------------------------------------------
  // Swapping with a neighbour

  /** `switch_with_next_box`: at the last box nothing happens and the
      handler returns `False`; otherwise the box trades places with the one
      below, and the focus goes with it. */
  function SwitchWithNextBox(v: Viewer): (r: Result<Outcome>)
    ensures v.focused + 1 >= |v.holders| ==> r == Ok(Outcome(v, Bool(false)))
    ensures r.Ok? && v.focused + 1 < |v.holders| ==> r.value.ret == FullRefresh
    ensures r.Ok? && v.focused + 1 < |v.holders| ==>
              && SwapIndices(v, v.focused, v.focused + 1).Ok?
              && r.value.viewer.holders == SwapIndices(v, v.focused, v.focused + 1).value.holders
              && r.value.viewer.focused == v.focused + 1
  {
    if v.focused + 1 >= |v.holders| then Ok(Outcome(v, Bool(false)))
    else
      var swapped :- SwapIndices(v, v.focused, v.focused + 1);
      var w :- VerifyFocusedBoxInView(swapped);
      Ok(Outcome(w, FullRefresh))
  }

  /** `switch_with_previous_box`: at the first box nothing happens and the
      handler returns `False`; otherwise the box trades places with the one
      above. */
  function SwitchWithPreviousBox(v: Viewer): (r: Result<Outcome>)
    ensures v.focused - 1 < 0 ==> r == Ok(Outcome(v, Bool(false)))
    ensures r.Ok? && v.focused - 1 >= 0 ==> r.value.ret == FullRefresh
    ensures r.Ok? && v.focused - 1 >= 0 ==>
              && SwapIndices(v, v.focused, v.focused - 1).Ok?
              && r.value.viewer.holders == SwapIndices(v, v.focused, v.focused - 1).value.holders
              && r.value.viewer.focused == v.focused - 1
  {
    if v.focused - 1 < 0 then Ok(Outcome(v, Bool(false)))
    else
      var swapped :- SwapIndices(v, v.focused, v.focused - 1);
      var w :- VerifyFocusedBoxInView(swapped);
      Ok(Outcome(w, FullRefresh))
  }

  /** Moving a box down and then up again restores the stack and the focus. */
  lemma SwitchNextThenPrevious(v: Viewer)
    requires Consistent(v.holders) && 0 <= v.focused < |v.holders| - 1
    ensures SwitchWithNextBox(v).Ok?
    ensures var w := SwitchWithNextBox(v).value.viewer;
      && SwitchWithPreviousBox(w).Ok?
      && SwitchWithPreviousBox(w).value.viewer.holders == v.holders
      && SwitchWithPreviousBox(w).value.viewer.focused == v.focused
  {
    var s := SwapIndices(v, v.focused, v.focused + 1).value;
    SwapKeepsConsistent(v, v.focused, v.focused + 1);
    var w := SwitchWithNextBox(v).value.viewer;
    assert w.holders == s.holders;
    var u := SwapIndices(w, w.focused, w.focused - 1).value;
    assert u.holders == v.holders;
  }

  // ---------------------------------------------------------------------------
  // Scrolling the stack

  /** The view line `n` rows further down, not past `max_current_line`. */
  function ScrollDown(v: Viewer, n: int): (r: Outcome)
    ensures r.viewer == v.(viewLine := r.viewer.viewLine) && r.ret == NoneRet
    ensures r.viewer.viewLine <= MaxCurrentLine(v)
    ensures v.viewLine + n <= MaxCurrentLine(v) ==> r.viewer.viewLine == v.viewLine + n
  {
    Outcome(v.(viewLine := Min(MaxCurrentLine(v), v.viewLine + n)), NoneRet)
  }

  /** The view line `n` rows further up, not before the first. */
  function ScrollUp(v: Viewer, n: int): (r: Outcome)
    ensures r.viewer == v.(viewLine := r.viewer.viewLine) && r.ret == NoneRet
    ensures r.viewer.viewLine >= 0
    ensures v.viewLine - n >= 0 ==> r.viewer.viewLine == v.viewLine - n
  {
    Outcome(v.(viewLine := Max(0, v.viewLine - n)), NoneRet)
  }

  /** `page_down`, `half_page_down`, `line_down`, and the up variants. */
  function PageDown(v: Viewer): Outcome { ScrollDown(v, v.lines) }
  function PageUp(v: Viewer): Outcome { ScrollUp(v, v.lines) }
  function HalfPageDown(v: Viewer): Outcome { ScrollDown(v, FloorDiv(v.lines, 2)) }
  function HalfPageUp(v: Viewer): Outcome { ScrollUp(v, FloorDiv(v.lines, 2)) }
  function LineDown(v: Viewer): Outcome { ScrollDown(v, 1) }
  function LineUp(v: Viewer): Outcome { ScrollUp(v, 1) }

  predicate ViewLineInRange(v: Viewer) {
    0 <= v.viewLine <= MaxCurrentLine(v)
  }

  /** Scrolling by a non-negative amount keeps the view line within
      `[0, max_current_line]`. */
  lemma ScrollKeepsRange(v: Viewer, n: int)
    requires ViewLineInRange(v) && n >= 0
    ensures ViewLineInRange(ScrollDown(v, n).viewer) && ViewLineInRange(ScrollUp(v, n).viewer)
  {
    assert States(ScrollDown(v, n).viewer) == States(v);
    assert States(ScrollUp(v, n).viewer) == States(v);
  }

  /** A line down then a line up comes back, unless already at the end. */
  lemma LineDownThenUp(v: Viewer)
    requires 0 <= v.viewLine < MaxCurrentLine(v)
    ensures LineUp(LineDown(v).viewer).viewer == v
  {
  }

  /** A page up then a page down comes back, unless that page went past the top. */
  lemma PageUpThenDown(v: Viewer)
    requires v.lines >= 0 && v.viewLine - v.lines >= 0 && v.viewLine <= MaxCurrentLine(v)
    ensures PageDown(PageUp(v).viewer).viewer == v
  {
    assert States(PageUp(v).viewer) == States(v);
  }

  // ---------------------------------------------------------------------------
  // Toggles over all boxes

  /** Force every box's wrap setting. A box whose setting flips starts
      again at column 0, and its start line is carried over to the other
      grid unless it follows live output. */
  function WrapEach(holders: seq<Box.Holder>, value: bool): (r: seq<Box.Holder>)
    ensures |r| == |holders|
    ensures forall i :: 0 <= i < |r| ==> r[i].state.wrap == value && r[i] == holders[i].(state := r[i].state)
    ensures forall i :: 0 <= i < |r| && holders[i].state.wrap == value ==> r[i] == holders[i]
    ensures forall i :: 0 <= i < |r| && holders[i].state.wrap != value && Following(holders[i].state) ==>
              r[i].state == holders[i].state.(wrap := value, firstColumn := 0)
    ensures forall i :: 0 <= i < |r| && holders[i].state.wrap != value && !Following(holders[i].state) ==>
              r[i].state == holders[i].state.(wrap := value, firstColumn := 0,
                                              startLine := Buffers.ConvertLineNumber(holders[i].buffer, holders[i].state.startLine, !value, false).value)
  {
    if |holders| == 0 then []
    else [holders[0].(state := Box.ToggleWrap(holders[0].state, holders[0].buffer, Some(value)).state)]
         + WrapEach(holders[1..], value)
  }

  /** Force every box's collapse setting. */
  function CollapseEach(holders: seq<Box.Holder>, value: bool): (r: seq<Box.Holder>)
    ensures |r| == |holders|
    ensures forall i :: 0 <= i < |r| ==> r[i] == holders[i].(state := holders[i].state.(collapsed := value))
  {
    if |holders| == 0 then []
    else [holders[0].(state := Box.ToggleCollapse(holders[0].state, Some(value)).state)]
         + CollapseEach(holders[1..], value)
  }

  /** A box that follows live output keeps its start line when wrapping
      flips: it is about to jump to the end anyway. */
  predicate Following(s: Box.BoxState) {
    s.autoScroll && !s.streamDone
  }

  /** `toggle_wrap_all`: flip the viewer's flag, force it on every box, then
      keep the focused box in view. */
  function ToggleWrapAll(v: Viewer): (r: Result<Outcome>)
    ensures r.Ok? <==> v.maximized || -|v.holders| <= v.focused < |v.holders|
    ensures r.Ok? ==> r.value.ret == FullRefresh && r.value.viewer.wrappedAll == !v.wrappedAll
    ensures r.Ok? ==> AllWrapped(r.value.viewer)
    ensures r.Ok? ==> r.value.viewer == v.(holders := WrapEach(v.holders, !v.wrappedAll), wrappedAll := !v.wrappedAll,
                                           viewLine := r.value.viewer.viewLine)
    ensures r.Ok? && !v.maximized && 0 <= v.focused < |v.holders| && FocusFits(v) ==>
              ShowsFocus(r.value.viewer)
  {
    var value := !v.wrappedAll;
    var u := v.(holders := WrapEach(v.holders, value), wrappedAll := value);
    if !v.maximized && 0 <= v.focused < |v.holders| && FocusFits(v) then
      assert FocusFits(u);
      FocusedBoxInView(u);
      Ok(Outcome(VerifyFocusedBoxInView(u).value, FullRefresh))
    else
      var w :- VerifyFocusedBoxInView(u);
      Ok(Outcome(w, FullRefresh))
  }

  /** Every box agrees with the viewer's wrap flag. */
  predicate AllWrapped(v: Viewer) {
    forall i :: 0 <= i < |v.holders| ==> v.holders[i].state.wrap == v.wrappedAll
  }

  /** `toggle_collapse_all`: flip the viewer's flag, force it on every box,
      then keep the focused box in view. */
  function ToggleCollapseAll(v: Viewer): (r: Result<Outcome>)
    ensures r.Ok? <==> v.maximized || -|v.holders| <= v.focused < |v.holders|
    ensures r.Ok? ==> r.value.ret == FullRefresh && r.value.viewer.collapsedAll == !v.collapsedAll
    ensures r.Ok? ==> AllCollapsed(r.value.viewer)
    ensures r.Ok? ==> r.value.viewer == v.(holders := CollapseEach(v.holders, !v.collapsedAll), collapsedAll := !v.collapsedAll,
                                           viewLine := r.value.viewer.viewLine)
    ensures r.Ok? && !v.maximized && 0 <= v.focused < |v.holders| && FocusFits(r.value.viewer) ==>
              ShowsFocus(r.value.viewer)
  {
    var value := !v.collapsedAll;
    var u := v.(holders := CollapseEach(v.holders, value), collapsedAll := value);
    if !v.maximized && 0 <= v.focused < |v.holders| && FocusFits(u) then
      FocusedBoxInView(u);
      Ok(Outcome(VerifyFocusedBoxInView(u).value, FullRefresh))
    else
      var w :- VerifyFocusedBoxInView(u);
      Ok(Outcome(w, FullRefresh))
  }

  /** Every box agrees with the viewer's collapse flag. */
  predicate AllCollapsed(v: Viewer) {
    forall i :: 0 <= i < |v.holders| ==> v.holders[i].state.collapsed == v.collapsedAll
  }

  /** Collapsing all and expanding all again restores every box when they
      all agreed with the flag before. */
  lemma CollapseAllTwice(v: Viewer)
    requires AllCollapsed(v) && 0 <= v.focused < |v.holders|
    ensures var w := ToggleCollapseAll(v).value.viewer;
      && ToggleCollapseAll(w).Ok?
      && ToggleCollapseAll(w).value.viewer.holders == v.holders
      && ToggleCollapseAll(w).value.viewer.collapsedAll == v.collapsedAll
  {
    var w := ToggleCollapseAll(v).value.viewer;
    var u := ToggleCollapseAll(w).value.viewer;
    assert u.holders == v.holders;
  }

  /** Wrapping all twice puts the flag and every box back to the flag's
      first value. */
  lemma WrapAllTwice(v: Viewer)
    requires 0 <= v.focused < |v.holders|
    ensures var w := ToggleWrapAll(v).value.viewer;
      && ToggleWrapAll(w).Ok?
      && ToggleWrapAll(w).value.viewer.wrappedAll == v.wrappedAll
      && forall i :: 0 <= i < |v.holders| ==> ToggleWrapAll(w).value.viewer.holders[i].state.wrap == v.wrappedAll
  {
  }

  /** `toggle_maximize`. */
  function ToggleMaximize(v: Viewer): (r: Outcome)
    ensures r.viewer == v.(maximized := !v.maximized) && r.ret == FullRefresh
  {
    Outcome(v.(maximized := !v.maximized), FullRefresh)
  }

  lemma MaximizeTwice(v: Viewer)
    ensures ToggleMaximize(ToggleMaximize(v).viewer).viewer == v
  {
  }

  // ---------------------------------------------------------------------------
  // Commands on the focused box and on the help screen

  /** The commands that call one method of `viewer.focused`. */
  datatype BoxCommand =
    | ToggleAutoScroll | ToggleWrap | ToggleCollapse
    | MoveRight | MoveLeft | MoveRightUntilEnd | MoveLeftUntilStart
    | IncreaseBoxHeight | DecreaseBoxHeight
    | MoveLineDown | MoveLineUp | MoveAllUp | MoveAllDown
    | MovePageUp | MovePageDown | MoveHalfPageUp | MoveHalfPageDown

  function ApplyToBox(c: BoxCommand, s: Box.BoxState, b: Buffers.Buffer, f: Box.Frame): Box.Step {
    match c
    case ToggleAutoScroll => Box.ToggleAutoScroll(s)
    case ToggleWrap => Box.ToggleWrap(s, b, None)
    case ToggleCollapse => Box.ToggleCollapse(s, None)
    case MoveRight => Box.MoveRight(s, f)
    case MoveLeft => Box.MoveLeft(s, f)
    case MoveRightUntilEnd => Box.MoveRightUntilEnd(s, f)
    case MoveLeftUntilStart => Box.MoveLeftUntilStart(s, f)
    case IncreaseBoxHeight => Box.IncreaseBoxHeight(s, f)
    case DecreaseBoxHeight => Box.DecreaseBoxHeight(s)
    case MoveLineDown => Box.MoveLineDown(s, b, f)
    case MoveLineUp => Box.MoveLineUp(s, b, f)
    case MoveAllUp => Box.MoveAllUp(s, b, f)
    case MoveAllDown => Box.MoveAllDown(s, b, f)
    case MovePageUp => Box.MovePageUp(s, b, f)
    case MovePageDown => Box.MovePageDown(s, b, f)
    case MoveHalfPageUp => Box.MoveHalfPageUp(s, b, f)
    case MoveHalfPageDown => Box.MoveHalfPageDown(s, b, f)
  }

  /** What the box at position `k` knows of the viewer. */
  function FrameOf(v: Viewer, k: nat): Box.Frame
    requires k < |v.holders|
  {
    Box.Frame(v.lines, v.cols, v.maximized, v.holders[k].index == v.focused, v.holders[k].index)
  }

  /** `viewer.focused.<method>()`: only the focused box's state changes,
      and the handler returns what the box returned. */
  function OnFocused(v: Viewer, c: BoxCommand): (r: Result<Outcome>)
    ensures r.Ok? <==> -|v.holders| <= v.focused < |v.holders|
    ensures r.Ok? ==>
              var k := if v.focused < 0 then v.focused + |v.holders| else v.focused;
              var h := v.holders[k];
              var step := ApplyToBox(c, h.state, h.buffer, FrameOf(v, k));
              && r.value.viewer == v.(holders := v.holders[k := h.(state := step.state)])
              && r.value.ret == step.ret
  {
    var k :- PyIndex(|v.holders|, v.focused);
    var h := v.holders[k];
    var step := ApplyToBox(c, h.state, h.buffer, FrameOf(v, k));
    Ok(Outcome(v.(holders := v.holders[k := h.(state := step.state)]), step.ret))
  }

  /** Collapsing the focused box twice restores it, and nothing else moved. */
  lemma FocusedCollapseTwice(v: Viewer)
    requires 0 <= v.focused < |v.holders|
    ensures OnFocused(OnFocused(v, ToggleCollapse).value.viewer, ToggleCollapse).value.viewer == v
  {
    var h := v.holders[v.focused];
    Box.ToggleCollapseTwice(h.state);
    var w := OnFocused(OnFocused(v, ToggleCollapse).value.viewer, ToggleCollapse).value.viewer;
    assert w.holders == v.holders;
  }

  /** `toggle_help` and the help screen's line moves. */
  function OnHelp(v: Viewer, h: Help.HelpStep): Outcome {
    Outcome(v.(help := h.state), h.ret)
  }

  function ToggleHelp(v: Viewer): (r: Outcome)
    ensures r.viewer == v.(help := r.viewer.help) && r.ret == FullRefresh
    ensures r.viewer.help.show == !v.help.show && r.viewer.help.currentLine == 0
  {
    OnHelp(v, Help.Toggle(v.help))
  }

  function HelpLineDown(v: Viewer): (r: Outcome)
    ensures r.viewer == v.(help := r.viewer.help) && r.ret == Bool(true)
    ensures Help.InRange(v.help, v.lines) ==> Help.InRange(r.viewer.help, v.lines)
  {
    Help.MovesKeepInRange(v.help, v.lines);
    OnHelp(v, Help.MoveLineDown(v.help, v.lines))
  }

  function HelpLineUp(v: Viewer): (r: Outcome)
    ensures r.viewer == v.(help := r.viewer.help) && r.ret == Bool(true)
    ensures Help.InRange(v.help, v.lines) ==> Help.InRange(r.viewer.help, v.lines)
  {
    Help.MovesKeepInRange(v.help, v.lines);
    OnHelp(v, Help.MoveLineUp(v.help))
  }

  // ---------------------------------------------------------------------------
  // Through `_process_key_handler`

  /** Moving the focus to another box makes the handler's `None` a full
      refresh. */
  lemma FocusMoveRedraws(v: Viewer)
    requires 0 <= v.focused < |v.holders| - 1
    ensures ProcessKeyHandler(v, NextBox(v).value.viewer, NextBox(v).value.ret) == FullRefresh
  {
  }

  /** Scrolling the stack makes the handler's `None` a full refresh; at the
      end of the stack it stays `None`. */
  lemma ScrollRedraws(v: Viewer)
    requires 0 <= v.viewLine <= MaxCurrentLine(v)
    ensures var o := LineDown(v);
      ProcessKeyHandler(v, o.viewer, o.ret) == (if v.viewLine < MaxCurrentLine(v) then FullRefresh else NoneRet)
  {
  }
}

=== FILE: controller.dfy ===
/** The producer-side handle of src/multiplex/controller.py: messages written
    before the viewer starts are kept, and replayed into the queue when it
    starts. Only the single-threaded path is modelled. */
module Controllers {
  import opened Wrappers
  import Actions

  /** `queue` is `None` until `_init`; `preInit` is `_pre_init_queue`. */
  datatype Controller<D> = Controller(title: string, queue: Option<seq<D>>, preInit: seq<D>)

  function NewController<D>(title: string): (c: Controller<D>)
    ensures c.queue.None? && c.preInit == [] && c.title == title
  {
    Controller(title, None, [])
  }

  /** `write(data)`: kept for later before `_init`, enqueued after. */
  function Write<D>(c: Controller<D>, data: D): (r: Controller<D>)
    ensures c.queue.None? ==> r == c.(preInit := c.preInit + [data])
    ensures c.queue.Some? ==> r == c.(queue := Some(c.queue.value + [data]))
  {
    if c.queue.None? then c.(preInit := c.preInit + [data])
    else c.(queue := Some(c.queue.value + [data]))
  }

  /** Several writes in order. */
  function WriteAll<D>(c: Controller<D>, items: seq<D>): (r: Controller<D>)
    decreases |items|
  {
    if |items| == 0 then c else WriteAll(Write(c, items[0]), items[1..])
  }

  /** Writes append in order to whichever list is current, and leave the
      other alone. */
  lemma {:induction false} WriteAllAppends<D>(c: Controller<D>, items: seq<D>)
    ensures c.queue.None? ==> WriteAll(c, items) == c.(preInit := c.preInit + items)
    ensures c.queue.Some? ==> WriteAll(c, items) == c.(queue := Some(c.queue.value + items))
    decreases |items|
  {
    if |items| > 0 {
      WriteAllAppends(Write(c, items[0]), items[1..]);
      assert c.preInit + [items[0]] + items[1..] == c.preInit + items;
      if c.queue.Some? {
        assert c.queue.value + [items[0]] + items[1..] == c.queue.value + items;
      }
    } else {
      assert c.preInit + items == c.preInit;
      if c.queue.Some? {
        assert c.queue.value + items == c.queue.value;
      }
    }
  }

  /** `_init()`: a fresh queue into which the kept messages are written
      again, in order; the kept list itself is not cleared. */
  function Init<D>(c: Controller<D>): (r: Controller<D>)
    ensures r.queue == Some(c.preInit) && r.preInit == c.preInit && r.title == c.title
  {
    WriteAllAppends(c.(queue := Some([])), c.preInit);
    assert [] + c.preInit == c.preInit;
    WriteAll(c.(queue := Some([])), c.preInit)
  }

  /** Whatever is written before and after `_init` reaches the queue in
      the order it was written. */
  lemma DeliveredInOrder<D>(title: string, before: seq<D>, after: seq<D>)
    ensures var c := WriteAll(Init(WriteAll(NewController(title), before)), after);
      c.queue == Some(before + after)
  {
    var c0: Controller<D> := NewController(title);
    WriteAllAppends(c0, before);
    assert c0.preInit + before == before;
    var c1 := Init(WriteAll(c0, before));
    WriteAllAppends(c1, after);
  }

  /** `set_title(title)` and `collapse()`: one action each. */
  function SetTitle(c: Controller<Actions.Action>, title: string): (r: Controller<Actions.Action>)
    ensures c.queue.None? ==> r.preInit == c.preInit + [Actions.SetTitle(title)] && r.queue == c.queue
    ensures c.queue.Some? ==> r.queue == Some(c.queue.value + [Actions.SetTitle(title)]) && r.preInit == c.preInit
  {
    Write(c, Actions.SetTitle(title))
  }

  function Collapse(c: Controller<Actions.Action>): (r: Controller<Actions.Action>)
    ensures c.queue.None? ==> r.preInit == c.preInit + [Actions.Collapse] && r.queue == c.queue
    ensures c.queue.Some? ==> r.queue == Some(c.queue.value + [Actions.Collapse]) && r.preInit == c.preInit
  {
    Write(c, Actions.Collapse)
  }
}

=== FILE: dict.dfy ===
/** Python dictionaries as insertion-ordered association lists: `items()`
    walks them in insertion order, and assigning to a present key keeps its
    place. */
module Dicts {
  import opened Wrappers

  type Dict<K, V> = seq<(K, V)>

  /** No key occurs twice. */
  predicate Unique<K(==), V>(d: Dict<K, V>) {
    forall i, j :: 0 <= i < j < |d| ==> d[i].0 != d[j].0
  }

  predicate Has<K(==), V>(d: Dict<K, V>, k: K) {
    exists i :: 0 <= i < |d| && d[i].0 == k
  }

  function Keys<K(==), V>(d: Dict<K, V>): (ks: seq<K>)
    ensures |ks| == |d| && forall i :: 0 <= i < |d| ==> ks[i] == d[i].0
  {
    if |d| == 0 then [] else [d[0].0] + Keys(d[1..])
  }

  /** `d.get(k)`. */
  function Get<K(==), V>(d: Dict<K, V>, k: K): (r: Option<V>)
    ensures r.Some? <==> Has(d, k)
    ensures r.Some? ==> exists i :: 0 <= i < |d| && d[i].0 == k && d[i].1 == r.value
    ensures Unique(d) ==> forall i :: 0 <= i < |d| && d[i].0 == k ==> r.Some? && r.value == d[i].1
  {
    if |d| == 0 then None
    else if d[0].0 == k then Some(d[0].1)
    else
      var r := Get(d[1..], k);
      assert forall i :: 1 <= i < |d| ==> d[i] == d[1..][i - 1];
      r
  }

  /** `d[k] = v`: replace in place, or append a new entry at the end. */
  function Put<K(==), V>(d: Dict<K, V>, k: K, v: V): (r: Dict<K, V>)
    ensures Has(d, k) ==> |r| == |d|
    ensures !Has(d, k) ==> r == d + [(k, v)]
    ensures forall i :: 0 <= i < |d| ==> r[i].0 == d[i].0
    ensures forall i :: 0 <= i < |d| && d[i].0 != k ==> r[i] == d[i]
    ensures Unique(d) ==> forall i :: 0 <= i < |d| && d[i].0 == k ==> r[i].1 == v
  {
    if |d| == 0 then [(k, v)]
    else if d[0].0 == k then [(k, v)] + d[1..]
    else [d[0]] + Put(d[1..], k, v)
  }

  /** Writing keeps the keys unique. */
  lemma PutUnique<K, V>(d: Dict<K, V>, k: K, v: V)
    requires Unique(d)
    ensures Unique(Put(d, k, v))
  {
  }

  /** Reading back a written key gives the written value. */
  lemma PutGetSame<K, V>(d: Dict<K, V>, k: K, v: V)
    requires Unique(d)
    ensures Get(Put(d, k, v), k) == Some(v)
  {
    PutUnique(d, k, v);
    var r := Put(d, k, v);
    if Has(d, k) {
      var i :| 0 <= i < |d| && d[i].0 == k;
      assert r[i].0 == k;
    } else {
      assert r[|d|].0 == k;
    }
  }

  /** Writing one key leaves every other key's value as it was. */
  lemma PutGetOther<K, V>(d: Dict<K, V>, k: K, v: V, k': K)
    requires Unique(d) && k' != k
    ensures Get(Put(d, k, v), k') == Get(d, k')
  {
    PutUnique(d, k, v);
    var r := Put(d, k, v);
    if Has(d, k') {
      var i :| 0 <= i < |d| && d[i].0 == k';
      assert r[i] == d[i];
    }
  }
}

=== FILE: help.dfy ===
/** The help screen of src/multiplex/help.py: whether it shows, and which of
    its lines is at the top. */
module Help {
  import opened Handler
  import opened Dicts
  import Keys

  datatype HelpState = HelpState(show: bool, currentLine: int, maxCurrentLine: int)

  /** Total number of descriptions over all modes. */
  function CountDescriptions(descriptions: Dict<Keys.Mode, Keys.DescTable>): (n: nat)
    ensures |descriptions| == 0 ==> n == 0
    ensures forall i :: 0 <= i < |descriptions| ==> |descriptions[i].1| <= n
  {
    if |descriptions| == 0 then 0
    else |descriptions[0].1| + CountDescriptions(descriptions[1..])
  }

  /** The help text's height: the two border rows, a title and a blank row
      per mode (less the last blank row) and a row per description. */
  function HelpHeight(descriptions: Dict<Keys.Mode, Keys.DescTable>): (h: int)
    ensures h == 1 + 2 * |descriptions| + CountDescriptions(descriptions)
    ensures |descriptions| > 0 ==> h >= 3
  {
    2 + |descriptions| * 2 - 1 + CountDescriptions(descriptions)
  }

  /** `HelpViewState(viewer)`: hidden, at the top. */
  function NewHelp(descriptions: Dict<Keys.Mode, Keys.DescTable>): (s: HelpState)
    ensures !s.show && s.currentLine == 0
    ensures s.maxCurrentLine == HelpHeight(descriptions)
  {
    HelpState(false, 0, HelpHeight(descriptions))
  }

  datatype HelpStep = HelpStep(state: HelpState, ret: Ret)

  /** `toggle`: show or hide, back at the top, and redraw everything. */
  function Toggle(s: HelpState): (r: HelpStep)
    ensures r.state.show == !s.show && r.state.currentLine == 0
    ensures r.state.maxCurrentLine == s.maxCurrentLine
    ensures r.ret == FullRefresh
  {
    HelpStep(HelpState(!s.show, 0, s.maxCurrentLine), FullRefresh)
  }

  /** `move_line_up`: one line up, never above the first. */
  function MoveLineUp(s: HelpState): (r: HelpStep)
    ensures r.state.currentLine == if s.currentLine >= 1 then s.currentLine - 1 else 0
    ensures r.state == s.(currentLine := r.state.currentLine)
    ensures r.ret == Bool(true)
  {
    HelpStep(s.(currentLine := if s.currentLine - 1 >= 0 then s.currentLine - 1 else 0), Bool(true))
  }

  /** The last line that may be at the top: the help's height less the
      terminal's rows, when the terminal size is known (non-zero). */
  function LastTopLine(s: HelpState, lines: int): int {
    if lines != 0 then s.maxCurrentLine - lines else s.maxCurrentLine
  }

  /** `move_line_down`: one line down, never past the last top line and
      never above the first. */
  function MoveLineDown(s: HelpState, lines: int): (r: HelpStep)
    ensures r.state.currentLine >= 0
    ensures LastTopLine(s, lines) >= 0 ==> r.state.currentLine <= LastTopLine(s, lines)
    ensures 0 <= s.currentLine + 1 <= LastTopLine(s, lines) ==> r.state.currentLine == s.currentLine + 1
    ensures s.currentLine >= LastTopLine(s, lines) ==> r.state.currentLine == (if LastTopLine(s, lines) >= 0 then LastTopLine(s, lines) else 0)
    ensures r.state == s.(currentLine := r.state.currentLine)
    ensures r.ret == Bool(true)
  {
    var last := if lines != 0 then s.maxCurrentLine - lines else s.maxCurrentLine;
    var down := if last <= s.currentLine + 1 then last else s.currentLine + 1;
    HelpStep(s.(currentLine := if down >= 0 then down else 0), Bool(true))
  }

  /** Showing and hiding again leaves the help as it was, at the top. */
  lemma ToggleTwice(s: HelpState)
    ensures Toggle(Toggle(s).state).state == s.(currentLine := 0)
  {
  }

  /** Down then up returns to the same line whenever there was room to move. */
  lemma DownThenUp(s: HelpState, lines: int)
    requires 0 <= s.currentLine < LastTopLine(s, lines)
    ensures MoveLineUp(MoveLineDown(s, lines).state).state == s
  {
  }

  /** Up then down returns to the same line away from the top and while the
      line is within range. */
  lemma UpThenDown(s: HelpState, lines: int)
    requires 1 <= s.currentLine <= LastTopLine(s, lines)
    ensures MoveLineDown(MoveLineUp(s).state, lines).state == s
  {
  }

  /** Moving keeps the top line within `[0, max(0, last top line)]` once it
      is there. */
  predicate InRange(s: HelpState, lines: int) {
    0 <= s.currentLine <= (if LastTopLine(s, lines) >= 0 then LastTopLine(s, lines) else 0)
  }

  lemma MovesKeepInRange(s: HelpState, lines: int)
    ensures InRange(s, lines) ==> InRange(MoveLineUp(s).state, lines)
    ensures InRange(s, lines) ==> InRange(MoveLineDown(s, lines).state, lines)
    ensures InRange(s, lines) ==> InRange(Toggle(s).state, lines)
  {
  }
}

=== FILE: input.dfy ===
/** The key matcher of src/multiplex/keys_input.py: `InputReader._process`,
    which turns pending key codes into handlers and a pending remainder, and
    the key-at-a-time reading of `_read_iteration`, with the terminal's
    available bytes given as a sequence. */
module KeysInput {
  import opened Wrappers
  import opened Dicts
  import opened Keys

  /** What the reader asks of the viewer. */
  datatype ViewerModes = ViewerModes(helpShown: bool, inputMode: bool, scrolling: bool)

  /** The mode whose bindings apply: help, then input, then scrolling, then
      normal. */
  function SelectMode(v: ViewerModes): (m: Mode)
    ensures m == Help <==> v.helpShown
    ensures m == Input <==> !v.helpShown && v.inputMode
    ensures m == Scroll <==> !v.helpShown && !v.inputMode && v.scrolling
    ensures m == Normal <==> !v.helpShown && !v.inputMode && !v.scrolling
  {
    if v.helpShown then Help else if v.inputMode then Input else if v.scrolling then Scroll else Normal
  }

  /** The tables consulted, in order: the mode's, then the global ones except
      in input mode. A mode missing from the bindings raises `KeyError`. */
  function ActiveTables<F>(bindings: Dict<Mode, Table<F>>, mode: Mode): (r: Result<seq<Table<F>>>)
    ensures r.Ok? <==> Has(bindings, mode) && (mode == Input || Has(bindings, Global))
    ensures r.Ok? ==> |r.value| == (if mode == Input then 1 else 2)
    ensures r.Ok? ==> Get(bindings, mode) == Some(r.value[0])
    ensures r.Ok? && mode != Input ==> Get(bindings, Global) == Some(r.value[1])
  {
    var own :- Lookup(bindings, mode);
    if mode == Input then Ok([own])
    else
      var global :- Lookup(bindings, Global);
      Ok([own, global])
  }

  /** `seq` is a complete binding at the head of `keys`: their common prefix
      is non-empty and is all of `seq`. */
  predicate FullMatch(keys: seq<Code>, s: seq<Code>) {
    0 < |s| <= |keys| && keys[..|s|] == s
  }

  /** `keys` could still grow into `seq`: a non-empty strict prefix of it. */
  predicate Partial(keys: seq<Code>, s: seq<Code>) {
    0 < |keys| < |s| && s[..|keys|] == keys
  }

  /** The first entry at or after `i` that fully matches. */
  function FirstFull<F>(keys: seq<Code>, t: Table<F>, i: nat): (r: Option<nat>)
    decreases |t| - i
    ensures r.Some? ==> i <= r.value < |t| && FullMatch(keys, t[r.value].0)
    ensures r.Some? ==> forall j :: i <= j < r.value ==> !FullMatch(keys, t[j].0)
    ensures r.None? ==> forall j :: i <= j < |t| ==> !FullMatch(keys, t[j].0)
  {
    if i >= |t| then None
    else if FullMatch(keys, t[i].0) then Some(i)
    else FirstFull(keys, t, i + 1)
  }

  /** What one walk over a table's entries finds: the handler and length of
      the first full match (the walk stops there), and whether some entry
      before it is a partial match. */
  datatype Scan<F> = Scan(matched: Option<(F, nat)>, pending: bool)

  function ScanTable<F>(keys: seq<Code>, t: Table<F>, i: nat): (r: Scan<F>)
    decreases |t| - i
    ensures r.matched.Some? <==> FirstFull(keys, t, i).Some?
    ensures r.matched.Some? ==> var j := FirstFull(keys, t, i).value;
      r.matched.value == (t[j].1, |t[j].0|)
    ensures var stop := if FirstFull(keys, t, i).Some? then FirstFull(keys, t, i).value else |t|;
      r.pending <==> exists j :: i <= j < stop && Partial(keys, t[j].0)
  {
    if i >= |t| then Scan(None, false)
    else if FullMatch(keys, t[i].0) then Scan(Some((t[i].1, |t[i].0|)), false)
    else
      var rest := ScanTable(keys, t, i + 1);
      Scan(rest.matched, rest.pending || Partial(keys, t[i].0))
  }

  /** `a` is what is left of `b` after dropping some keys from its front. */
  predicate Suffix(a: seq<Code>, b: seq<Code>) {
    |a| <= |b| && a == b[|b| - |a|..]
  }

  lemma SuffixTrans(a: seq<Code>, b: seq<Code>, c: seq<Code>)
    requires Suffix(a, b) && Suffix(b, c)
    ensures Suffix(a, c)
  {
    assert c[|c| - |b|..][|b| - |a|..] == c[|c| - |a|..];
  }

  lemma SuffixDrop(b: seq<Code>, n: nat)
    requires n <= |b|
    ensures Suffix(b[n..], b)
  {
  }

  /** One pass of the outer loop: each table in turn, each on the keys the
      previous table left. */
  datatype Pass<F> = Pass(fns: seq<F>, keys: seq<Code>, pending: bool, found: bool)

  function PassTables<F>(keys: seq<Code>, tables: seq<Table<F>>, i: nat): (r: Pass<F>)
    decreases |tables| - i
    ensures Suffix(r.keys, keys)
    ensures r.found <==> |r.keys| < |keys|
    ensures r.found <==> |r.fns| > 0
    ensures !r.found ==> r.keys == keys && r.fns == []
  {
    if i >= |tables| then Pass([], keys, false, false)
    else
      var s := ScanTable(keys, tables[i], 0);
      var keys' := if s.matched.Some? then keys[s.matched.value.1..] else keys;
      var rest := PassTables(keys', tables, i + 1);
      assert Suffix(rest.keys, keys) by {
        if s.matched.Some? { SuffixDrop(keys, s.matched.value.1); SuffixTrans(rest.keys, keys', keys); }
      }
      var fns := (if s.matched.Some? then [s.matched.value.0] else []) + rest.fns;
      Pass(fns, rest.keys, s.pending || rest.pending, s.matched.Some? || rest.found)
  }

  /** `_process(keys)`: handlers in input order, and the keys left pending.
      A pass that saw a partial match stops; a pass that matched nothing drops
      the first key. */
  function Process<F>(keys: seq<Code>, tables: seq<Table<F>>): (r: (seq<F>, seq<Code>))
    decreases |keys|
    ensures Suffix(r.1, keys)
    ensures |keys| == 0 ==> r == ([], [])
  {
    if |keys| == 0 then ([], [])
    else
      var p := PassTables(keys, tables, 0);
      if p.pending then (p.fns, p.keys)
      else
        var next := if p.found then p.keys else keys[1..];
        var r := Process(next, tables);
        assert Suffix(r.1, keys) by {
          if !p.found { SuffixDrop(keys, 1); }
          SuffixTrans(r.1, next, keys);
        }
        (p.fns + r.0, r.1)
  }

  /** Every handler a pass returns is bound in one of the tables. */
  lemma {:induction false} PassHandlersBound<F>(keys: seq<Code>, tables: seq<Table<F>>, i: nat)
    ensures forall f :: f in PassTables(keys, tables, i).fns ==>
              exists k, j :: i <= k < |tables| && 0 <= j < |tables[k]| && tables[k][j].1 == f
    decreases |tables| - i
  {
    if i < |tables| {
      var s := ScanTable(keys, tables[i], 0);
      var keys' := if s.matched.Some? then keys[s.matched.value.1..] else keys;
      PassHandlersBound(keys', tables, i + 1);
      if s.matched.Some? {
        var j := FirstFull(keys, tables[i], 0).value;
        assert tables[i][j].1 == s.matched.value.0;
      }
    }
  }

  /** Every handler `_process` returns is bound in one of the tables. */
  lemma {:induction false} ProcessHandlersBound<F>(keys: seq<Code>, tables: seq<Table<F>>)
    ensures forall f :: f in Process(keys, tables).0 ==>
              exists k, j :: 0 <= k < |tables| && 0 <= j < |tables[k]| && tables[k][j].1 == f
    decreases |keys|
  {
    if |keys| > 0 {
      var p := PassTables(keys, tables, 0);
      PassHandlersBound(keys, tables, 0);
      if !p.pending {
        var next := if p.found then p.keys else keys[1..];
        ProcessHandlersBound(next, tables);
      }
    }
  }

  /** No binding starts the keys: nothing in any table fully or partially
      matches them. */
  predicate Unmatched<F>(keys: seq<Code>, tables: seq<Table<F>>) {
    forall k, j :: 0 <= k < |tables| && 0 <= j < |tables[k]| ==>
      !FullMatch(keys, tables[k][j].0) && !Partial(keys, tables[k][j].0)
  }

  lemma {:induction false} UnmatchedPass<F>(keys: seq<Code>, tables: seq<Table<F>>, i: nat)
    requires Unmatched(keys, tables)
    ensures PassTables(keys, tables, i) == Pass([], keys, false, false)
    decreases |tables| - i
  {
    if i < |tables| {
      UnmatchedPass(keys, tables, i + 1);
    }
  }

  /** When nothing starts with the keys, the first key is dropped and
      matching goes on with the rest. */
  lemma DropsFirstKey<F>(keys: seq<Code>, tables: seq<Table<F>>)
    requires |keys| > 0 && Unmatched(keys, tables)
    ensures Process(keys, tables) == Process(keys[1..], tables)
  {
    UnmatchedPass(keys, tables, 0);
    var r := Process(keys[1..], tables);
    assert Process(keys, tables) == ([] + r.0, r.1);
    assert [] + r.0 == r.0;
  }

  /** Keys that only begin a binding of the mode's table, while no binding
      anywhere is complete in them, are kept whole as pending. */
  lemma PendingKept<F>(keys: seq<Code>, tables: seq<Table<F>>, j: nat)
    requires |tables| > 0 && j < |tables[0]| && Partial(keys, tables[0][j].0)
    requires forall k, i :: 0 <= k < |tables| && 0 <= i < |tables[k]| ==> !FullMatch(keys, tables[k][i].0)
    ensures Process(keys, tables) == ([], keys)
  {
    var s := ScanTable(keys, tables[0], 0);
    assert FirstFull(keys, tables[0], 0).None?;
    assert s.pending;
    NoFullPass(keys, tables, 1);
  }

  lemma {:induction false} NoFullPass<F>(keys: seq<Code>, tables: seq<Table<F>>, i: nat)
    requires forall k, j :: 0 <= k < |tables| && 0 <= j < |tables[k]| ==> !FullMatch(keys, tables[k][j].0)
    ensures PassTables(keys, tables, i).keys == keys && PassTables(keys, tables, i).fns == []
    decreases |tables| - i
  {
    if i < |tables| {
      NoFullPass(keys, tables, i + 1);
    }
  }

  /** The first full match in the mode's table comes first in the result,
      and matching goes on from the keys after it. */
  lemma FirstMatchLeads<F>(keys: seq<Code>, tables: seq<Table<F>>)
    requires |tables| > 0 && FirstFull(keys, tables[0], 0).Some?
    ensures var j := FirstFull(keys, tables[0], 0).value;
      && |Process(keys, tables).0| > 0
      && Process(keys, tables).0[0] == tables[0][j].1
  {
  }

  // ---------------------------------------------------------------------------
  // Reading

  /** What one read iteration produces: `None` when no byte was available,
      else the handlers (plus, in input mode, the bytes to forward to the
      box), the new pending keys and how many bytes were consumed. */
  datatype Handler<F> = Bound(fn: F) | ForwardInput(bytes: seq<Code>)
  datatype Read<F> = Read(handlers: seq<Handler<F>>, pending: seq<Code>, consumed: nat)

  function Wrap<F>(fns: seq<F>): (r: seq<Handler<F>>)
    ensures |r| == |fns| && forall i :: 0 <= i < |fns| ==> r[i] == Bound(fns[i])
  {
    if |fns| == 0 then [] else [Bound(fns[0])] + Wrap(fns[1..])
  }

  /** Bytes are appended to the pending keys one by one until none are left,
      except that outside input mode a backspace or DEL removes the last
      pending key, ends the read and skips matching. */
  function Collect(pending: seq<Code>, isInput: bool, available: seq<Code>, i: nat): (r: (seq<Code>, bool, nat))
    requires i <= |available|
    decreases |available| - i
    ensures i <= r.2 <= |available|
    ensures !r.1 ==> r.2 == |available| && r.0 == pending + available[i..]
    ensures r.1 ==> !isInput && r.2 > i && available[r.2 - 1] in {Backspace, Del}
  {
    if i == |available| then (pending, false, i)
    else
      var key := available[i];
      if !isInput && key in {Backspace, Del} then
        (if |pending| == 0 then [] else pending[..|pending| - 1], true, i + 1)
      else
        var r := Collect(pending + [key], isInput, available, i + 1);
        assert pending + [key] + available[i + 1..] == pending + available[i..];
        r
  }

  /** In input mode every available byte joins the pending keys. */
  lemma CollectInput(pending: seq<Code>, available: seq<Code>)
    ensures Collect(pending, true, available, 0) == (pending + available, false, |available|)
  {
    assert available[0..] == available;
  }

  /** Outside input mode, bytes up to a final backspace join the pending keys
      and the backspace then removes the last one. */
  lemma {:induction false} CollectUntilBackspace(pending: seq<Code>, available: seq<Code>, i: nat)
    requires i < |available| && available[|available| - 1] in {Backspace, Del}
    requires forall j :: i <= j < |available| - 1 ==> available[j] !in {Backspace, Del}
    ensures var all := pending + available[i..|available| - 1];
      Collect(pending, false, available, i) == (if |all| == 0 then [] else all[..|all| - 1], true, |available|)
    decreases |available| - i
  {
    if i < |available| - 1 {
      var key := available[i];
      CollectUntilBackspace(pending + [key], available, i + 1);
      assert pending + [key] + available[i + 1..|available| - 1] == pending + available[i..|available| - 1];
    } else {
      assert pending + available[i..|available| - 1] == pending;
    }
  }

  function ReadIteration<F>(pending: seq<Code>, isInput: bool, available: seq<Code>, tables: seq<Table<F>>):
    (r: Option<Read<F>>)
    ensures |available| == 0 <==> r.None?
    ensures r.Some? && !isInput && available[0] in {Backspace, Del} ==>
              r.value == Read([], if |pending| == 0 then [] else pending[..|pending| - 1], 1)
    ensures r.Some? && isInput ==>
              && r.value.consumed == |available|
              && r.value.handlers == Wrap(Process(pending + available, tables).0) + [ForwardInput(available)]
              && r.value.pending == Process(pending + available, tables).1
  {
    if |available| == 0 then None
    else
      var c := Collect(pending, isInput, available, 0);
      var p := if c.1 then ([], c.0) else Process(c.0, tables);
      var forwarded := if isInput then [ForwardInput(available[..c.2])] else [];
      if isInput then
        CollectInput(pending, available);
        assert available[..c.2] == available;
        Some(Read(Wrap(p.0) + forwarded, p.1, c.2))
      else
        Some(Read(Wrap(p.0) + forwarded, p.1, c.2))
  }

  /** Outside input mode, keys followed by a backspace only shorten the
      pending keys by one and produce no handler. */
  lemma BackspaceRemovesLast<F>(pending: seq<Code>, typed: seq<Code>, tables: seq<Table<F>>)
    requires forall i :: 0 <= i < |typed| ==> typed[i] !in {Backspace, Del}
    ensures var r := ReadIteration(pending, false, typed + [Backspace], tables).value;
      var all := pending + typed;
      && r.handlers == []
      && r.pending == (if |all| == 0 then [] else all[..|all| - 1])
      && r.consumed == |typed| + 1
  {
    var available := typed + [Backspace];
    assert available[0..|available| - 1] == typed;
    CollectUntilBackspace(pending, available, 0);
  }

  /** Two bindings of the normal table, "ab" to 1 and "cd" to 2, with an
      empty global table. */
  const AbCd: seq<Table<int>> := [[([97, 98], 1), ([99, 100], 2)], []]

  /** "cd" alone is the second binding. */
  lemma ProcessCd()
    ensures Process([99, 100], AbCd) == ([2], [])
  {
    var t := AbCd[0];
    assert !FullMatch([99, 100], t[0].0) && !Partial([99, 100], t[0].0);
    assert [99, 100][..2] == [99, 100];
    assert FullMatch([99, 100], t[1].0);
    assert ScanTable([99, 100], t, 0) == Scan(Some((2, 2)), false);
    assert [99, 100][2..] == [];
    assert PassTables([], AbCd, 1) == Pass([], [], false, false);
    assert PassTables([99, 100], AbCd, 0) == Pass([2], [], false, true);
  }

  /** "a" alone begins "ab" and stays pending. */
  lemma ProcessA()
    ensures Process([97], AbCd) == ([], [97])
  {
    var t := AbCd[0];
    assert [97, 98][..1] == [97];
    assert Partial([97], t[0].0);
    PendingKept([97], AbCd, 0);
  }

  /** After a complete binding, a trailing prefix of another stays pending. */
  lemma ProcessAbA()
    ensures Process([97, 98, 97], AbCd) == ([1], [97])
  {
    var keys := [97, 98, 97];
    var t := AbCd[0];
    assert keys[..2] == [97, 98];
    assert ScanTable(keys, t, 0) == Scan(Some((1, 2)), false);
    assert keys[2..] == [97];
    assert ScanTable([97], AbCd[1], 0) == Scan(None, false);
    assert PassTables([97], AbCd, 1) == Pass([], [97], false, false);
    assert PassTables(keys, AbCd, 0) == Pass([1], [97], false, true);
    ProcessA();
  }

  /** A key that starts no binding is dropped and matching resumes after it. */
  lemma ProcessAcd()
    ensures Process([97, 99, 100], AbCd) == ([2], [])
  {
    var keys := [97, 99, 100];
    var t := AbCd[0];
    assert keys[..2][1] == 99 && keys[..2][0] == 97;
    assert Unmatched(keys, AbCd);
    DropsFirstKey(keys, AbCd);
    assert keys[1..] == [99, 100];
    ProcessCd();
  }
}

=== FILE: keys.dfy ===
/** The key-binding tables of src/multiplex/keys.py: key codes and their
    display names, key specifications and their code sequences, and `bind`,
    which registers a handler and its help description for one mode. */
module Keys {
  import opened Wrappers
  import opened Text
  import opened Dicts

  /** A key code: what `ord` gives for one byte read from the terminal, or
      for one character of a binding string. */
  type Code = nat

  const Backspace: Code := 8
  const Del: Code := 127
  const Esc: Code := 27

  const EscMove: seq<Code> := [Esc, 91]
  const CtrlMove: seq<Code> := EscMove + [49, 59, 53]
  const Up: seq<Code> := EscMove + [65]
  const Down: seq<Code> := EscMove + [66]
  const Left: seq<Code> := EscMove + [67]
  const Right: seq<Code> := EscMove + [68]
  const Home: seq<Code> := EscMove + [72]
  const End: seq<Code> := EscMove + [70]
  const PageUp: seq<Code> := EscMove + [53, 126]
  const PageDown: seq<Code> := EscMove + [54, 126]
  const AltJ: seq<Code> := [Esc, 106]
  const AltK: seq<Code> := [Esc, 107]

  const UpName := "\U{2191}"
  const DownName := "\U{2193}"
  const LeftName := "\U{2190}"
  const RightName := "\U{2192}"
  const AltName := "\U{2325}"

  /** The binding modes. `Input` is the mode of a box in input mode, which
      the reader and its tests use and the module's own tables do not list. */
  datatype Mode = Normal | Scroll | Global | Help | Input

  /** `CTRL_TO_NAME`: the letter after `^` for a single control code. */
  function CtrlName(s: seq<Code>): Option<string> {
    if s == [11] then Some("K")
    else if s == [10] then Some("J")
    else if s == [2] then Some("B")
    else if s == [6] then Some("F")
    else if s == [21] then Some("U")
    else if s == [4] then Some("D")
    else if s == [27] then Some("[")
    else None
  }

  /** `SEQ_TO_NAME`: arrows, Home/End, paging, ctrl- and alt-arrows, alt-j/k. */
  function PredefinedName(s: seq<Code>): Option<string> {
    if s == Up then Some(UpName)
    else if s == Down then Some(DownName)
    else if s == Left then Some(LeftName)
    else if s == Right then Some(RightName)
    else if s == Home then Some("Home")
    else if s == End then Some("End")
    else if s == PageUp then Some("Page Up")
    else if s == PageDown then Some("Page Down")
    else if s == CtrlMove + [65] then Some("^" + UpName)
    else if s == CtrlMove + [66] then Some("^" + DownName)
    else if s == CtrlMove + [67] then Some("^" + LeftName)
    else if s == CtrlMove + [68] then Some("^" + RightName)
    else if s == [Esc] + Up then Some(AltName + UpName)
    else if s == [Esc] + Down then Some(AltName + DownName)
    else if s == [Esc] + Left then Some(AltName + LeftName)
    else if s == [Esc] + Right then Some(AltName + RightName)
    else if s == AltJ then Some(AltName + "j")
    else if s == AltK then Some(AltName + "k")
    else None
  }

  /** `chr(k).isprintable()` for the Latin-1 range: ASCII space to `~`, and
      the Latin-1 letters and signs except the no-break space and the soft
      hyphen. */
  predicate Printable(k: Code) {
    (32 <= k <= 126) || (161 <= k <= 255 && k != 173)
  }

  /** `generic_key_to_name`: the character itself if printable, else its
      code in brackets. */
  function GenericKeyToName(k: Code): (name: string)
    ensures Printable(k) ==> |name| == 1 && name[0] as int == k
    ensures !Printable(k) ==> name == "[" + NatToString(k) + "]"
  {
    if Printable(k) then [k as char] else "[" + NatToString(k) + "]"
  }

  /** The generic name of a key tells the key back. */
  lemma GenericNameInjective(a: Code, b: Code)
    requires GenericKeyToName(a) == GenericKeyToName(b)
    ensures a == b
  {
    var na, nb := GenericKeyToName(a), GenericKeyToName(b);
    if !Printable(a) && !Printable(b) {
      assert na[1..|na| - 1] == NatToString(a);
      assert nb[1..|nb| - 1] == NatToString(b);
      NatToStringInjective(a, b);
    }
  }

  function GenericNames(s: seq<Code>): (r: string)
    ensures |s| == 0 ==> r == ""
    ensures |s| > 0 ==> r == GenericKeyToName(s[0]) + GenericNames(s[1..])
  {
    if |s| == 0 then "" else GenericKeyToName(s[0]) + GenericNames(s[1..])
  }

  /** `seq_to_name`: a control name first, then a predefined name, then the
      generic name of a single key; longer unnamed sequences get their keys'
      generic names joined when `fallback` is set and no name otherwise. */
  function SeqToName(s: seq<Code>, fallback: bool): (r: Option<string>)
    ensures CtrlName(s).Some? ==> r == Some("^" + CtrlName(s).value)
    ensures CtrlName(s).None? && PredefinedName(s).Some? ==> r == PredefinedName(s)
    ensures CtrlName(s).None? && PredefinedName(s).None? && |s| == 1 ==> r == Some(GenericKeyToName(s[0]))
    ensures CtrlName(s).None? && PredefinedName(s).None? && |s| != 1 ==>
              r == if fallback then Some(GenericNames(s)) else None
    ensures fallback ==> r.Some?
  {
    if CtrlName(s).Some? then Some("^" + CtrlName(s).value)
    else if PredefinedName(s).Some? then PredefinedName(s)
    else if |s| == 1 then Some(GenericKeyToName(s[0]))
    else if fallback then Some(GenericNames(s))
    else None
  }

  /** The key code 27 is named as the control key `^[`, so the key list
      `["a", (27,)]` is described as `a^[`. */
  lemma EscapeIsCtrlBracket()
    ensures SeqToName([Esc], true) == Some("^[")
    ensures KeyName(Multi([Str("a"), Codes([Esc], false)])) == Ok("a^[")
  {
    assert CtrlName([97]) == None;
    assert PredefinedName([97]) == None;
    assert GenericKeyToName(97) == "a";
    assert Ords("a") == [97];
    assert SeqToName([97], true) == Some("a");
    assert SeqToName([Esc], true) == Some("^" + "[");
    assert "^" + "[" == "^[";
    assert KeyToSeq(Codes([Esc], false)) == Ok([Esc]);
    var parts := [Str("a"), Codes([Esc], false)];
    assert PartNames(parts[1..][1..]) == Ok("");
    assert PartNames(parts[1..]) == Ok("^[" + "");
    assert PartNames(parts) == Ok("a" + ("^[" + ""));
    assert "a" + ("^[" + "") == "a^[";
  }

  lemma GenericNameExamples()
    ensures GenericKeyToName(107) == "k"
    ensures GenericKeyToName(20) == "[20]"
  {
    assert NatToString(20) == "20" by {
      assert NatToString(2) == "2";
    }
  }

  lemma CtrlAndHomeExamples()
    ensures SeqToName([11], true) == Some("^K")
    ensures SeqToName(Home, true) == Some("Home")
  {
    assert Home == [27, 91, 72];
    assert Up[2] == 65 && Down[2] == 66 && Left[2] == 67 && Right[2] == 68;
    assert PredefinedName(Home) == Some("Home");
    assert CtrlName(Home) == None;
    assert SeqToName([11], true) == Some("^" + "K");
    assert "^" + "K" == "^K";
  }

  lemma FallbackExamples()
    ensures SeqToName([107, 20], true) == Some("k[20]")
    ensures SeqToName([107, 20], false) == None
  {
    GenericNameExamples();
    assert CtrlName([107, 20]) == None && PredefinedName([107, 20]) == None;
    assert GenericNames([20]) == "[20]" by {
      assert GenericNames([20][1..]) == "";
    }
    assert GenericNames([107, 20]) == "k" + GenericNames([20]) by {
      assert [107, 20][1..] == [20];
    }
    assert "k" + "[20]" == "k[20]";
  }

  lemma NamingExamples()
    ensures GenericKeyToName(107) == "k"
    ensures GenericKeyToName(20) == "[20]"
    ensures SeqToName([11], true) == Some("^K")
    ensures SeqToName(Home, true) == Some("Home")
    ensures SeqToName([107, 20], true) == Some("k[20]")
    ensures SeqToName([107, 20], false) == None
  {
    GenericNameExamples();
    CtrlAndHomeExamples();
    FallbackExamples();
  }

  // ---------------------------------------------------------------------------
  // Key specifications

  /** What `bind` accepts as a key: a string (one code per character), a list
      or tuple of codes, a list of keys (a multi-key), or anything else. A
      list whose first element is neither a code nor a key is not modelled. */
  datatype Key = Str(s: string) | Codes(codes: seq<Code>, isList: bool) | Multi(parts: seq<Key>) | Other

  /** `is_multi`: a list whose first element is a list, tuple or string;
      looking at the first element of an empty list raises. */
  function IsMulti(k: Key): (r: Result<bool>)
    ensures r.Err? <==> (k.Codes? && k.isList && |k.codes| == 0) || (k.Multi? && |k.parts| == 0)
    ensures r.Err? ==> r.error == IndexError
    ensures r == Ok(true) <==> k.Multi? && |k.parts| > 0 && !k.parts[0].Other?
  {
    match k
    case Codes(cs, isList) => if isList && |cs| == 0 then Err(IndexError) else Ok(false)
    case Multi(ps) => if |ps| == 0 then Err(IndexError) else Ok(!ps[0].Other?)
    case _ => Ok(false)
  }

  function Ords(s: string): (r: seq<Code>)
    ensures |r| == |s| && forall i :: 0 <= i < |s| ==> r[i] == s[i] as int
  {
    if |s| == 0 then [] else [s[0] as int as Code] + Ords(s[1..])
  }

  function Flatten(ss: seq<seq<Code>>): (r: seq<Code>)
    ensures |ss| == 0 ==> r == []
    ensures |ss| > 0 ==> r == ss[0] + Flatten(ss[1..])
  {
    if |ss| == 0 then [] else ss[0] + Flatten(ss[1..])
  }

  /** `key_to_seq`: a string gives its characters' codes, a multi-key the
      concatenation of its parts' sequences, a list or tuple of codes the codes;
      anything else raises `RuntimeError`. */
  function KeyToSeq(k: Key): (r: Result<seq<Code>>)
    decreases k, 1
    ensures k.Str? ==> r == Ok(Ords(k.s))
    ensures k.Codes? ==> r == if k.isList && |k.codes| == 0 then Err(IndexError) else Ok(k.codes)
    ensures k.Other? ==> r == Err(RuntimeError)
    ensures k.Multi? && IsMulti(k) == Ok(true) ==>
              (r.Ok? <==> forall i :: 0 <= i < |k.parts| ==> KeyToSeq(k.parts[i]).Ok?)
  {
    match k
    case Str(s) => Ok(Ords(s))
    case Codes(cs, isList) => if isList && |cs| == 0 then Err(IndexError) else Ok(cs)
    case Other => Err(RuntimeError)
    case Multi(ps) =>
      if |ps| == 0 then Err(IndexError)
      else if ps[0].Other? then Err(TypeError)
      else PartsToSeq(k, 0)
  }

  /** The parts of a multi-key from `i` on, concatenated. */
  function PartsToSeq(k: Key, i: nat): (r: Result<seq<Code>>)
    requires k.Multi? && i <= |k.parts|
    decreases k, 0, |k.parts| - i
    ensures r.Ok? <==> forall j :: i <= j < |k.parts| ==> KeyToSeq(k.parts[j]).Ok?
  {
    if i == |k.parts| then Ok([])
    else
      var head :- KeyToSeq(k.parts[i]);
      var rest :- PartsToSeq(k, i + 1);
      Ok(head + rest)
  }

  /** A string key's sequence spells the string back. */
  lemma StrKeyRoundTrip(s: string)
    ensures KeyToSeq(Str(s)).Ok?
    ensures |KeyToSeq(Str(s)).value| == |s|
    ensures forall i :: 0 <= i < |s| ==> KeyToSeq(Str(s)).value[i] as char == s[i]
  {
  }

  /** A multi-key of two keys is the first key's sequence followed by the
      second's. */
  lemma MultiConcatenates(a: Key, b: Key)
    requires !a.Other?
    requires KeyToSeq(a).Ok? && KeyToSeq(b).Ok?
    ensures KeyToSeq(Multi([a, b])) == Ok(KeyToSeq(a).value + KeyToSeq(b).value)
  {
    var k := Multi([a, b]);
    var sa, sb := KeyToSeq(a).value, KeyToSeq(b).value;
    assert PartsToSeq(k, 2) == Ok([]);
    assert PartsToSeq(k, 1) == Ok(sb + []);
    assert PartsToSeq(k, 0) == Ok(sa + (sb + []));
    assert sa + (sb + []) == sa + sb;
  }

  lemma KeyExamples()
    ensures KeyToSeq(Str("abc")) == Ok([97, 98, 99])
    ensures KeyToSeq(Multi([Str("gg"), Codes([11], false)])) == Ok([103, 103, 11])
    ensures KeyToSeq(Codes([1, 2, 3], true)) == Ok([1, 2, 3])
    ensures KeyToSeq(Other).Err?
    ensures IsMulti(Codes([11, 12], true)) == Ok(false) && IsMulti(Multi([Str("one"), Str("two")])) == Ok(true)
  {
    assert Ords("c") == [99];
    assert Ords("bc") == [98] + Ords("c");
    assert Ords("abc") == [97] + Ords("bc");
    assert Ords("abc") == [97, 98, 99];
    assert KeyToSeq(Str("abc")) == Ok(Ords("abc"));
    assert Ords("g") == [103];
    assert Ords("gg") == [103] + Ords("g");
    MultiConcatenates(Str("gg"), Codes([11], false));
    assert Ords("gg") == [103, 103];
    assert KeyToSeq(Str("gg")) == Ok([103, 103]);
    assert [103, 103] + [11] == [103, 103, 11];
  }

  // ---------------------------------------------------------------------------
  // Binding

  type Table<F> = Dict<seq<Code>, F>
  type DescTable = Dict<seq<string>, string>

  /** The `bindings` and `descriptions` dictionaries, per mode. */
  datatype Registry<F> = Registry(bindings: Dict<Mode, Table<F>>, descriptions: Dict<Mode, DescTable>)

  /** The module's own registry: four modes, empty, in the order the module
      lists them. */
  function DefaultRegistry<F>(): (r: Registry<F>)
    ensures Keys(r.bindings) == [Normal, Scroll, Global, Help]
    ensures Keys(r.descriptions) == [Help, Normal, Scroll, Global]
  {
    Registry([(Normal, []), (Scroll, []), (Global, []), (Help, [])],
             [(Help, []), (Normal, []), (Scroll, []), (Global, [])])
  }

  /** The name a key gets in a description: the names of its parts run together. */
  function KeyName(key: Key): (r: Result<string>)
  {
    var multi :- IsMulti(key);
    var parts := if multi then key.parts else [key];
    PartNames(parts)
  }

  function PartNames(parts: seq<Key>): (r: Result<string>)
    ensures r.Ok? <==> forall i :: 0 <= i < |parts| ==> KeyToSeq(parts[i]).Ok?
    ensures r.Ok? && |parts| > 0 ==>
              r.value == SeqToName(KeyToSeq(parts[0]).value, true).value + PartNames(parts[1..]).value
  {
    if |parts| == 0 then Ok("")
    else
      var s :- KeyToSeq(parts[0]);
      var rest :- PartNames(parts[1..]);
      assert forall i :: 1 <= i < |parts| ==> parts[i] == parts[1..][i - 1];
      Ok(SeqToName(s, true).value + rest)
  }

  function KeyNames(keys: seq<Key>): (r: Result<seq<string>>)
    ensures r.Ok? ==> |r.value| == |keys| && forall i :: 0 <= i < |keys| ==> KeyName(keys[i]) == Ok(r.value[i])
    ensures r.Ok? <==> forall i :: 0 <= i < |keys| ==> KeyName(keys[i]).Ok?
  {
    if |keys| == 0 then Ok([])
    else
      var n :- KeyName(keys[0]);
      var rest :- KeyNames(keys[1..]);
      assert forall i :: 1 <= i < |keys| ==> keys[i] == keys[1..][i - 1];
      Ok([n] + rest)
  }

  /** The key sequences of all keys, in order. */
  function KeySeqs(keys: seq<Key>): (r: Result<seq<seq<Code>>>)
    ensures r.Ok? ==> |r.value| == |keys| && forall i :: 0 <= i < |keys| ==> KeyToSeq(keys[i]) == Ok(r.value[i])
    ensures r.Ok? <==> forall i :: 0 <= i < |keys| ==> KeyToSeq(keys[i]).Ok?
  {
    if |keys| == 0 then Ok([])
    else
      var s :- KeyToSeq(keys[0]);
      var rest :- KeySeqs(keys[1..]);
      assert forall i :: 1 <= i < |keys| ==> keys[i] == keys[1..][i - 1];
      Ok([s] + rest)
  }

  /** `for k in keys: table[key_to_seq(k)] = fn`. */
  function PutAll<F>(t: Table<F>, seqs: seq<seq<Code>>, fn: F): Table<F>
    decreases |seqs|
  {
    if |seqs| == 0 then t else PutAll(Put(t, seqs[0], fn), seqs[1..], fn)
  }

  lemma {:induction false} PutAllUnique<F>(t: Table<F>, seqs: seq<seq<Code>>, fn: F)
    requires Unique(t)
    ensures Unique(PutAll(t, seqs, fn))
    decreases |seqs|
  {
    if |seqs| > 0 {
      PutUnique(t, seqs[0], fn);
      PutAllUnique(Put(t, seqs[0], fn), seqs[1..], fn);
    }
  }

  /** Sequences not written read as before. */
  lemma {:induction false} PutAllMisses<F>(t: Table<F>, seqs: seq<seq<Code>>, fn: F, s: seq<Code>)
    requires Unique(t)
    requires forall i :: 0 <= i < |seqs| ==> seqs[i] != s
    ensures Get(PutAll(t, seqs, fn), s) == Get(t, s)
    decreases |seqs|
  {
    if |seqs| > 0 {
      PutUnique(t, seqs[0], fn);
      PutGetOther(t, seqs[0], fn, s);
      assert forall i :: 0 <= i < |seqs[1..]| ==> seqs[1..][i] == seqs[i + 1];
      PutAllMisses(Put(t, seqs[0], fn), seqs[1..], fn, s);
    }
  }

  /** Every written sequence reads back as the handler. */
  lemma {:induction false} PutAllHits<F>(t: Table<F>, seqs: seq<seq<Code>>, fn: F, i: nat)
    requires Unique(t) && i < |seqs|
    ensures Get(PutAll(t, seqs, fn), seqs[i]) == Some(fn)
    decreases |seqs|
  {
    var t1 := Put(t, seqs[0], fn);
    PutUnique(t, seqs[0], fn);
    if i > 0 {
      assert seqs[i] == seqs[1..][i - 1];
      PutAllHits(t1, seqs[1..], fn, i - 1);
    } else if j :| 1 <= j < |seqs| && seqs[j] == seqs[0] {
      assert seqs[0] == seqs[1..][j - 1];
      PutAllHits(t1, seqs[1..], fn, j - 1);
    } else {
      PutGetSame(t, seqs[0], fn);
      assert forall k :: 0 <= k < |seqs[1..]| ==> seqs[1..][k] == seqs[k + 1];
      PutAllMisses(t1, seqs[1..], fn, seqs[0]);
    }
  }

  /** Every written sequence reads back as the handler; every other sequence
      reads as before; keys stay unique. */
  lemma PutAllBinds<F>(t: Table<F>, seqs: seq<seq<Code>>, fn: F)
    requires Unique(t)
    ensures Unique(PutAll(t, seqs, fn))
    ensures forall i :: 0 <= i < |seqs| ==> Get(PutAll(t, seqs, fn), seqs[i]) == Some(fn)
    ensures forall s :: (forall i :: 0 <= i < |seqs| ==> seqs[i] != s) ==> Get(PutAll(t, seqs, fn), s) == Get(t, s)
  {
    PutAllUnique(t, seqs, fn);
    forall i | 0 <= i < |seqs| ensures Get(PutAll(t, seqs, fn), seqs[i]) == Some(fn) {
      PutAllHits(t, seqs, fn, i);
    }
    forall s | (forall i :: 0 <= i < |seqs| ==> seqs[i] != s) ensures Get(PutAll(t, seqs, fn), s) == Get(t, s) {
      PutAllMisses(t, seqs, fn, s);
    }
  }

  /** `bind(mode, *keys, description)` applied to a handler `fn` named
      `fnName`: the description is filed under the tuple of the keys' names
      (the handler's name when no description is given) and every key's
      sequence is bound to `fn`, in `mode` only. A mode missing from either
      dictionary raises `KeyError`. */
  function Bind<F>(reg: Registry<F>, mode: Mode, keys: seq<Key>, description: Option<string>, fn: F, fnName: string):
    (r: Result<Registry<F>>)
    ensures r.Ok? <==> KeyNames(keys).Ok? && Has(reg.descriptions, mode) && KeySeqs(keys).Ok? && Has(reg.bindings, mode)
  {
    var names :- KeyNames(keys);
    var descs :- Lookup(reg.descriptions, mode);
    var text := if description.Some? && description.value != "" then description.value else fnName;
    var descriptions := Put(reg.descriptions, mode, Put(descs, names, text));
    var seqs :- KeySeqs(keys);
    var table :- Lookup(reg.bindings, mode);
    Ok(Registry(Put(reg.bindings, mode, PutAll(table, seqs, fn)), descriptions))
  }

  /** `d[k]`: the value, or `KeyError`. */
  function Lookup<K(==), V>(d: Dict<K, V>, k: K): (r: Result<V>)
    ensures r.Ok? <==> Has(d, k)
    ensures r.Ok? ==> Get(d, k) == Some(r.value)
    ensures r.Err? ==> r.error == KeyError
  {
    match Get(d, k)
    case Some(v) => Ok(v)
    case None => Err(KeyError)
  }

  /** After `bind`, every key's sequence is bound to the handler in that mode;
      the mode's other sequences and every other mode keep their bindings; the
      description is filed under the keys' names. */
  lemma BindBinds<F>(reg: Registry<F>, mode: Mode, keys: seq<Key>, description: Option<string>, fn: F, fnName: string)
    requires Unique(reg.bindings) && Unique(reg.descriptions)
    requires forall i :: 0 <= i < |reg.bindings| ==> Unique(reg.bindings[i].1)
    requires forall i :: 0 <= i < |reg.descriptions| ==> Unique(reg.descriptions[i].1)
    requires Bind(reg, mode, keys, description, fn, fnName).Ok?
    ensures var r := Bind(reg, mode, keys, description, fn, fnName).value;
      Has(r.bindings, mode) && Has(r.descriptions, mode) && Has(reg.bindings, mode)
    ensures KeyNames(keys).Ok? && forall i :: 0 <= i < |keys| ==> KeyToSeq(keys[i]).Ok?
    ensures var r := Bind(reg, mode, keys, description, fn, fnName).value;
      && (forall i :: 0 <= i < |keys| ==> Get(Get(r.bindings, mode).value, KeyToSeq(keys[i]).value) == Some(fn))
      && (forall s :: (forall i :: 0 <= i < |keys| ==> KeyToSeq(keys[i]).value != s) ==>
            Get(Get(r.bindings, mode).value, s) == Get(Get(reg.bindings, mode).value, s))
      && (forall m :: m != mode ==> Get(r.bindings, m) == Get(reg.bindings, m))
      && Get(Get(r.descriptions, mode).value, KeyNames(keys).value) ==
           Some(if description.Some? && description.value != "" then description.value else fnName)
  {
    var r := Bind(reg, mode, keys, description, fn, fnName).value;
    var seqs := KeySeqs(keys).value;
    var table := Lookup(reg.bindings, mode).value;
    var descs := Lookup(reg.descriptions, mode).value;
    var names := KeyNames(keys).value;
    var text := if description.Some? && description.value != "" then description.value else fnName;
    var ib :| 0 <= ib < |reg.bindings| && reg.bindings[ib].0 == mode;
    assert table == reg.bindings[ib].1;
    var id :| 0 <= id < |reg.descriptions| && reg.descriptions[id].0 == mode;
    assert descs == reg.descriptions[id].1;
    PutAllBinds(table, seqs, fn);
    PutGetSame(reg.bindings, mode, PutAll(table, seqs, fn));
    forall m | m != mode ensures Get(r.bindings, m) == Get(reg.bindings, m) {
      PutGetOther(reg.bindings, mode, PutAll(table, seqs, fn), m);
    }
    PutGetSame(descs, names, text);
    PutGetSame(reg.descriptions, mode, Put(descs, names, text));
  }

  /** A single lower-case letter is named by itself. */
  lemma LetterName(c: char)
    requires 'a' <= c <= 'z'
    ensures Ords([c]) == [c as int]
    ensures SeqToName([c as int], true) == Some([c])
    ensures PartNames([Str([c])]) == Ok([c])
    ensures KeyName(Str([c])) == Ok([c])
  {
    assert Ords([c]) == [c as int] + Ords([]);
    var s: seq<Code> := [c as int];
    assert CtrlName(s) == None;
    assert PredefinedName(s) == None;
    assert GenericKeyToName(c as int) == [c];
    assert PartNames([Str([c])]) == Ok([c] + "");
    assert [c] + "" == [c];
  }

  lemma AbKeys()
    ensures KeyNames([Str("a"), Str("b")]) == Ok(["a", "b"])
    ensures KeySeqs([Str("a"), Str("b")]) == Ok([[97], [98]])
  {
    LetterName('a');
    LetterName('b');
    var keys := [Str("a"), Str("b")];
    assert keys[0] == Str(['a']) && keys[1] == Str(['b']);
    assert KeyName(keys[0]) == Ok("a") && KeyName(keys[1]) == Ok("b");
    assert KeyToSeq(keys[0]) == Ok([97]) && KeyToSeq(keys[1]) == Ok([98]);
    var n := KeyNames(keys);
    assert n.Ok?;
    assert n.value[0] == "a" && n.value[1] == "b";
    assert n.value == ["a", "b"];
    var q := KeySeqs(keys);
    assert q.Ok?;
    assert q.value[0] == [97] && q.value[1] == [98];
    assert q.value == [[97], [98]];
  }

  lemma AbPutAll(fn: int)
    ensures PutAll([], [[97], [98]], fn) == [([97], fn), ([98], fn)]
  {
    var t1 := Put([], [97], fn);
    assert t1 == [([97], fn)];
    assert Put(t1, [98], fn) == [([97], fn), ([98], fn)];
    assert PutAll([], [[97], [98]], fn) == PutAll(t1, [[98]], fn);
    assert [[97], [98]][1..] == [[98]];
    assert PutAll(t1, [[98]], fn) == PutAll(Put(t1, [98], fn), [], fn);
  }

  /** `bind` when every lookup succeeds. */
  lemma BindOk<F>(reg: Registry<F>, mode: Mode, keys: seq<Key>, description: Option<string>, fn: F, fnName: string)
    requires KeyNames(keys).Ok? && KeySeqs(keys).Ok? && Has(reg.descriptions, mode) && Has(reg.bindings, mode)
    ensures Bind(reg, mode, keys, description, fn, fnName) ==
      Ok(Registry(Put(reg.bindings, mode, PutAll(Lookup(reg.bindings, mode).value, KeySeqs(keys).value, fn)),
                  Put(reg.descriptions, mode, Put(Lookup(reg.descriptions, mode).value, KeyNames(keys).value,
                      if description.Some? && description.value != "" then description.value else fnName))))
  {
  }

  lemma BindExample(fn: int)
    ensures var r := Bind(Registry([(Normal, [])], [(Normal, [])]), Normal, [Str("a"), Str("b")], Some("c"), fn, "fn1");
      && r.Ok?
      && r.value.bindings == [(Normal, [([97], fn), ([98], fn)])]
      && r.value.descriptions == [(Normal, [(["a", "b"], "c")])]
  {
    AbKeys();
    AbPutAll(fn);
    var reg: Registry<int> := Registry([(Normal, [])], [(Normal, [])]);
    assert Lookup(reg.descriptions, Normal) == Ok([]);
    assert Lookup(reg.bindings, Normal) == Ok([]);
    BindOk(reg, Normal, [Str("a"), Str("b")], Some("c"), fn, "fn1");
    assert Put([], ["a", "b"], "c") == [(["a", "b"], "c")];
    assert Put(reg.descriptions, Normal, [(["a", "b"], "c")]) == [(Normal, [(["a", "b"], "c")])];
    assert Put(reg.bindings, Normal, [([97], fn), ([98], fn)]) == [(Normal, [([97], fn), ([98], fn)])];
  }

  /** A multi-key is described by its parts' names run together. */
  lemma BindMultiDescription(fn: int)
    ensures var r := Bind(Registry([(Normal, [])], [(Normal, [])]), Normal, [Multi([Str("a"), Str("b")])], None, fn, "fn1");
      && r.Ok?
      && r.value.descriptions == [(Normal, [(["ab"], "fn1")])]
  {
    LetterName('a');
    LetterName('b');
    MultiConcatenates(Str("a"), Str("b"));
    var parts := [Str("a"), Str("b")];
    assert parts[1..] == [Str("b")];
    assert PartNames(parts) == Ok("a" + "b");
    assert IsMulti(Multi(parts)) == Ok(true);
    assert KeyName(Multi(parts)) == PartNames(parts);
    assert "a" + "b" == "ab";
    assert KeyName(Multi(parts)) == Ok("ab");
    var keys := [Multi(parts)];
    assert keys[0] == Multi(parts);
    assert KeyNames(keys).Ok?;
    assert KeyNames(keys).value == ["ab"];
    assert KeySeqs(keys).Ok?;
    var reg: Registry<int> := Registry([(Normal, [])], [(Normal, [])]);
    assert Lookup(reg.descriptions, Normal) == Ok([]);
    assert Put([], ["ab"], "fn1") == [(["ab"], "fn1")];
    assert Put(reg.descriptions, Normal, [(["ab"], "fn1")]) == [(Normal, [(["ab"], "fn1")])];
  }
}

=== FILE: lined.dfy ===
/** One virtual screen with its line bookkeeping: pyte's `Screen` as overridden
    in src/multiplex/buffer.py, together with `LinedBuffer` (dirty-row draining,
    row eviction, rendering rows to styled text, and the raw-line maps).

    Rows are a sparse map from row number to a row; a row is a sequence of
    optional cells indexed by column (`None` is a column never written). The
    input is a minimal terminal feed: printable characters, carriage return and
    line feed, with auto-wrap deferred until the character after the last
    column. Whether a character is double width (pyte's `wcwidth(c) == 2`) is
    the parameter `wide`. */
module Lined {
  import opened Wrappers
  import Style

  /** `LinedBuffer.BIG`: the screen height, and the width of an unwrapped grid. */
  const Big: nat := 1000000

  /** A screen cell. `data` is `None` for the empty stub pyte writes after a
      double-width character; `style` is the interned style id (pyte's `fg`). */
  datatype Cell = Cell(data: Option<char>, style: nat)

  /** `Screen.default_char`: what an unwritten column reads as. */
  const DefaultCell := Cell(Some(' '), 0)

  type Row = seq<Option<Cell>>

  datatype Cursor = Cursor(x: nat, y: nat, style: nat)

  datatype LinedBuffer = LinedBuffer(
    width: nat,
    rows: map<int, Row>,
    cursor: Cursor,
    dirty: seq<int>,          // the screen's dirty set, kept sorted
    maxLine: int,
    minLine: int,
    rawToSelf: map<int, int>,
    selfToRaw: map<int, int>)

  /** `LinedBuffer(width)`: an empty screen `BIG` rows high; no width means `BIG`. */
  function NewLinedBuffer(width: Option<nat>): (g: LinedBuffer)
    ensures g.width == (if width.Some? && width.value != 0 then width.value else Big)
    ensures g.rows == map[] && g.dirty == [] && g.maxLine == 0 && g.minLine == 0
  {
    LinedBuffer(if width.Some? && width.value != 0 then width.value else Big,
         map[], Cursor(0, 0, 0), [], 0, 0, map[], map[])
  }

  // ---------------------------------------------------------------------------
  // Rows and cells

  function RowAt(g: LinedBuffer, y: int): Row {
    if y in g.rows then g.rows[y] else []
  }

  function CellAt(r: Row, x: int): Cell {
    if 0 <= x < |r| && r[x].Some? then r[x].value else DefaultCell
  }

  /** `max(keys) + 1` of a row, or 0 for a row with no cell. */
  function RowLength(r: Row): (n: nat)
    ensures n <= |r|
    ensures n > 0 ==> r[n - 1].Some?
    ensures forall x :: n <= x < |r| ==> r[x].None?
  {
    if |r| == 0 then 0
    else if r[|r| - 1].Some? then |r|
    else RowLength(r[..|r| - 1])
  }

  function Nones(n: nat): (s: Row)
    ensures |s| == n
    ensures forall i :: 0 <= i < n ==> s[i].None?
  {
    if n == 0 then [] else Nones(n - 1) + [None]
  }

  /** `line[x] = cell`. */
  function SetCell(r: Row, x: nat, c: Cell): (r': Row)
    ensures |r'| == if x < |r| then |r| else x + 1
    ensures r'[x] == Some(c)
    ensures forall i :: 0 <= i < |r| && i != x ==> r'[i] == r[i]
    ensures forall i :: |r| <= i < |r'| && i != x ==> r'[i].None?
  {
    if x < |r| then r[x := Some(c)] else r + Nones(x - |r|) + [Some(c)]
  }

  function SetCellAt(g: LinedBuffer, y: int, x: nat, c: Cell): LinedBuffer {
    g.(rows := g.rows[y := SetCell(RowAt(g, y), x, c)])
  }

  // ---------------------------------------------------------------------------
  // The dirty set, as a strictly increasing sequence

  predicate StrictlySorted(s: seq<int>) {
    forall i, j :: 0 <= i < j < |s| ==> s[i] < s[j]
  }

  /** `dirty.add(y)`. */
  function Insert(s: seq<int>, y: int): (r: seq<int>)
    requires StrictlySorted(s)
    ensures StrictlySorted(r)
    ensures forall z :: z in r <==> z in s || z == y
  {
    if |s| == 0 then [y]
    else if y < s[0] then [y] + s
    else if y == s[0] then s
    else
      var t := Insert(s[1..], y);
      assert forall z :: z in s <==> z == s[0] || z in s[1..] by {
        assert s == [s[0]] + s[1..];
      }
      assert forall i :: 0 <= i < |t| ==> s[0] < t[i] by {
        forall i | 0 <= i < |t| ensures s[0] < t[i] {
          assert t[i] in t;
        }
      }
      [s[0]] + t
  }

  /** `dirty.update(range(lo, hi))`. */
  function InsertRange(s: seq<int>, lo: int, hi: int): (r: seq<int>)
    requires StrictlySorted(s)
    ensures StrictlySorted(r)
    ensures forall z :: z in r <==> z in s || lo <= z < hi
    decreases hi - lo
  {
    if lo >= hi then s else InsertRange(Insert(s, lo), lo + 1, hi)
  }

  ghost predicate Valid(g: LinedBuffer) {
    && g.width > 0
    && g.cursor.x <= g.width
    && g.cursor.y < Big
    && StrictlySorted(g.dirty)
  }

  // ---------------------------------------------------------------------------
  // The feed

  /** `cursor_down` as `index` is overridden: one row down, clamped to the screen. */
  function Down(y: nat): nat {
    if y + 1 < Big then y + 1 else Big - 1
  }

  /** pyte's `draw` for one character, with deferred auto-wrap: reaching the
      last column only parks the cursor there; the next character first marks
      the row dirty and moves to the start of the next row. */
  function DrawChar(g: LinedBuffer, c: char, wide: char -> bool): (g': LinedBuffer)
    requires Valid(g)
    ensures Valid(g')
    ensures g'.width == g.width && g'.maxLine == g.maxLine && g'.minLine == g.minLine
    ensures g'.rawToSelf == g.rawToSelf && g'.selfToRaw == g.selfToRaw
    ensures g'.cursor.style == g.cursor.style
    ensures g'.cursor.y == (if g.cursor.x == g.width then Down(g.cursor.y) else g.cursor.y)
    ensures forall z :: z in g'.dirty <==> z in g.dirty || z == g.cursor.y || z == g'.cursor.y
    ensures forall y :: y < g.cursor.y ==> RowAt(g', y) == RowAt(g, y)
  {
    PutChar(if g.cursor.x == g.width then Wrapped(g) else g, c, wide)
  }

  /** The row a parked cursor wraps into: the cursor's row marked dirty, the
      cursor at the start of the next row. */
  function Wrapped(g: LinedBuffer): (p: LinedBuffer)
    requires Valid(g)
    ensures Valid(p)
  {
    g.(dirty := Insert(g.dirty, g.cursor.y), cursor := g.cursor.(x := 0, y := Down(g.cursor.y)))
  }

  /** Drawing with the cursor inside the row: the character, and for a wide
      one a stub after it, in the cursor's style; the cursor moves past them,
      stopping at the width, and the row is marked dirty. */
  function PutChar(g: LinedBuffer, c: char, wide: char -> bool): (g': LinedBuffer)
    requires Valid(g) && g.cursor.x < g.width
    ensures Valid(g')
    ensures g'.width == g.width && g'.maxLine == g.maxLine && g'.minLine == g.minLine
    ensures g'.rawToSelf == g.rawToSelf && g'.selfToRaw == g.selfToRaw
    ensures g'.cursor.style == g.cursor.style && g'.cursor.y == g.cursor.y
    ensures forall z :: z in g'.dirty <==> z in g.dirty || z == g.cursor.y
    ensures forall y :: y != g.cursor.y ==> RowAt(g', y) == RowAt(g, y)
  {
    var x := g.cursor.x;
    var y := g.cursor.y;
    var cell := Cell(Some(c), g.cursor.style);
    var g2 :=
      if !wide(c) then
        SetCellAt(g, y, x, cell).(cursor := g.cursor.(x := if x + 1 < g.width then x + 1 else g.width))
      else
        var withChar := SetCellAt(g, y, x, cell);
        var withStub := if x + 1 < g.width then SetCellAt(withChar, y, x + 1, Cell(None, g.cursor.style)) else withChar;
        withStub.(cursor := g.cursor.(x := if x + 2 < g.width then x + 2 else g.width));
    g2.(dirty := Insert(g2.dirty, y))
  }

  /** `carriage_return`. */
  function CarriageReturn(g: LinedBuffer): LinedBuffer {
    g.(cursor := g.cursor.(x := 0))
  }

  /** `linefeed`: `index`, which is overridden as `cursor_down`; it marks nothing dirty. */
  function LineFeed(g: LinedBuffer): LinedBuffer {
    g.(cursor := g.cursor.(y := Down(g.cursor.y)))
  }

  /** `stream.feed(data)` for printable characters, `"\r"` and `"\n"`. */
  function Feed(g: LinedBuffer, data: string, wide: char -> bool): (g': LinedBuffer)
    requires Valid(g)
    ensures Valid(g')
    ensures g'.width == g.width && g'.maxLine == g.maxLine && g'.minLine == g.minLine
    ensures g'.rawToSelf == g.rawToSelf && g'.selfToRaw == g.selfToRaw
    ensures g'.cursor.style == g.cursor.style
    ensures g.cursor.y <= g'.cursor.y
    ensures forall z :: z in g.dirty ==> z in g'.dirty
    ensures forall z :: z in g'.dirty && z !in g.dirty ==> g.cursor.y <= z <= g'.cursor.y
    decreases |data|
  {
    if |data| == 0 then g
    else
      var c := data[0];
      var g1 :=
        if c == '\r' then CarriageReturn(g)
        else if c == '\n' then LineFeed(g)
        else DrawChar(g, c, wide);
      Feed(g1, data[1..], wide)
  }

  // ---------------------------------------------------------------------------
  // LinedBuffer bookkeeping

  datatype Drained = Drained(grid: LinedBuffer, rows: seq<int>)

  /** `LinedBuffer._update`: hand out the dirty rows in increasing order, clear
      them, and raise `max_line` to the largest of them. */
  function Update(g: LinedBuffer): (r: Drained)
    requires Valid(g)
    ensures Valid(r.grid)
    ensures StrictlySorted(r.rows)
    ensures forall z :: z in r.rows <==> z in g.dirty
    ensures r.grid.dirty == []
    ensures r.grid.maxLine >= g.maxLine
    ensures forall z :: z in r.rows ==> z <= r.grid.maxLine
    ensures |r.rows| > 0 ==> r.grid.maxLine == (if g.maxLine > r.rows[|r.rows| - 1] then g.maxLine else r.rows[|r.rows| - 1])
    ensures |r.rows| == 0 ==> r.grid.maxLine == g.maxLine
    ensures r.grid == g.(dirty := [], maxLine := r.grid.maxLine)
  {
    var d := g.dirty;
    if |d| == 0 then Drained(g, [])
    else
      var top := d[|d| - 1];
      var m := if g.maxLine > top then g.maxLine else top;
      assert forall z :: z in d ==> z <= top;
      Drained(g.(dirty := [], maxLine := m), d)
  }

  /** `LinedBuffer.write`: feed, then drain. */
  function Write(g: LinedBuffer, data: string, wide: char -> bool): (r: Drained)
    requires Valid(g)
    ensures Valid(r.grid)
    ensures StrictlySorted(r.rows)
    ensures r.grid.width == g.width && r.grid.minLine == g.minLine && r.grid.maxLine >= g.maxLine
    ensures r.grid.rawToSelf == g.rawToSelf && r.grid.selfToRaw == g.selfToRaw
  {
    Update(Feed(g, data, wide))
  }

  datatype Removed = Removed(grid: LinedBuffer, newMin: int)

  /** `LinedBuffer.remove_lines`: drop rows `start .. start+n-1` and report `start + n`. */
  function RemoveLines(g: LinedBuffer, n: int, start: int): (r: Removed)
    ensures r.newMin == start + n
    ensures forall y :: y in r.grid.rows <==> y in g.rows && !(start <= y < start + n)
    ensures forall y :: y in r.grid.rows ==> r.grid.rows[y] == g.rows[y]
    ensures r.grid == g.(rows := r.grid.rows)
  {
    Removed(g.(rows := map y | y in g.rows && !(start <= y < start + n) :: g.rows[y]), start + n)
  }

  // ---------------------------------------------------------------------------
  // Erasing and reverse index (the `Screen` overrides)

  /** The cell erasing writes: a blank in the cursor's style (`cursor.attrs`). */
  function EraseCell(g: LinedBuffer): Cell {
    Cell(Some(' '), g.cursor.style)
  }

  /** `for x in range(lo, hi): line[x] = c`. */
  function FillRange(r: Row, lo: nat, hi: int, c: Cell): (r': Row)
    ensures forall x :: lo <= x < hi ==> x < |r'| && r'[x] == Some(c)
    ensures forall x :: 0 <= x < |r| && !(lo <= x < hi) ==> x < |r'| && r'[x] == r[x]
    ensures forall x :: |r| <= x < |r'| && !(lo <= x < hi) ==> r'[x].None?
    ensures |r'| == if lo < hi && hi > |r| then hi else |r|
    decreases hi - lo
  {
    if lo >= hi then r else FillRange(SetCell(r, lo, c), lo + 1, hi, c)
  }

  /** The column count `erase_in_line` works with: `max(keys) + 1`, or 1 for a row with no cell. */
  function EraseColumns(r: Row): (n: nat)
    ensures n >= 1
  {
    var len := RowLength(r);
    if len == 0 then 1 else len
  }

  /** Whether `erase_in_line(how)` overwrites column `x`, the cursor being at
      column `cx` of a row whose erase column count is `columns`. */
  predicate Erased(how: int, x: int, cx: nat, columns: nat) {
    || (how == 0 && cx <= x < columns)
    || (how == 1 && 0 <= x <= cx)
    || (how == 2 && 0 <= x < columns)
  }

  lemma FillRangeCells(r: Row, lo: nat, hi: int, c: Cell)
    ensures forall x :: CellAt(FillRange(r, lo, hi, c), x) == if lo <= x < hi then c else CellAt(r, x)
  {
  }

  /** `Screen.erase_in_line`: 0 erases from the cursor to the row's end, 1 from
      the row's start through the cursor, 2 the whole row; the row is marked
      dirty first, and any other mode fails iterating `None`. */
  function EraseInLine(g: LinedBuffer, how: int): (r: Result<LinedBuffer>)
    requires StrictlySorted(g.dirty)
    ensures r.Ok? <==> how in {0, 1, 2}
    ensures r.Ok? ==> StrictlySorted(r.value.dirty)
    ensures r.Ok? ==> forall z :: z in r.value.dirty <==> z in g.dirty || z == g.cursor.y
    ensures r.Ok? ==> r.value.cursor == g.cursor && r.value.maxLine == g.maxLine && r.value.minLine == g.minLine
    ensures r.Ok? ==> forall y :: y != g.cursor.y ==> RowAt(r.value, y) == RowAt(g, y)
    ensures r.Ok? ==> forall x: int ::
              CellAt(RowAt(r.value, g.cursor.y), x) ==
                (if Erased(how, x, g.cursor.x, EraseColumns(RowAt(g, g.cursor.y)))
                 then EraseCell(g) else CellAt(RowAt(g, g.cursor.y), x))
    ensures !r.Ok? ==> r.error == TypeError
  {
    var y := g.cursor.y;
    var row := RowAt(g, y);
    var columns := EraseColumns(row);
    var marked := g.(dirty := Insert(g.dirty, y));
    if how in {0, 1, 2} then
      var lo: nat := if how == 0 then g.cursor.x else 0;
      var hi := if how == 1 then g.cursor.x + 1 else columns;
      FillRangeCells(row, lo, hi, EraseCell(g));
      Ok(marked.(rows := marked.rows[y := FillRange(row, lo, hi, EraseCell(g))]))
    else Err(TypeError)
  }

  /** Every written column of a row overwritten by `c`. */
  function Blank(r: Row, c: Cell): (r': Row)
    ensures |r'| == |r|
    ensures forall x :: 0 <= x < |r| ==> r'[x] == if r[x].Some? then Some(c) else None
  {
    if |r| == 0 then [] else Blank(r[..|r| - 1], c) + [if r[|r| - 1].Some? then Some(c) else None]
  }

  lemma BlankCells(r: Row, c: Cell)
    ensures forall x :: CellAt(Blank(r, c), x) == if 0 <= x < |r| && r[x].Some? then c else DefaultCell
  {
  }

  /** The first half of `erase_in_display(1)`: the rows above the cursor are
      marked dirty and their written cells overwritten by `c`. */
  function BlankAbove(g: LinedBuffer, c: Cell): (a: LinedBuffer)
    requires StrictlySorted(g.dirty)
    ensures StrictlySorted(a.dirty)
    ensures forall z :: z in a.dirty <==> z in g.dirty || 0 <= z < g.cursor.y
    ensures a == g.(dirty := a.dirty, rows := a.rows)
    ensures forall y :: !(0 <= y < g.cursor.y) ==> RowAt(a, y) == RowAt(g, y)
    ensures forall y :: 0 <= y < g.cursor.y ==> RowAt(a, y) == Blank(RowAt(g, y), c)
  {
    var y := g.cursor.y;
    g.(dirty := InsertRange(g.dirty, 0, y),
       rows := map k | k in g.rows :: if 0 <= k < y then Blank(g.rows[k], c) else g.rows[k])
  }

  /** `Screen.erase_in_display`. Only mode 1 (from the top through the cursor)
      completes: it marks the rows above the cursor dirty, blanks their written
      cells and erases the cursor row up to the cursor. Modes 0, 2 and 3 read
      the line buffer's nonexistent `max_lines` attribute, and any other mode
      iterates `None`. */
  function EraseInDisplay(g: LinedBuffer, how: int): (r: Result<LinedBuffer>)
    requires StrictlySorted(g.dirty)
    ensures r.Ok? <==> how == 1
    ensures how in {0, 2, 3} ==> r == Err(AttributeError)
    ensures how !in {0, 1, 2, 3} ==> r == Err(TypeError)
    ensures r.Ok? ==> StrictlySorted(r.value.dirty)
    ensures r.Ok? ==> forall z :: z in r.value.dirty <==> z in g.dirty || 0 <= z <= g.cursor.y
    ensures r.Ok? ==> r.value.cursor == g.cursor
    ensures r.Ok? ==> forall y :: (y < 0 || y > g.cursor.y) ==> RowAt(r.value, y) == RowAt(g, y)
    ensures r.Ok? ==> forall y, x :: 0 <= y < g.cursor.y ==>
              CellAt(RowAt(r.value, y), x) ==
                (if 0 <= x < |RowAt(g, y)| && RowAt(g, y)[x].Some? then EraseCell(g) else DefaultCell)
    ensures r.Ok? ==> forall x ::
              CellAt(RowAt(r.value, g.cursor.y), x) ==
                (if 0 <= x <= g.cursor.x then EraseCell(g) else CellAt(RowAt(g, g.cursor.y), x))
  {
    if how == 1 then
      var above := BlankAbove(g, EraseCell(g));
      var r := EraseInLine(above, 1);
      assert forall y, x :: 0 <= y < g.cursor.y ==>
               CellAt(RowAt(r.value, y), x) ==
                 (if 0 <= x < |RowAt(g, y)| && RowAt(g, y)[x].Some? then EraseCell(g) else DefaultCell) by {
        forall y | 0 <= y < g.cursor.y
          ensures forall x :: CellAt(RowAt(r.value, y), x) ==
                    (if 0 <= x < |RowAt(g, y)| && RowAt(g, y)[x].Some? then EraseCell(g) else DefaultCell)
        {
          BlankCells(RowAt(g, y), EraseCell(g));
        }
      }
      r
    else if how in {0, 2, 3} then Err(AttributeError)
    else Err(TypeError)
  }

  /** The rows after `reverse_index` scrolls the region `top .. bottom` down:
      each row in `top+1 .. bottom` takes the row above it and `top` is dropped. */
  function ShiftDown(rows: map<int, Row>, top: int, bottom: int): map<int, Row> {
    var kept := set k | k in rows && k != top && (k < top || k > bottom);
    var moved := set j | j in rows && top <= j < bottom :: j + 1;
    map k | k in kept + moved :: if k in moved then rows[k - 1] else rows[k]
  }

  /** `Screen.reverse_index` with no scrolling margins set: at the top line
      (`min_line`) the whole region `min_line .. max_line` is marked dirty and
      scrolled down one row, leaving the top row empty; elsewhere the cursor
      moves up one row, stopping at row 0. */
  function ReverseIndex(g: LinedBuffer): (g': LinedBuffer)
    requires Valid(g)
    ensures Valid(g')
    ensures g.cursor.y == g.minLine ==>
              && g'.cursor == g.cursor
              && (forall z :: z in g'.dirty <==> z in g.dirty || g.minLine <= z <= g.maxLine)
              && RowAt(g', g.minLine) == []
              && (forall k :: g.minLine < k <= g.maxLine ==> RowAt(g', k) == RowAt(g, k - 1))
              && (forall k :: k != g.minLine && !(g.minLine < k <= g.maxLine) ==> RowAt(g', k) == RowAt(g, k))
    ensures g.cursor.y != g.minLine ==>
              g' == g.(cursor := g.cursor.(y := if g.cursor.y > 0 then g.cursor.y - 1 else 0))
  {
    var top := g.minLine;
    var bottom := g.maxLine;
    if g.cursor.y == top then
      g.(dirty := InsertRange(g.dirty, top, bottom + 1), rows := ShiftDown(g.rows, top, bottom))
    else
      g.(cursor := g.cursor.(y := if g.cursor.y > 0 then g.cursor.y - 1 else 0))
  }

  // ---------------------------------------------------------------------------
  // Rendering rows (`LinedBuffer.get_lines`)

  /** What rendering a row emits: a character, a style switch (`reset` followed
      by the style's escape code unless it is the default style 0), or the reset
      closing the last row. */
  datatype Token = Glyph(c: char) | Switch(style: nat) | FinalReset

  /** The cells a row shows in the `count` columns starting at `x`: the column
      right after a double-width character holds its stub and is skipped. */
  function Visible(r: Row, x: int, count: nat, skip: bool, wide: char -> bool): seq<Cell>
    decreases count
  {
    if count == 0 then []
    else if skip then Visible(r, x + 1, count - 1, false, wide)
    else
      var c := CellAt(r, x);
      [c] + Visible(r, x + 1, count - 1, c.data.Some? && wide(c.data.value), wide)
  }

  /** The cells a token stream paints, each glyph in the style in effect when it
      is emitted, starting in style `cur`. */
  function Painted(ts: seq<Token>, cur: nat): seq<Cell>
    decreases |ts|
  {
    if |ts| == 0 then []
    else match ts[0]
      case Glyph(c) => [Cell(Some(c), cur)] + Painted(ts[1..], cur)
      case Switch(s) => Painted(ts[1..], s)
      case FinalReset => Painted(ts[1..], 0)
  }

  /** The style in effect after a token stream. */
  function EndStyle(ts: seq<Token>, cur: nat): nat
    decreases |ts|
  {
    if |ts| == 0 then cur
    else match ts[0]
      case Glyph(_) => EndStyle(ts[1..], cur)
      case Switch(s) => EndStyle(ts[1..], s)
      case FinalReset => EndStyle(ts[1..], 0)
  }

  /** No escape code is wasted: a switch always changes the style and is
      immediately followed by a character, and a final reset only ends a stream
      whose style is not the default. */
  predicate Economical(ts: seq<Token>, cur: nat)
    decreases |ts|
  {
    |ts| == 0 ||
    match ts[0]
      case Glyph(_) => Economical(ts[1..], cur)
      case Switch(s) => s != cur && |ts| > 1 && ts[1].Glyph? && Economical(ts[1..], s)
      case FinalReset => cur != 0 && |ts| == 1
  }

  predicate NoFinalReset(ts: seq<Token>) {
    forall i :: 0 <= i < |ts| ==> !ts[i].FinalReset?
  }

  /** Every style a stream switches to has an escape code. */
  predicate SwitchesKnown(ts: seq<Token>, ansi: map<nat, string>) {
    forall i :: 0 <= i < |ts| && ts[i].Switch? ==> ts[i].style == 0 || ts[i].style in ansi
  }

  datatype RowOut = RowOut(tokens: seq<Token>, last: nat)

  /** The inner loop of `get_lines` over one row: `count` columns from `x`,
      the style of the previous character being `cur`. Looking up the escape
      code of an unknown style fails with a `KeyError`; reaching a stub cell
      (empty data) fails with an `IndexError`. */
  function RowTokens(r: Row, x: int, count: nat, cur: nat, skip: bool,
                     ansi: map<nat, string>, wide: char -> bool): (res: Result<RowOut>)
    decreases count
  {
    if count == 0 then Ok(RowOut([], cur))
    else if skip then RowTokens(r, x + 1, count - 1, cur, false, ansi, wide)
    else
      var c := CellAt(r, x);
      if c.style != cur && c.style != 0 && c.style !in ansi then Err(KeyError)
      else if c.data.None? then Err(IndexError)
      else
        var rest :- RowTokens(r, x + 1, count - 1, c.style, wide(c.data.value), ansi, wide);
        var switch := if c.style != cur then [Switch(c.style)] else [];
        Ok(RowOut(switch + [Glyph(c.data.value)] + rest.tokens, rest.last))
  }

  lemma {:induction false} RowTokensFaithful(r: Row, x: int, count: nat, cur: nat, skip: bool,
                                            ansi: map<nat, string>, wide: char -> bool)
    requires RowTokens(r, x, count, cur, skip, ansi, wide).Ok?
    ensures var out := RowTokens(r, x, count, cur, skip, ansi, wide).value;
      && Painted(out.tokens, cur) == Visible(r, x, count, skip, wide)
      && EndStyle(out.tokens, cur) == out.last
      && Economical(out.tokens, cur)
      && NoFinalReset(out.tokens)
      && SwitchesKnown(out.tokens, ansi)
      && (out.last == cur || out.last == 0 || out.last in ansi)
    decreases count
  {
    if count == 0 {
    } else if skip {
      RowTokensFaithful(r, x + 1, count - 1, cur, false, ansi, wide);
    } else {
      var c := CellAt(r, x);
      RowTokensFaithful(r, x + 1, count - 1, c.style, wide(c.data.value), ansi, wide);
      var rest := RowTokens(r, x + 1, count - 1, c.style, wide(c.data.value), ansi, wide).value;
      StepTokens(c.data.value, c.style, cur, rest.tokens, ansi);
    }
  }

  /** One emitted character, behind a switch exactly when its style differs
      from the one in effect, in front of the rest of the row. */
  lemma StepTokens(d: char, style: nat, cur: nat, rest: seq<Token>, ansi: map<nat, string>)
    requires Economical(rest, style) && NoFinalReset(rest) && SwitchesKnown(rest, ansi)
    requires style == cur || style == 0 || style in ansi
    ensures var ts := (if style != cur then [Switch(style)] else []) + [Glyph(d)] + rest;
      && Painted(ts, cur) == [Cell(Some(d), style)] + Painted(rest, style)
      && EndStyle(ts, cur) == EndStyle(rest, style)
      && Economical(ts, cur)
      && NoFinalReset(ts)
      && SwitchesKnown(ts, ansi)
  {
    GlyphTokens(d, style, rest, ansi);
    var g := [Glyph(d)] + rest;
    if style != cur {
      SwitchTokens(style, cur, g, ansi);
      assert [Switch(style)] + [Glyph(d)] + rest == [Switch(style)] + g;
    } else {
      assert [] + [Glyph(d)] + rest == g;
    }
  }

  lemma GlyphTokens(d: char, style: nat, rest: seq<Token>, ansi: map<nat, string>)
    requires Economical(rest, style) && NoFinalReset(rest) && SwitchesKnown(rest, ansi)
    ensures var g := [Glyph(d)] + rest;
      && Painted(g, style) == [Cell(Some(d), style)] + Painted(rest, style)
      && EndStyle(g, style) == EndStyle(rest, style)
      && Economical(g, style) && NoFinalReset(g) && SwitchesKnown(g, ansi)
  {
    var g := [Glyph(d)] + rest;
    assert g[1..] == rest;
    assert forall i :: 1 <= i < |g| ==> g[i] == rest[i - 1];
  }

  lemma SwitchTokens(style: nat, cur: nat, g: seq<Token>, ansi: map<nat, string>)
    requires |g| > 0 && g[0].Glyph? && style != cur && (style == 0 || style in ansi)
    requires Economical(g, style) && NoFinalReset(g) && SwitchesKnown(g, ansi)
    ensures var ts := [Switch(style)] + g;
      && Painted(ts, cur) == Painted(g, style)
      && EndStyle(ts, cur) == EndStyle(g, style)
      && Economical(ts, cur) && NoFinalReset(ts) && SwitchesKnown(ts, ansi)
  {
    var ts := [Switch(style)] + g;
    assert ts[1..] == g;
    assert forall i :: 1 <= i < |ts| ==> ts[i] == g[i - 1];
  }

  /** A row succeeds exactly when every shown cell has data and every style it
      switches to has an escape code (given that the incoming style has one). */
  lemma {:induction false} RowTokensOkIff(r: Row, x: int, count: nat, cur: nat, skip: bool,
                                         ansi: map<nat, string>, wide: char -> bool)
    requires cur == 0 || cur in ansi
    ensures RowTokens(r, x, count, cur, skip, ansi, wide).Ok? <==>
              forall c :: c in Visible(r, x, count, skip, wide) ==>
                c.data.Some? && (c.style == 0 || c.style in ansi)
    decreases count
  {
    if count == 0 {
    } else if skip {
      RowTokensOkIff(r, x + 1, count - 1, cur, false, ansi, wide);
    } else {
      var c := CellAt(r, x);
      var w := c.data.Some? && wide(c.data.value);
      assert Visible(r, x, count, skip, wide) == [c] + Visible(r, x + 1, count - 1, w, wide);
      if c.style == 0 || c.style in ansi {
        RowTokensOkIff(r, x + 1, count - 1, c.style, w, ansi, wide);
      }
    }
  }

  lemma RowTokensKnown(r: Row, x: int, count: nat, cur: nat, skip: bool,
                       ansi: map<nat, string>, wide: char -> bool)
    requires RowTokens(r, x, count, cur, skip, ansi, wide).Ok?
    ensures SwitchesKnown(RowTokens(r, x, count, cur, skip, ansi, wide).value.tokens, ansi)
  {
    RowTokensFaithful(r, x, count, cur, skip, ansi, wide);
  }

  lemma {:induction false} PaintedAppend(a: seq<Token>, b: seq<Token>, cur: nat)
    ensures Painted(a + b, cur) == Painted(a, cur) + Painted(b, EndStyle(a, cur))
    ensures EndStyle(a + b, cur) == EndStyle(b, EndStyle(a, cur))
    decreases |a|
  {
    if |a| == 0 {
      assert a + b == b;
    } else {
      assert (a + b)[1..] == a[1..] + b;
      match a[0]
      case Glyph(_) => PaintedAppend(a[1..], b, cur);
      case Switch(s) => PaintedAppend(a[1..], b, s);
      case FinalReset => PaintedAppend(a[1..], b, 0);
    }
  }

  lemma {:induction false} EconomicalAppend(a: seq<Token>, b: seq<Token>, cur: nat)
    requires Economical(a, cur) && NoFinalReset(a) && Economical(b, EndStyle(a, cur))
    ensures Economical(a + b, cur)
    decreases |a|
  {
    if |a| == 0 {
      assert a + b == b;
    } else {
      assert (a + b)[1..] == a[1..] + b;
      assert NoFinalReset(a[1..]) by {
        forall i | 0 <= i < |a[1..]| ensures !a[1..][i].FinalReset? {
          assert a[1..][i] == a[i + 1];
        }
      }
      match a[0]
      case Glyph(_) => EconomicalAppend(a[1..], b, cur);
      case Switch(s) => EconomicalAppend(a[1..], b, s);
    }
  }

  datatype LineOut = LineOut(length: nat, tokens: seq<Token>)

  /** The tokens of every line in a window. */
  function Flat(ls: seq<LineOut>): seq<Token> {
    if |ls| == 0 then [] else ls[0].tokens + Flat(ls[1..])
  }

  /** The cells shown in rows `y .. end-1`, `columns` wide from `startColumn`. */
  function VisibleRows(g: LinedBuffer, y: int, end: int, columns: nat, startColumn: int, wide: char -> bool): seq<Cell>
    decreases end - y
  {
    if y >= end then [] else Visible(RowAt(g, y), startColumn, columns, false, wide) + VisibleRows(g, y + 1, end, columns, startColumn, wide)
  }

  /** The outer loop of `get_lines` over rows `y .. end-1`, the style of the
      last emitted character being `cur`; the last row gets a closing reset
      when it ends in a style other than the default. */
  function TokenRows(g: LinedBuffer, ansi: map<nat, string>, y: int, end: int, columns: nat, startColumn: int,
                     cur: nat, wide: char -> bool): (r: Result<seq<LineOut>>)
    ensures r.Ok? ==> |r.value| == if y < end then end - y else 0
    ensures r.Ok? ==> forall i :: 0 <= i < |r.value| ==> r.value[i].length == RowLength(RowAt(g, y + i))
    ensures r.Ok? ==> forall i :: 0 <= i < |r.value| ==> SwitchesKnown(r.value[i].tokens, ansi)
    decreases end - y
  {
    if y >= end then Ok([])
    else
      var row := RowAt(g, y);
      var out :- RowTokens(row, startColumn, columns, cur, false, ansi, wide);
      var ts := if out.last != 0 && y == end - 1 then out.tokens + [FinalReset] else out.tokens;
      assert SwitchesKnown(ts, ansi) by {
        RowTokensKnown(row, startColumn, columns, cur, false, ansi, wide);
      }
      var rest :- TokenRows(g, ansi, y + 1, end, columns, startColumn, out.last, wide);
      Ok([LineOut(RowLength(row), ts)] + rest)
  }

  /** Across the whole window: every shown cell is painted in its own style,
      no escape code is wasted, and the text ends in the default style. */
  lemma {:induction false} TokenRowsFaithful(g: LinedBuffer, ansi: map<nat, string>, y: int, end: int, columns: nat,
                                            startColumn: int, cur: nat, wide: char -> bool)
    requires y < end
    requires TokenRows(g, ansi, y, end, columns, startColumn, cur, wide).Ok?
    ensures var ls := TokenRows(g, ansi, y, end, columns, startColumn, cur, wide).value;
      && Painted(Flat(ls), cur) == VisibleRows(g, y, end, columns, startColumn, wide)
      && Economical(Flat(ls), cur)
      && EndStyle(Flat(ls), cur) == 0
    decreases end - y
  {
    var ls := TokenRows(g, ansi, y, end, columns, startColumn, cur, wide).value;
    var row := RowAt(g, y);
    var out := RowTokens(row, startColumn, columns, cur, false, ansi, wide).value;
    RowTokensFaithful(row, startColumn, columns, cur, false, ansi, wide);
    var ts := ls[0].tokens;
    assert Flat(ls) == ts + Flat(ls[1..]);
    if y == end - 1 {
      assert ls[1..] == [];
      assert Flat(ls) == ts + [];
      assert VisibleRows(g, y, end, columns, startColumn, wide) == Visible(row, startColumn, columns, false, wide) + [];
      if out.last != 0 {
        assert ts == out.tokens + [FinalReset];
        assert Flat(ls) == out.tokens + [FinalReset];
        PaintedAppend(out.tokens, [FinalReset], cur);
        EconomicalAppend(out.tokens, [FinalReset], cur);
        assert [FinalReset][1..] == [];
        assert Painted([FinalReset], out.last) == [];
        assert EndStyle([FinalReset], out.last) == 0;
        assert Economical([FinalReset], out.last);
      } else {
        assert ts == out.tokens;
        assert Flat(ls) == out.tokens;
      }
    } else {
      assert ts == out.tokens;
      TokenRowsFaithful(g, ansi, y + 1, end, columns, startColumn, out.last, wide);
      assert ls[1..] == TokenRows(g, ansi, y + 1, end, columns, startColumn, out.last, wide).value;
      PaintedAppend(ts, Flat(ls[1..]), cur);
      EconomicalAppend(ts, Flat(ls[1..]), cur);
      assert VisibleRows(g, y, end, columns, startColumn, wide)
          == Visible(row, startColumn, columns, false, wide) + VisibleRows(g, y + 1, end, columns, startColumn, wide);
    }
  }

  /** The window renders exactly when every shown cell has data and a known style. */
  lemma {:induction false} TokenRowsOkIff(g: LinedBuffer, ansi: map<nat, string>, y: int, end: int, columns: nat,
                                         startColumn: int, cur: nat, wide: char -> bool)
    requires cur == 0 || cur in ansi
    ensures TokenRows(g, ansi, y, end, columns, startColumn, cur, wide).Ok? <==>
              forall c :: c in VisibleRows(g, y, end, columns, startColumn, wide) ==>
                c.data.Some? && (c.style == 0 || c.style in ansi)
    decreases end - y
  {
    if y < end {
      var row := RowAt(g, y);
      RowTokensOkIff(row, startColumn, columns, cur, false, ansi, wide);
      var first := RowTokens(row, startColumn, columns, cur, false, ansi, wide);
      if first.Ok? {
        RowTokensFaithful(row, startColumn, columns, cur, false, ansi, wide);
        TokenRowsOkIff(g, ansi, y + 1, end, columns, startColumn, first.value.last, wide);
      }
    }
  }

  /** The text of a token stream: `reset` plus the style's code for a switch
      (the code alone is omitted for the default style), `reset` to close. */
  function Render(ts: seq<Token>, ansi: map<nat, string>): string
    requires SwitchesKnown(ts, ansi)
    decreases |ts|
  {
    if |ts| == 0 then ""
    else
      var head := match ts[0]
        case Glyph(c) => [c]
        case Switch(s) => Style.Reset + (if s != 0 then ansi[s] else "")
        case FinalReset => Style.Reset;
      head + Render(ts[1..], ansi)
  }

  /** `LinedBuffer.get_lines`: `lines` rows from `start`, each as its length
      and its text over `columns` columns from `startColumn`. Nothing is
      rendered when `start` is past the last row ever drawn. `ansi` is the
      style table's id-to-escape-code map. */
  function GetLines(g: LinedBuffer, ansi: map<nat, string>, lines: int, start: int, columns: int, startColumn: int,
                    wide: char -> bool): (r: Result<seq<(nat, string)>>)
    ensures start > g.maxLine ==> r == Ok([])
    ensures r.Ok? && start <= g.maxLine ==> |r.value| == if lines > 0 then lines else 0
    ensures r.Ok? ==> forall i :: 0 <= i < |r.value| ==> r.value[i].0 == RowLength(RowAt(g, start + i))
  {
    if start > g.maxLine then Ok([])
    else
      var ls :- TokenRows(g, ansi, start, start + lines, if columns > 0 then columns else 0, startColumn, 0, wide);
      Ok(seq(|ls|, i requires 0 <= i < |ls| => (ls[i].length, Render(ls[i].tokens, ansi))))
  }

  /** `get_lines` succeeds exactly when every cell it shows has data (is not
      the stub of a double-width character read on its own) and a style with
      an escape code. */
  lemma GetLinesOkIff(g: LinedBuffer, ansi: map<nat, string>, lines: int, start: int, columns: int, startColumn: int,
                      wide: char -> bool)
    requires start <= g.maxLine
    ensures GetLines(g, ansi, lines, start, columns, startColumn, wide).Ok? <==>
              forall c :: c in VisibleRows(g, start, start + lines, if columns > 0 then columns else 0, startColumn, wide) ==>
                c.data.Some? && (c.style == 0 || c.style in ansi)
  {
    TokenRowsOkIff(g, ansi, start, start + lines, if columns > 0 then columns else 0, startColumn, 0, wide);
  }

  lemma DrawNarrow(g: LinedBuffer, c: char, wide: char -> bool)
    requires Valid(g) && !wide(c) && g.cursor.x < g.width
    ensures DrawChar(g, c, wide) ==
              g.(rows := g.rows[g.cursor.y := SetCell(RowAt(g, g.cursor.y), g.cursor.x, Cell(Some(c), g.cursor.style))],
                 cursor := g.cursor.(x := g.cursor.x + 1),
                 dirty := Insert(g.dirty, g.cursor.y))
  {
  }

  /** One narrow character, cell by cell: it lands at the cursor, the cursor
      moves one column right, and no other cell changes. */
  lemma DrawNarrowCells(g: LinedBuffer, c: char, wide: char -> bool)
    requires Valid(g) && !wide(c) && g.cursor.x < g.width
    ensures var g1 := DrawChar(g, c, wide);
      && g1.cursor == g.cursor.(x := g.cursor.x + 1)
      && CellAt(RowAt(g1, g.cursor.y), g.cursor.x) == Cell(Some(c), g.cursor.style)
      && (forall x :: x != g.cursor.x ==> CellAt(RowAt(g1, g.cursor.y), x) == CellAt(RowAt(g, g.cursor.y), x))
      && (forall y :: y != g.cursor.y ==> RowAt(g1, y) == RowAt(g, y))
  {
    DrawNarrow(g, c, wide);
    var r := RowAt(g, g.cursor.y);
    var r' := SetCell(r, g.cursor.x, Cell(Some(c), g.cursor.style));
    assert forall x :: x != g.cursor.x ==> CellAt(r', x) == CellAt(r, x) by {
      forall x | x != g.cursor.x ensures CellAt(r', x) == CellAt(r, x) {
        if 0 <= x < |r| {
        } else if |r| <= x < |r'| {
          assert r'[x].None?;
        }
      }
    }
  }

  /** Feeding a text that starts with a printable character draws it first. */
  lemma FeedDraws(g: LinedBuffer, data: string, wide: char -> bool)
    requires Valid(g) && |data| > 0 && data[0] != '\r' && data[0] != '\n'
    ensures Feed(g, data, wide) == Feed(DrawChar(g, data[0], wide), data[1..], wide)
  {
  }

  /** A run of single-width characters other than `\r` and `\n`. */
  predicate PlainRun(data: string, wide: char -> bool) {
    forall i :: 0 <= i < |data| ==> data[i] != '\r' && data[i] != '\n' && !wide(data[i])
  }

  lemma PlainSlice(data: string, wide: char -> bool, lo: nat, hi: nat)
    requires PlainRun(data, wide) && lo <= hi <= |data|
    ensures PlainRun(data[lo..hi], wide)
  {
    assert forall i :: 0 <= i < hi - lo ==> data[lo..hi][i] == data[lo + i];
  }

  /** Row `r` holds the characters of `data`, in `style`, from column `x` on. */
  predicate RunAt(r: Row, x: int, data: string, style: nat) {
    forall i :: 0 <= i < |data| ==> CellAt(r, x + i) == Cell(Some(data[i]), style)
  }

  /** Rows `r` and `r0` agree outside the columns `lo .. hi - 1`. */
  ghost predicate SameOutside(r: Row, r0: Row, lo: int, hi: int) {
    forall x :: !(lo <= x < hi) ==> CellAt(r, x) == CellAt(r0, x)
  }

  /** The cell bookkeeping of one step of a run: the first character was
      drawn at `x` (row `r0` became `r1`) and the rest from `x + 1` on (row
      `r1` became `r2`). */
  lemma RunCells(r0: Row, r1: Row, r2: Row, x: int, data: string, style: nat)
    requires |data| > 0
    requires CellAt(r1, x) == Cell(Some(data[0]), style)
    requires SameOutside(r1, r0, x, x + 1)
    requires RunAt(r2, x + 1, data[1..], style)
    requires SameOutside(r2, r1, x + 1, x + |data|)
    ensures RunAt(r2, x, data, style)
    ensures SameOutside(r2, r0, x, x + |data|)
  {
    forall i | 0 <= i < |data|
      ensures CellAt(r2, x + i) == Cell(Some(data[i]), style)
    {
      if i == 0 {
        assert CellAt(r2, x) == CellAt(r1, x);
      } else {
        assert CellAt(r2, x + 1 + (i - 1)) == Cell(Some(data[1..][i - 1]), style);
      }
    }
  }

  /** Writing a run of single-width characters that fits on the cursor's row
      puts each character, in the cursor's style, in the next column and leaves
      the cursor right after the run; no other row changes. */
  lemma {:induction false} FeedNarrowRun(g: LinedBuffer, data: string, wide: char -> bool)
    requires Valid(g)
    requires PlainRun(data, wide)
    requires g.cursor.x + |data| <= g.width
    ensures var g' := Feed(g, data, wide);
      && g'.cursor == g.cursor.(x := g.cursor.x + |data|)
      && RunAt(RowAt(g', g.cursor.y), g.cursor.x, data, g.cursor.style)
      && SameOutside(RowAt(g', g.cursor.y), RowAt(g, g.cursor.y), g.cursor.x, g.cursor.x + |data|)
      && (forall y :: y != g.cursor.y ==> RowAt(g', y) == RowAt(g, y))
    decreases |data|
  {
    if |data| > 0 {
      var y := g.cursor.y;
      var x := g.cursor.x;
      var g1 := DrawChar(g, data[0], wide);
      DrawNarrowCells(g, data[0], wide);
      assert SameOutside(RowAt(g1, y), RowAt(g, y), x, x + 1);
      var rest := data[1..];
      FeedNarrowRun(g1, rest, wide);
      FeedDraws(g, data, wide);
      var g' := Feed(g1, rest, wide);
      RunCells(RowAt(g, y), RowAt(g1, y), RowAt(g', y), x, data, g.cursor.style);
    }
  }

  /** Feeding two texts one after the other is feeding their concatenation. */
  lemma {:induction false} FeedAppend(g: LinedBuffer, a: string, b: string, wide: char -> bool)
    requires Valid(g)
    ensures Feed(g, a + b, wide) == Feed(Feed(g, a, wide), b, wide)
    decreases |a|
  {
    if |a| > 0 {
      var c := a[0];
      var g1 :=
        if c == '\r' then CarriageReturn(g)
        else if c == '\n' then LineFeed(g)
        else DrawChar(g, c, wide);
      assert (a + b)[0] == c && (a + b)[1..] == a[1..] + b;
      FeedAppend(g1, a[1..], b, wide);
    } else {
      assert a + b == b;
    }
  }

  /** What drawing decides: the cells and the cursor. The dirty set, the line
      bounds and the row maps are bookkeeping around it. */
  function Screen(g: LinedBuffer): (map<int, Row>, Cursor) {
    (g.rows, g.cursor)
  }

  /** Drawing depends on nothing but the screen and the width: two grids
      that agree on them still agree after the same text. */
  lemma {:induction false} FeedScreen(g1: LinedBuffer, g2: LinedBuffer, data: string, wide: char -> bool)
    requires Valid(g1) && Valid(g2) && g1.width == g2.width && Screen(g1) == Screen(g2)
    ensures Screen(Feed(g1, data, wide)) == Screen(Feed(g2, data, wide))
    decreases |data|
  {
    if |data| > 0 {
      var c := data[0];
      var h1 := if c == '\r' then CarriageReturn(g1) else if c == '\n' then LineFeed(g1) else DrawChar(g1, c, wide);
      var h2 := if c == '\r' then CarriageReturn(g2) else if c == '\n' then LineFeed(g2) else DrawChar(g2, c, wide);
      assert Valid(h1) && Valid(h2) && h1.width == h2.width && Screen(h1) == Screen(h2) by {
        if c != '\r' && c != '\n' { DrawScreen(g1, g2, c, wide); }
      }
      FeedScreen(h1, h2, data[1..], wide);
    }
  }

  /** A text with a character to draw marks some row dirty. */
  lemma {:induction false} FeedMarks(g: LinedBuffer, data: string, wide: char -> bool, k: nat)
    requires Valid(g) && k < |data| && data[k] != '\r' && data[k] != '\n'
    ensures Feed(g, data, wide).dirty != []
    decreases k
  {
    var c := data[0];
    var g1 := if c == '\r' then CarriageReturn(g) else if c == '\n' then LineFeed(g) else DrawChar(g, c, wide);
    if k == 0 {
      assert g1.cursor.y in g1.dirty;
      assert g1.cursor.y in Feed(g1, data[1..], wide).dirty;
    } else {
      FeedMarks(g1, data[1..], wide, k - 1);
    }
  }

  lemma DrawScreen(g1: LinedBuffer, g2: LinedBuffer, c: char, wide: char -> bool)
    requires Valid(g1) && Valid(g2) && g1.width == g2.width && Screen(g1) == Screen(g2)
    ensures Screen(DrawChar(g1, c, wide)) == Screen(DrawChar(g2, c, wide))
  {
    if g1.cursor.x == g1.width {
      PutScreen(Wrapped(g1), Wrapped(g2), c, wide);
    } else {
      PutScreen(g1, g2, c, wide);
    }
  }

  lemma PutScreen(g1: LinedBuffer, g2: LinedBuffer, c: char, wide: char -> bool)
    requires Valid(g1) && Valid(g2) && g1.width == g2.width && Screen(g1) == Screen(g2) && g1.cursor.x < g1.width
    ensures Screen(PutChar(g1, c, wide)) == Screen(PutChar(g2, c, wide))
  {
  }

  /** A text ended by a line feed leaves the cursor one row below where the
      text alone left it, and marks nothing more dirty. */
  lemma FeedLineEnd(g: LinedBuffer, s: string, wide: char -> bool)
    requires Valid(g)
    ensures Feed(g, s + "\n", wide) == LineFeed(Feed(g, s, wide))
  {
    FeedAppend(g, s, "\n", wide);
  }

  /** The rows one write hands out, from a grid with nothing dirty, lie
      between the old and the new cursor row. */
  lemma WriteRows(g: LinedBuffer, data: string, wide: char -> bool)
    requires Valid(g) && g.dirty == []
    ensures var d := Write(g, data, wide);
      && d.grid.dirty == []
      && g.cursor.y <= d.grid.cursor.y
      && forall z :: z in d.rows ==> g.cursor.y <= z <= d.grid.cursor.y
  {
  }

  /** A write ended by a line feed leaves every row it hands out above the
      new cursor row, unless the cursor reached the bottom of the screen. */
  lemma WriteLineRows(g: LinedBuffer, s: string, wide: char -> bool)
    requires Valid(g) && g.dirty == []
    ensures var d := Write(g, s + "\n", wide);
      d.grid.cursor.y < Big - 1 ==>
        g.cursor.y < d.grid.cursor.y && forall z :: z in d.rows ==> z < d.grid.cursor.y
  {
    FeedLineEnd(g, s, wide);
    var h := Feed(g, s, wide);
    assert forall z :: z in Update(h).rows ==> z <= h.cursor.y;
  }

  /** A narrow character drawn with the cursor parked past the last column is
      drawn as if the cursor stood at the start of the next row, that row
      being marked dirty first. */
  lemma DrawParked(g: LinedBuffer, c: char, wide: char -> bool)
    requires Valid(g) && g.cursor.x == g.width
    ensures DrawChar(g, c, wide) == DrawChar(Wrapped(g), c, wide)
  {
  }

  /** Deferred wrap: a narrow character drawn with the cursor parked past
      the last column lands at column 0 of the next row, the cursor moves to
      column 1 of that row, and no other cell changes. */
  lemma DrawWrapsCells(g: LinedBuffer, c: char, wide: char -> bool)
    requires Valid(g) && !wide(c) && g.cursor.x == g.width
    ensures var g1 := DrawChar(g, c, wide);
      var y := Down(g.cursor.y);
      && g1.cursor == g.cursor.(x := 1, y := y)
      && CellAt(RowAt(g1, y), 0) == Cell(Some(c), g.cursor.style)
      && (forall x :: x != 0 ==> CellAt(RowAt(g1, y), x) == CellAt(RowAt(g, y), x))
      && (forall y' :: y' != y ==> RowAt(g1, y') == RowAt(g, y'))
  {
    DrawParked(g, c, wide);
    DrawNarrowCells(Wrapped(g), c, wide);
  }

  /** Feeding a text whose first character is printable, with the cursor
      parked past the last column, is feeding it from the start of the next
      row. */
  lemma FeedParked(g: LinedBuffer, data: string, wide: char -> bool)
    requires Valid(g) && g.cursor.x == g.width
    requires |data| > 0 && data[0] != '\r' && data[0] != '\n'
    ensures Feed(g, data, wide) == Feed(Wrapped(g), data, wide)
  {
    FeedDraws(g, data, wide);
    FeedDraws(Wrapped(g), data, wide);
    DrawParked(g, data[0], wide);
  }

  lemma MulAtLeast(w: nat, k: int)
    requires k >= 1
    ensures w * k >= w
  {
    var m := k - 1;
    assert w * k == w * m + w;
  }

  lemma DivUnique(a: int, w: nat, q: int, r: int)
    requires 0 < w && a == w * q + r && 0 <= r < w
    ensures a / w == q && a % w == r
  {
    var q' := a / w;
    var r' := a % w;
    assert a == w * q' + r';
    if q > q' {
      MulAtLeast(w, q - q');
    } else if q < q' {
      MulAtLeast(w, q' - q);
    }
  }

  lemma DivStep(i: nat, w: nat)
    requires 0 < w <= i
    ensures (i - w) / w == i / w - 1 && (i - w) % w == i % w
  {
    var q := i / w;
    var r := i % w;
    assert i == w * q + r;
    assert i - w == w * (q - 1) + r;
    DivUnique(i - w, w, q - 1, r);
  }

  lemma DivSmall(i: nat, w: nat)
    requires i < w
    ensures i / w == 0 && i % w == i
  {
  }

  /** The number of rows below the first that a run of `n + 1` characters
      cut into rows of width `w` reaches. */
  function RowOf(i: nat, w: nat): (r: nat)
    requires w > 0
    ensures r == i / w
    decreases i
  {
    if i < w then 0
    else
      DivStep(i, w);
      1 + RowOf(i - w, w)
  }

  lemma SplitAt(s: string, k: nat)
    requires k <= |s|
    ensures s[..k] + s[k..] == s
  {
  }

  /** The first row of a run longer than the width, fed from column 0,
      fills the cursor's row and parks the cursor past its last column. */
  lemma FirstRow(g: LinedBuffer, data: string, wide: char -> bool)
    requires Valid(g) && g.cursor.x == 0 && |data| > g.width
    requires PlainRun(data, wide)
    ensures var h := Feed(g, data[..g.width], wide);
      h.cursor == g.cursor.(x := g.width) && RunAt(RowAt(h, g.cursor.y), 0, data[..g.width], g.cursor.style)
  {
    assert data[..g.width] == data[0..g.width];
    PlainSlice(data, wide, 0, g.width);
    FeedNarrowRun(g, data[..g.width], wide);
  }

  /** A run longer than the width, fed from column 0, fills the cursor's row
      and carries on from the start of the next one. */
  lemma WrapStep(g: LinedBuffer, data: string, wide: char -> bool)
    requires Valid(g) && g.cursor.x == 0 && |data| > g.width
    requires PlainRun(data, wide)
    ensures var h := Feed(g, data[..g.width], wide);
      && Feed(g, data, wide) == Feed(Wrapped(h), data[g.width..], wide)
      && Wrapped(h).cursor == g.cursor.(y := Down(g.cursor.y))
      && RunAt(RowAt(h, g.cursor.y), 0, data[..g.width], g.cursor.style)
  {
    var head := data[..g.width];
    var rest := data[g.width..];
    var h := Feed(g, head, wide);
    FirstRow(g, data, wide);
    assert Feed(g, data, wide) == Feed(h, rest, wide) by {
      SplitAt(data, g.width);
      FeedAppend(g, head, rest, wide);
    }
    assert Feed(h, rest, wide) == Feed(Wrapped(h), rest, wide) by {
      assert rest[0] == data[g.width];
      FeedParked(h, rest, wide);
    }
  }

  /** A run longer than the width, fed from column 0, is its first row
      followed by the rest fed from the start of the next row, and that first
      row survives the rest. */
  lemma WrapRowAndRest(g: LinedBuffer, data: string, wide: char -> bool)
    requires Valid(g) && g.cursor.x == 0 && |data| > g.width && g.cursor.y + 1 < Big
    requires PlainRun(data, wide)
    ensures Feed(g, data, wide) == Feed(Wrapped(Feed(g, data[..g.width], wide)), data[g.width..], wide)
    ensures RunAt(RowAt(Feed(g, data, wide), g.cursor.y), 0, data[..g.width], g.cursor.style)
  {
    var y := g.cursor.y;
    var h := Feed(g, data[..g.width], wide);
    var p := Wrapped(h);
    var rest := data[g.width..];
    var g' := Feed(p, rest, wide);
    WrapStep(g, data, wide);
    FeedKeepsRowsAbove(p, rest, wide);
    assert p.rows == h.rows;
    assert RowAt(g', y) == RowAt(h, y);
  }

  /** Feeding never changes a row above the cursor. */
  lemma {:induction false} FeedKeepsRowsAbove(g: LinedBuffer, data: string, wide: char -> bool)
    requires Valid(g)
    ensures forall y :: y < g.cursor.y ==> RowAt(Feed(g, data, wide), y) == RowAt(g, y)
    decreases |data|
  {
    if |data| > 0 {
      var c := data[0];
      var g1 :=
        if c == '\r' then CarriageReturn(g)
        else if c == '\n' then LineFeed(g)
        else DrawChar(g, c, wide);
      FeedKeepsRowsAbove(g1, data[1..], wide);
    }
  }

  /** `data` cut into rows of width `w`, row by row from row `y` of `g`,
      each row from column 0, in `style`. */
  ghost predicate CutInto(g: LinedBuffer, y: int, w: nat, data: string, style: nat)
    requires w > 0
    decreases |data|
  {
    if |data| <= w then RunAt(RowAt(g, y), 0, data, style)
    else RunAt(RowAt(g, y), 0, data[..w], style) && CutInto(g, y + 1, w, data[w..], style)
  }

  /** Character `i` of `data` is in column `i % w` of row `y + i / w` of
      `g`, in `style`: the text cut into rows of width `w` from row `y` on. */
  ghost predicate RowsOfWidth(g: LinedBuffer, y: int, w: nat, data: string, style: nat)
    requires w > 0
  {
    forall i :: 0 <= i < |data| ==> CellAt(RowAt(g, y + i / w), i % w) == Cell(Some(data[i]), style)
  }

  /** Cutting row by row puts every character at its quotient row and
      remainder column. */
  lemma {:induction false} CutIntoDiv(g: LinedBuffer, y: int, w: nat, data: string, style: nat)
    requires w > 0 && CutInto(g, y, w, data, style)
    ensures RowsOfWidth(g, y, w, data, style)
    decreases |data|
  {
    if |data| > w {
      CutIntoDiv(g, y + 1, w, data[w..], style);
    }
    forall i | 0 <= i < |data|
      ensures CellAt(RowAt(g, y + i / w), i % w) == Cell(Some(data[i]), style)
    {
      if i < w {
        DivSmall(i, w);
        assert CellAt(RowAt(g, y), 0 + i) == Cell(Some(data[i]), style);
      } else {
        DivStep(i, w);
        assert data[w..][i - w] == data[i];
        assert CellAt(RowAt(g, y + 1 + (i - w) / w), (i - w) % w) == Cell(Some(data[w..][i - w]), style);
      }
    }
  }

  /** A run of narrow printable characters fed from column 0 is cut into rows
      of the grid's width: character `i` lands in column `i % width` of the
      `i / width`-th row below the cursor, in the cursor's style; the rows
      above the cursor do not change. The run must end above the bottom of
      the screen. */
  lemma FeedWrappedRun(g: LinedBuffer, data: string, wide: char -> bool)
    requires Valid(g) && g.cursor.x == 0
    requires PlainRun(data, wide)
    requires |data| == 0 || g.cursor.y + (|data| - 1) / g.width < Big
    ensures var g' := Feed(g, data, wide);
      && RowsOfWidth(g', g.cursor.y, g.width, data, g.cursor.style)
      && (forall y :: y < g.cursor.y ==> RowAt(g', y) == RowAt(g, y))
  {
    if |data| > 0 {
      assert RowOf(|data| - 1, g.width) == (|data| - 1) / g.width;
    }
    FeedRowsOfRun(g, data, wide);
    FeedKeepsRowsAbove(g, data, wide);
    CutIntoDiv(Feed(g, data, wide), g.cursor.y, g.width, data, g.cursor.style);
  }

  /** `FeedWrappedRun`, row by row. */
  lemma {:induction false} FeedRowsOfRun(g: LinedBuffer, data: string, wide: char -> bool)
    requires Valid(g) && g.cursor.x == 0
    requires PlainRun(data, wide)
    requires |data| == 0 || g.cursor.y + RowOf(|data| - 1, g.width) < Big
    ensures CutInto(Feed(g, data, wide), g.cursor.y, g.width, data, g.cursor.style)
    decreases |data|
  {
    var w := g.width;
    if |data| <= w {
      FeedNarrowRun(g, data, wide);
    } else {
      var p := Wrapped(Feed(g, data[..w], wide));
      var rest := data[w..];
      assert RowOf(|data| - 1, w) == 1 + RowOf(|rest| - 1, w);
      assert Valid(p) && p.cursor == g.cursor.(y := g.cursor.y + 1) by {
        WrapStep(g, data, wide);
      }
      assert rest == data[w..|data|];
      PlainSlice(data, wide, w, |data|);
      FeedRowsOfRun(p, rest, wide);
      WrapRowAndRest(g, data, wide);
    }
  }

  lemma RowsOfWidthAt(g: LinedBuffer, y: int, w: nat, data: string, style: nat, i: nat)
    requires w > 0 && RowsOfWidth(g, y, w, data, style) && i < |data|
    ensures CellAt(RowAt(g, y + i / w), i % w) == Cell(Some(data[i]), style)
  {
  }

  /** `data` = "123456789", its digits single-width, fed from the start of
      a row of a 5-column grid: "12345" on that row and "6789" on the next. */
  lemma WrapAtFive(g: LinedBuffer, data: string, wide: char -> bool)
    requires Valid(g) && g.width == 5 && g.cursor.x == 0 && g.cursor.y + 1 < Big
    requires data == "123456789" && PlainRun(data, wide)
    ensures var g' := Feed(g, data, wide);
      var y := g.cursor.y;
      && CellAt(RowAt(g', y), 4) == Cell(Some('5'), g.cursor.style)
      && CellAt(RowAt(g', y + 1), 0) == Cell(Some('6'), g.cursor.style)
      && CellAt(RowAt(g', y + 1), 3) == Cell(Some('9'), g.cursor.style)
  {
    FeedWrappedRun(g, data, wide);
    FiveColumnCells(Feed(g, data, wide), g.cursor.y, data, g.cursor.style);
  }

  lemma FiveColumnCells(g: LinedBuffer, y: int, data: string, style: nat)
    requires data == "123456789" && RowsOfWidth(g, y, 5, data, style)
    ensures CellAt(RowAt(g, y), 4) == Cell(Some('5'), style)
    ensures CellAt(RowAt(g, y + 1), 0) == Cell(Some('6'), style)
    ensures CellAt(RowAt(g, y + 1), 3) == Cell(Some('9'), style)
  {
    RowsOfWidthAt(g, y, 5, data, style, 4);
    RowsOfWidthAt(g, y, 5, data, style, 5);
    RowsOfWidthAt(g, y, 5, data, style, 8);
  }

  /** `data` = "123456789", its digits single-width, fed from the start of
      a row of a 3-column grid: "123", "456" and "789" on that row and the
      next two. */
  lemma WrapAtThree(g: LinedBuffer, data: string, wide: char -> bool)
    requires Valid(g) && g.width == 3 && g.cursor.x == 0 && g.cursor.y + 2 < Big
    requires data == "123456789" && PlainRun(data, wide)
    ensures var g' := Feed(g, data, wide);
      var y := g.cursor.y;
      && CellAt(RowAt(g', y), 2) == Cell(Some('3'), g.cursor.style)
      && CellAt(RowAt(g', y + 1), 0) == Cell(Some('4'), g.cursor.style)
      && CellAt(RowAt(g', y + 2), 2) == Cell(Some('9'), g.cursor.style)
  {
    FeedWrappedRun(g, data, wide);
    ThreeColumnCells(Feed(g, data, wide), g.cursor.y, data, g.cursor.style);
  }

  lemma ThreeColumnCells(g: LinedBuffer, y: int, data: string, style: nat)
    requires data == "123456789" && RowsOfWidth(g, y, 3, data, style)
    ensures CellAt(RowAt(g, y), 2) == Cell(Some('3'), style)
    ensures CellAt(RowAt(g, y + 1), 0) == Cell(Some('4'), style)
    ensures CellAt(RowAt(g, y + 2), 2) == Cell(Some('9'), style)
  {
    RowsOfWidthAt(g, y, 3, data, style, 2);
    RowsOfWidthAt(g, y, 3, data, style, 3);
    RowsOfWidthAt(g, y, 3, data, style, 8);
  }
}

=== FILE: rawstore.dfy ===
/** The raw-text stores of src/multiplex/buffer.py: `CappedRawBuffer` keeps at
    most `buffer_lines + 1` lines in a bounded deque, `UncappedRawBuffer` keeps
    all text. Both see the same calls from `Buffer.write`: `write` for the first
    piece of a chunk, `newline` after each piece but the last, `writeline` for
    every later piece. */
module RawStore {
  import opened Text

  datatype RawStore = Capped(maxlen: nat, lines: seq<string>) | Uncapped(text: string)

  /** The last `n` elements of `s` (all of them when there are fewer). */
  function Keep<T>(s: seq<T>, n: nat): (r: seq<T>)
    ensures |r| == if |s| <= n then |s| else n
  {
    if |s| <= n then s else s[|s| - n..]
  }

  /** `CappedRawBuffer(buffer_lines)` when `buffer_lines` is set, else `UncappedRawBuffer()`. */
  function NewRawStore(bufferLines: nat): (r: RawStore)
    ensures bufferLines > 0 <==> r.Capped?
    ensures r.Capped? ==> r.maxlen == bufferLines + 1 && r.lines == []
    ensures r.Uncapped? ==> r.text == ""
  {
    if bufferLines > 0 then Capped(bufferLines + 1, []) else Uncapped("")
  }

  /** `write`: continue the current line (a capped store pops its last line
      and appends it back extended). */
  function Write(r: RawStore, data: string): RawStore {
    match r
    case Capped(n, ls) =>
      if |ls| > 0 then Capped(n, ls[..|ls| - 1] + [ls[|ls| - 1] + data]) else Capped(n, Keep([data], n))
    case Uncapped(t) => Uncapped(t + data)
  }

  /** `writeline`: a capped store appends a new line, dropping the oldest
      beyond its bound; an uncapped store appends the text. */
  function WriteLine(r: RawStore, line: string): RawStore {
    match r
    case Capped(n, ls) => Capped(n, Keep(ls + [line], n))
    case Uncapped(t) => Uncapped(t + line)
  }

  /** `newline`: nothing for a capped store, whose lines are separate entries. */
  function Newline(r: RawStore): RawStore {
    match r
    case Capped(_, _) => r
    case Uncapped(t) => Uncapped(t + "\n")
  }

  /** `getvalue`. */
  function GetValue(r: RawStore): string {
    match r
    case Capped(_, ls) => Join(ls, "\n")
    case Uncapped(t) => t
  }

  /** What `Buffer.write` does to the raw store for the pieces of one chunk
      from piece `i` on. */
  function WritePieces(r: RawStore, pieces: seq<string>, i: nat): RawStore
    decreases |pieces| - i
  {
    if i >= |pieces| then r
    else
      var r1 := if i > 0 then WriteLine(r, pieces[i]) else Write(r, pieces[i]);
      var r2 := if i < |pieces| - 1 then Newline(r1) else r1;
      WritePieces(r2, pieces, i + 1)
  }

  /** What `Buffer.write(data)` does to the raw store. */
  function WriteChunk(r: RawStore, data: string): RawStore {
    WritePieces(r, Split(data, '\n'), 0)
  }

  // ---------------------------------------------------------------------------
  // The uncapped store holds exactly what was written

  lemma {:induction false} UncappedPieces(t: string, pieces: seq<string>, i: nat)
    requires i <= |pieces|
    ensures WritePieces(Uncapped(t), pieces, i) == Uncapped(t + Join(pieces[i..], "\n"))
    decreases |pieces| - i
  {
    if i < |pieces| {
      var t' := t + pieces[i] + (if i < |pieces| - 1 then "\n" else "");
      UncappedPieces(t', pieces, i + 1);
      assert pieces[i..][1..] == pieces[i + 1..];
      if i == |pieces| - 1 {
        assert pieces[i + 1..] == [];
      }
    }
  }

  /** An uncapped store's value after a chunk is the old value followed by the
      chunk: splitting on newlines and writing the pieces back loses nothing. */
  lemma UncappedKeepsEverything(t: string, data: string)
    ensures WriteChunk(Uncapped(t), data) == Uncapped(t + data)
  {
    UncappedPieces(t, Split(data, '\n'), 0);
    SplitJoin(data, '\n');
    assert Split(data, '\n')[0..] == Split(data, '\n');
  }

  // ---------------------------------------------------------------------------
  // The capped store holds the last lines of what was written

  /** A capped store's lines are the last `n` lines of the text `t` written so
      far (or nothing at all has been written). */
  ghost predicate Tracks(ls: seq<string>, n: nat, t: string) {
    ls == Keep(Split(t, '\n'), n) || (ls == [] && t == "")
  }

  lemma KeepExtendLast(s: seq<string>, n: nat, d: string)
    requires n >= 1 && |s| >= 1
    ensures var k := Keep(s, n);
      k[..|k| - 1] + [k[|k| - 1] + d] == Keep(s[..|s| - 1] + [s[|s| - 1] + d], n)
  {
  }

  lemma KeepAppend(s: seq<string>, x: string, n: nat)
    requires n >= 1
    ensures Keep(Keep(s, n) + [x], n) == Keep(s + [x], n)
  {
  }

  lemma {:induction false} CappedPieces(n: nat, t: string, pieces: seq<string>, i: nat)
    requires n >= 1 && 0 < i < |pieces|
    requires forall j :: 0 <= j < |pieces| ==> Free(pieces[j], '\n')
    ensures WritePieces(Capped(n, Keep(Split(t, '\n'), n)), pieces, i)
         == Capped(n, Keep(Split(t + "\n" + Join(pieces[i..], "\n"), '\n'), n))
    decreases |pieces| - i
  {
    var t' := t + "\n" + pieces[i];
    SplitAppendPiece(t, pieces[i], '\n');
    KeepAppend(Split(t, '\n'), pieces[i], n);
    assert WriteLine(Capped(n, Keep(Split(t, '\n'), n)), pieces[i]) == Capped(n, Keep(Split(t', '\n'), n));
    if i + 1 < |pieces| {
      CappedPieces(n, t', pieces, i + 1);
      assert pieces[i..][1..] == pieces[i + 1..];
      assert Join(pieces[i..], "\n") == pieces[i] + "\n" + Join(pieces[i + 1..], "\n");
      assert t' + "\n" + Join(pieces[i + 1..], "\n") == t + "\n" + Join(pieces[i..], "\n");
    } else {
      assert pieces[i..] == [pieces[i]];
    }
  }

  lemma CappedFirstPieceEmpty(n: nat, p: string)
    requires n >= 1 && Free(p, '\n')
    ensures Write(Capped(n, []), p) == Capped(n, Keep(Split(p, '\n'), n))
  {
    SplitAppendFree("", p, '\n');
    assert "" + p == p;
    assert Split("", '\n') == [""];
  }

  lemma WriteKeep(n: nat, s: seq<string>, p: string)
    requires n >= 1 && |s| >= 1
    ensures Write(Capped(n, Keep(s, n)), p) == Capped(n, Keep(s[..|s| - 1] + [s[|s| - 1] + p], n))
  {
    KeepExtendLast(s, n, p);
  }

  lemma CappedFirstPieceMore(n: nat, t: string, p: string)
    requires n >= 1 && Free(p, '\n')
    ensures Write(Capped(n, Keep(Split(t, '\n'), n)), p) == Capped(n, Keep(Split(t + p, '\n'), n))
  {
    var s := Split(t, '\n');
    var s' := s[..|s| - 1] + [s[|s| - 1] + p];
    WriteKeep(n, s, p);
    SplitAppendFree(t, p, '\n');
    assert Split(t + p, '\n') == s';
  }

  lemma CappedFirstPiece(n: nat, ls: seq<string>, t: string, p: string)
    requires n >= 1 && Tracks(ls, n, t) && Free(p, '\n')
    ensures Write(Capped(n, ls), p) == Capped(n, Keep(Split(t + p, '\n'), n))
  {
    if ls == [] && t == "" {
      CappedFirstPieceEmpty(n, p);
      assert t + p == p;
    } else {
      CappedFirstPieceMore(n, t, p);
    }
  }

  /** A capped store holding the last `n` lines of the text so far holds the
      last `n` lines of the text extended by the chunk: it is the uncapped
      store's text, split into lines, bounded to its newest `n`. */
  lemma CappedKeepsLastLines(n: nat, ls: seq<string>, t: string, data: string)
    requires n >= 1
    requires Tracks(ls, n, t)
    ensures WriteChunk(Capped(n, ls), data) == Capped(n, Keep(Split(t + data, '\n'), n))
  {
    var pieces := Split(data, '\n');
    CappedChunkStart(n, ls, data);
    CappedFirstPiece(n, ls, t, pieces[0]);
    var t0 := t + pieces[0];
    if |pieces| > 1 {
      CappedPieces(n, t0, pieces, 1);
      CappedRestText(t, data);
    } else {
      DataAtFirstNewline(data);
    }
  }

  lemma CappedRestText(t: string, data: string)
    requires |Split(data, '\n')| > 1
    ensures var pieces := Split(data, '\n');
      t + data == (t + pieces[0]) + "\n" + Join(pieces[1..], "\n")
  {
    DataAtFirstNewline(data);
  }

  lemma CappedChunkStart(n: nat, ls: seq<string>, data: string)
    ensures WriteChunk(Capped(n, ls), data) == WritePieces(Write(Capped(n, ls), Split(data, '\n')[0]), Split(data, '\n'), 1)
  {
  }

  lemma DataAtFirstNewline(data: string)
    ensures var pieces := Split(data, '\n');
      if |pieces| == 1 then data == pieces[0] else data == pieces[0] + "\n" + Join(pieces[1..], "\n")
  {
    SplitJoin(data, '\n');
  }

  /** A store faithfully holds the text `t` written so far: all of it when
      uncapped, its last `maxlen` lines when capped. */
  ghost predicate Holds(r: RawStore, t: string) {
    match r
    case Uncapped(x) => x == t
    case Capped(n, ls) => n >= 1 && Tracks(ls, n, t)
  }

  lemma NewStoreHoldsNothing(bufferLines: nat)
    ensures Holds(NewRawStore(bufferLines), "")
  {
  }

  /** Writing a chunk keeps a store faithful to the text extended by the chunk. */
  lemma ChunkKeepsHolds(r: RawStore, t: string, data: string)
    requires Holds(r, t)
    ensures Holds(WriteChunk(r, data), t + data)
  {
    match r
    case Uncapped(x) => UncappedKeepsEverything(x, data);
    case Capped(n, ls) => CappedKeepsLastLines(n, ls, t, data);
  }

  /** Splitting a capped store's value on newlines gives back its lines: the
      width setter replays exactly the stored lines. */
  lemma CappedReplay(n: nat, ls: seq<string>, t: string)
    requires Tracks(ls, n, t) && |ls| >= 1
    ensures Split(GetValue(Capped(n, ls)), '\n') == ls
  {
    var s := Split(t, '\n');
    assert ls == Keep(s, n);
    forall i | 0 <= i < |ls| ensures Free(ls[i], '\n') {
      assert ls[i] == s[|s| - |ls| + i];
    }
    JoinSplit(ls, '\n');
  }
}

=== FILE: ret.dfy ===
/** What a key handler returns to the viewer: nothing, a bool ("redraw the
    view"), a box index ("redraw this box"), or `ansi.FULL_REFRESH`. */
module Handler {
  datatype Ret = NoneRet | Bool(b: bool) | Index(i: int) | FullRefresh
}

=== FILE: style.dfy ===
/** The SGR (Select Graphic Rendition) override of the virtual screen and the
    attribute-interning table behind it (src/multiplex/buffer.py).

    multiplex keeps three process-global dicts (`index_to_char_meta`,
    `char_meta_to_index`, `index_to_ansi`) and a global `counter`; here they are
    one immutable `StyleTable` value threaded through every call. A screen
    cursor carries only a style id; the attribute record behind it lives in the
    table. */
module Style {
  import opened Wrappers
  import opened Text

  const Esc: char := 27 as char
  const Csi: string := [Esc, '[']
  const Terminate: string := "m"
  /** The code written whenever the style id changes (and stored for id 0). */
  const Reset: string := Csi + "0" + Terminate

  /** A colour channel: `None` in the Python code, or the tuple of SGR numbers that set it. */
  datatype Color = Unset | Codes(codes: seq<nat>)

  /** The interned attribute record: the `fg`, `bg` and `bold` fields of pyte's
      `Char` (the other fields never change from `empty_meta`). `bold` holds the
      sorted emphasis codes 1..9, not only bold. */
  datatype CharMeta = CharMeta(fg: Color, bg: Color, bold: seq<nat>)

  const EmptyMeta := CharMeta(Unset, Unset, [])
  const Bold: nat := 1
  const Fg256: nat := 38
  const Bg256: nat := 48

  /** Code sets of pyte's `graphics` module: `FG_ANSI`, `BG`, `FG_AIXTERM`, `BG_AIXTERM`. */
  predicate IsFgAnsi(a: nat) { 30 <= a <= 37 || a == 39 }
  predicate IsBg(a: nat) { 40 <= a <= 47 || a == 49 }
  predicate IsFgAixterm(a: nat) { 90 <= a <= 97 }
  predicate IsBgAixterm(a: nat) { 100 <= a <= 107 }

  /** `RESET_TEXT_ATTRS`: the emphasis codes a `0` removes. */
  predicate IsEmphasis(a: nat) { 1 <= a <= 9 }

  function ColorCodes(c: Color): seq<nat> {
    match c
    case Unset => []
    case Codes(cs) => cs
  }

  /** The numbers of a record in emission order: fg codes, then bg codes, then emphasis. */
  function MetaCodes(m: CharMeta): seq<nat> {
    ColorCodes(m.fg) + ColorCodes(m.bg) + m.bold
  }

  function NumStrings(ns: seq<nat>): (r: seq<string>)
    ensures |r| == |ns|
    ensures forall i :: 0 <= i < |ns| ==> r[i] == NatToString(ns[i])
  {
    if |ns| == 0 then [] else [NatToString(ns[0])] + NumStrings(ns[1..])
  }

  /** The escape code cached for a freshly interned record. */
  function CodeString(m: CharMeta): string {
    Csi + Join(NumStrings(MetaCodes(m)), ";") + Terminate
  }

  // ---------------------------------------------------------------------------
  // The interning table

  datatype StyleTable = StyleTable(
    counter: nat,
    index: map<CharMeta, nat>,
    meta: map<nat, CharMeta>,
    ansi: map<nat, string>)

  /** The table as the module is imported: only id 0, the empty record. */
  const InitialTable := StyleTable(0, map[EmptyMeta := 0], map[0 := EmptyMeta], map[0 := Reset])

  /** Emphasis lists that the interpreter produces: strictly increasing codes 1..9. */
  predicate EmphasisOk(b: seq<nat>) {
    && (forall i :: 0 <= i < |b| ==> IsEmphasis(b[i]))
    && (forall i, j :: 0 <= i < j < |b| ==> b[i] < b[j])
  }

  /** The table invariant: ids 0..counter are allocated, the two directions are
      mutually inverse, id 0 is the empty record and every other id caches the
      code string of its record. */
  ghost predicate Valid(t: StyleTable) {
    && Allocated(t)
    && 0 in t.meta && t.meta[0] == EmptyMeta && 0 in t.ansi && t.ansi[0] == Reset
    && IndexInverse(t)
    && MetaInverse(t)
    && Cached(t)
    && AllEmphasisOk(t)
  }

  /** Every id has a code string, and every id but 0 caches its record's. */
  ghost predicate Cached(t: StyleTable) {
    && (forall i :: i in t.ansi <==> i in t.meta)
    && (forall i :: i in t.meta && i != 0 ==> t.ansi[i] == CodeString(t.meta[i]))
  }

  predicate AllEmphasisOk(t: StyleTable) {
    forall i :: i in t.meta ==> EmphasisOk(t.meta[i].bold)
  }

  ghost predicate Allocated(t: StyleTable) {
    forall i: nat :: i in t.meta <==> i <= t.counter
  }

  predicate IndexInverse(t: StyleTable) {
    forall m :: m in t.index ==> t.index[m] in t.meta && t.meta[t.index[m]] == m
  }

  predicate MetaInverse(t: StyleTable) {
    forall i :: i in t.meta ==> t.meta[i] in t.index && t.index[t.meta[i]] == i
  }

  lemma InitialTableValid()
    ensures Valid(InitialTable)
  {
    forall i: nat
      ensures i in InitialTable.meta <==> i <= InitialTable.counter
    {
    }
  }

  datatype Interned = Interned(table: StyleTable, id: nat)

  /** Lines 115-132 of buffer.py: look the record up, or allocate `counter + 1`. */
  function Intern(t: StyleTable, m: CharMeta): (r: Interned)
    ensures m in t.index ==> r.table == t && r.id == t.index[m]
    ensures m !in t.index ==>
      && r.id == t.counter + 1 && r.table.counter == r.id
      && r.table.index == t.index[m := r.id]
      && r.table.meta == t.meta[r.id := m]
      && r.table.ansi == t.ansi[r.id := CodeString(m)]
  {
    if m in t.index then Interned(t, t.index[m])
    else
      var id := t.counter + 1;
      Interned(StyleTable(id, t.index[m := id], t.meta[id := m], t.ansi[id := CodeString(m)]), id)
  }

  /** Interning keeps the table valid, returns an id that maps back to the record,
      and never changes an id already handed out. */
  lemma InternValid(t: StyleTable, m: CharMeta)
    requires Valid(t)
    requires EmphasisOk(m.bold)
    ensures Valid(Intern(t, m).table)
    ensures Intern(t, m).id in Intern(t, m).table.meta
    ensures Intern(t, m).table.meta[Intern(t, m).id] == m
    ensures Intern(t, m).table.index[m] == Intern(t, m).id
    ensures forall i :: i in t.meta ==> i in Intern(t, m).table.meta && Intern(t, m).table.meta[i] == t.meta[i]
  {
    if m in t.index {
      KnownIntern(t, m);
    } else {
      FreshIntern(t, m);
    }
  }

  lemma KnownIntern(t: StyleTable, m: CharMeta)
    requires Valid(t) && m in t.index
    ensures Intern(t, m) == Interned(t, t.index[m])
    ensures t.index[m] in t.meta && t.meta[t.index[m]] == m
  {
    assert IndexInverse(t);
  }

  lemma FreshIntern(t: StyleTable, m: CharMeta)
    requires Valid(t) && EmphasisOk(m.bold) && m !in t.index
    ensures var id := t.counter + 1;
            var t' := StyleTable(id, t.index[m := id], t.meta[id := m], t.ansi[id := CodeString(m)]);
      && Intern(t, m) == Interned(t', id)
      && Valid(t')
      && forall i :: i in t.meta ==> i in t'.meta && t'.meta[i] == t.meta[i]
  {
    FreshValid(t, m);
    FreshKeeps(t, m);
    InternNew(t, m);
  }

  lemma InternNew(t: StyleTable, m: CharMeta)
    requires m !in t.index
    ensures var id := t.counter + 1;
      Intern(t, m) == Interned(StyleTable(id, t.index[m := id], t.meta[id := m], t.ansi[id := CodeString(m)]), id)
  {
  }

  /** The next id is new, so the ids already handed out keep their records. */
  lemma FreshKeeps(t: StyleTable, m: CharMeta)
    requires Allocated(t)
    ensures var id := t.counter + 1;
      forall i :: i in t.meta ==> i in t.meta[id := m] && t.meta[id := m][i] == t.meta[i]
  {
    assert t.counter + 1 !in t.meta;
  }

  /** Allocating the next id for a record not yet in a valid table keeps it valid. */
  lemma FreshValid(t: StyleTable, m: CharMeta)
    requires Valid(t) && EmphasisOk(m.bold) && m !in t.index
    ensures var id := t.counter + 1;
      Valid(StyleTable(id, t.index[m := id], t.meta[id := m], t.ansi[id := CodeString(m)]))
  {
    var id := t.counter + 1;
    var t' := StyleTable(id, t.index[m := id], t.meta[id := m], t.ansi[id := CodeString(m)]);
    FreshAllocated(t, m);
    FreshIndexInverse(t, m);
    FreshMetaInverse(t, m);
    FreshCached(t, m);
    FreshEmphasisOk(t, m);
    assert id != 0;
  }

  lemma FreshCached(t: StyleTable, m: CharMeta)
    requires Cached(t)
    ensures var id := t.counter + 1;
      Cached(StyleTable(id, t.index[m := id], t.meta[id := m], t.ansi[id := CodeString(m)]))
  {
  }

  lemma FreshEmphasisOk(t: StyleTable, m: CharMeta)
    requires AllEmphasisOk(t) && EmphasisOk(m.bold)
    ensures var id := t.counter + 1;
      AllEmphasisOk(StyleTable(id, t.index[m := id], t.meta[id := m], t.ansi[id := CodeString(m)]))
  {
  }

  lemma FreshAllocated(t: StyleTable, m: CharMeta)
    requires Allocated(t)
    ensures var id := t.counter + 1;
      Allocated(StyleTable(id, t.index[m := id], t.meta[id := m], t.ansi[id := CodeString(m)]))
  {
  }

  lemma FreshIndexInverse(t: StyleTable, m: CharMeta)
    requires Allocated(t) && IndexInverse(t) && m !in t.index
    ensures var id := t.counter + 1;
      IndexInverse(StyleTable(id, t.index[m := id], t.meta[id := m], t.ansi[id := CodeString(m)]))
  {
    var id := t.counter + 1;
    var t' := StyleTable(id, t.index[m := id], t.meta[id := m], t.ansi[id := CodeString(m)]);
    assert id !in t.meta;
    forall n | n in t'.index
      ensures t'.index[n] in t'.meta && t'.meta[t'.index[n]] == n
    {
      if n != m {
        assert t.index[n] in t.meta && t.index[n] != id;
      }
    }
  }

  lemma FreshMetaInverse(t: StyleTable, m: CharMeta)
    requires Allocated(t) && MetaInverse(t) && m !in t.index
    ensures var id := t.counter + 1;
      MetaInverse(StyleTable(id, t.index[m := id], t.meta[id := m], t.ansi[id := CodeString(m)]))
  {
    var id := t.counter + 1;
    var t' := StyleTable(id, t.index[m := id], t.meta[id := m], t.ansi[id := CodeString(m)]);
    assert id !in t.meta;
    forall i | i in t'.meta
      ensures t'.meta[i] in t'.index && t'.index[t'.meta[i]] == i
    {
      if i != id {
        assert t.meta[i] in t.index && t.index[t.meta[i]] == i;
        assert t.meta[i] != m;
      }
    }
  }

  /** Referential dedup: interning a record a second time returns the same id and
      leaves the table as the first call left it. */
  lemma InternIdempotent(t: StyleTable, m: CharMeta)
    ensures Intern(Intern(t, m).table, m) == Intern(t, m)
  {
  }

  /** Two records share an id in a valid table only if they are equal. */
  lemma InternDistinct(t: StyleTable, m1: CharMeta, m2: CharMeta)
    requires Valid(t) && EmphasisOk(m1.bold) && EmphasisOk(m2.bold)
    requires m1 != m2
    ensures Intern(t, m1).id != Intern(Intern(t, m1).table, m2).id
  {
    InternValid(t, m1);
    var t1 := Intern(t, m1).table;
    InternValid(t1, m2);
  }

  // ---------------------------------------------------------------------------
  // Parameter parsing

  /** What one SGR parameter list asks for: `fg`/`bg` stay `None` when not
      mentioned (`UNDEFINED` in the Python code), plus the added and removed emphasis codes. */
  datatype SgrAcc = SgrAcc(fg: Option<Color>, bg: Option<Color>, added: set<nat>, removed: set<nat>)

  const NoChange := SgrAcc(None, None, {}, {})

  /** `RESET_TEXT_ATTRS`. multiplex assigns this global set itself to
      `removed_text_attrs` and may then `add` 21..29 to it; since emphasis sets
      only ever hold 1..9, that mutation never changes a result. */
  const ResetTextAttrs: set<nat> := {1, 2, 3, 4, 5, 6, 7, 8, 9}

  function SetColor(acc: SgrAcc, which: nat, value: seq<nat>): SgrAcc {
    if which == Fg256 then acc.(fg := Some(Codes(value))) else acc.(bg := Some(Codes(value)))
  }

  datatype Step = Step(acc: SgrAcc, used: nat)

  /** One turn of the `while attrs: attr = attrs.pop()` loop (lines 68-101):
      the accumulator after reading `ps[0]` and how many parameters that read
      consumed. `38`/`48` consume their sub-parameters; running out of them is
      the `IndexError` of popping an empty list. */
  function ParseOne(ps: seq<nat>, acc: SgrAcc): (r: Result<Step>)
    requires |ps| > 0
    ensures r.Ok? ==> 1 <= r.value.used <= |ps|
  {
    var a := ps[0];
    var rest := ps[1..];
    if a == 0 then Ok(Step(acc.(fg := Some(Unset), bg := Some(Unset), removed := ResetTextAttrs), 1))
    else if IsFgAnsi(a) then Ok(Step(acc.(fg := Some(Codes([a]))), 1))
    else if IsBg(a) then Ok(Step(acc.(bg := Some(Codes([a]))), 1))
    else if IsFgAixterm(a) then Ok(Step(acc.(fg := Some(Codes([a])), added := acc.added + {Bold}), 1))
    else if IsBgAixterm(a) then Ok(Step(acc.(bg := Some(Codes([a])), added := acc.added + {Bold}), 1))
    else if a == Fg256 || a == Bg256 then
      if |rest| == 0 then Err(IndexError)
      else if rest[0] == 5 then
        if |rest| < 2 then Err(IndexError)
        else Ok(Step(SetColor(acc, a, [a, 5, rest[1]]), 3))
      else if rest[0] == 2 then
        if |rest| < 4 then Err(IndexError)
        else Ok(Step(SetColor(acc, a, [a, 2, rest[1], rest[2], rest[3]]), 5))
      else Ok(Step(acc, 2))
    else if IsEmphasis(a) then Ok(Step(acc.(added := acc.added + {a}), 1))
    else if 21 <= a <= 29 then Ok(Step(acc.(removed := acc.removed + {a}), 1))
    else Ok(Step(acc, 1))
  }

  /** The whole parameter loop: parameters are consumed front to back. */
  function ParseAttrs(ps: seq<nat>, acc: SgrAcc): (r: Result<SgrAcc>)
    decreases |ps|
  {
    if |ps| == 0 then Ok(acc)
    else
      var step :- ParseOne(ps, acc);
      ParseAttrs(ps[step.used..], step.acc)
  }

  /** The parameters the loop reads as codes, leaving out the sub-parameters
      that a `38`/`48` consumes. */
  function CodesRead(ps: seq<nat>): (r: seq<nat>)
    decreases |ps|
  {
    if |ps| == 0 then []
    else match ParseOne(ps, NoChange)
      case Err(_) => [ps[0]]
      case Ok(step) => [ps[0]] + CodesRead(ps[step.used..])
  }

  /** The codes of `s` below `hi`, in increasing order. */
  function SortedBelow(s: set<nat>, hi: nat): (r: seq<nat>)
    ensures forall i, j :: 0 <= i < j < |r| ==> r[i] < r[j]
    ensures forall i :: 0 <= i < |r| ==> r[i] in s && r[i] < hi
    ensures forall x :: x in s && x < hi ==> x in r
    ensures s == {} ==> r == []
  {
    if hi == 0 then [] else SortedBelow(s, hi - 1) + (if hi - 1 in s then [hi - 1] else [])
  }

  /** A number above every element of `xs` (and at least 10). */
  function Bound(xs: seq<nat>): (r: nat)
    ensures r >= 10
    ensures forall i :: 0 <= i < |xs| ==> xs[i] < r
  {
    if |xs| == 0 then 10 else
      var b := Bound(xs[1..]);
      if xs[0] + 1 > b then xs[0] + 1 else b
  }

  /** `(current_text_attrs | added_text_attrs) - removed_text_attrs`. */
  ghost function NewEmphasis(cur: CharMeta, acc: SgrAcc): set<nat> {
    (set i | 0 <= i < |cur.bold| :: cur.bold[i]) + acc.added - acc.removed
  }

  /** Lines 103-113: the current record with the mentioned channels replaced and
      the emphasis tuple recomputed as `tuple(sorted(...))`. */
  function ApplyAcc(cur: CharMeta, acc: SgrAcc): (m: CharMeta)
    requires forall x :: x in acc.added ==> IsEmphasis(x)
    ensures m.fg == (if acc.fg.Some? then acc.fg.value else cur.fg)
    ensures m.bg == (if acc.bg.Some? then acc.bg.value else cur.bg)
    ensures forall x :: x in m.bold <==> x in NewEmphasis(cur, acc)
    ensures forall i, j :: 0 <= i < j < |m.bold| ==> m.bold[i] < m.bold[j]
    ensures NewEmphasis(cur, acc) == {} ==> m.bold == []
    ensures EmphasisOk(cur.bold) ==> EmphasisOk(m.bold)
  {
    var s := (set i | 0 <= i < |cur.bold| :: cur.bold[i]) + acc.added - acc.removed;
    var hi := Bound(cur.bold);
    forall x | x in s
      ensures x < hi
      ensures EmphasisOk(cur.bold) ==> IsEmphasis(x)
    {
      if x in acc.added {
        assert IsEmphasis(x);
      } else {
        var i :| 0 <= i < |cur.bold| && cur.bold[i] == x;
        assert cur.bold[i] < Bound(cur.bold);
      }
    }
    var bold := SortedBelow(s, hi);
    CharMeta(
      if acc.fg.Some? then acc.fg.value else cur.fg,
      if acc.bg.Some? then acc.bg.value else cur.bg,
      bold)
  }

  /** The record a non-trivial parameter list turns `cur` into. */
  function NewMeta(cur: CharMeta, attrs: seq<nat>): (r: Result<CharMeta>)
    ensures r.Ok? <==> ParseAttrs(attrs, NoChange).Ok?
  {
    var acc :- ParseAttrs(attrs, NoChange);
    AddedAreEmphasis(attrs, NoChange);
    Ok(ApplyAcc(cur, acc))
  }

  /** `Screen.select_graphic_rendition`: the new style id of the cursor, with
      the table it was interned into. No parameters, or the single parameter
      `0`, select id 0 without touching the table; otherwise the parameters are
      parsed (which may fail) before the cursor's record is looked up (which
      fails with `KeyError` for an unknown id). */
  function SelectGraphicRendition(t: StyleTable, cursorId: nat, attrs: seq<nat>): (r: Result<Interned>)
    ensures (|attrs| == 0 || attrs == [0]) ==> r == Ok(Interned(t, 0))
    ensures !(|attrs| == 0 || attrs == [0]) ==>
      (r.Ok? <==> ParseAttrs(attrs, NoChange).Ok? && cursorId in t.meta)
  {
    if |attrs| == 0 || attrs == [0] then Ok(Interned(t, 0))
    else if ParseAttrs(attrs, NoChange).Err? then Err(ParseAttrs(attrs, NoChange).error)
    else if cursorId !in t.meta then Err(KeyError)
    else Ok(Intern(t, NewMeta(t.meta[cursorId], attrs).value))
  }

  /** A successful SGR keeps the table valid, gives the cursor an id whose record
      is the current record updated by the parameters, and never changes an id
      already handed out. */
  lemma SgrKeepsTableValid(t: StyleTable, cursorId: nat, attrs: seq<nat>)
    requires Valid(t)
    requires SelectGraphicRendition(t, cursorId, attrs).Ok?
    ensures var r := SelectGraphicRendition(t, cursorId, attrs).value;
      && Valid(r.table)
      && r.id in r.table.meta
      && (!(|attrs| == 0 || attrs == [0]) ==>
            cursorId in t.meta && r.table.meta[r.id] == NewMeta(t.meta[cursorId], attrs).value)
      && (forall i :: i in t.meta ==> i in r.table.meta && r.table.meta[i] == t.meta[i])
  {
    var r := SelectGraphicRendition(t, cursorId, attrs).value;
    if !(|attrs| == 0 || attrs == [0]) {
      var m := NewMeta(t.meta[cursorId], attrs).value;
      assert r == Intern(t, m);
      assert EmphasisOk(t.meta[cursorId].bold);
      InternValid(t, m);
    }
  }

  // ---------------------------------------------------------------------------
  // Properties of parameter parsing

  /** `38;5;n` / `48;5;n` consume two more parameters and store the whole triple. */
  lemma Extended256Consumes(a: nat, n: nat, rest: seq<nat>, acc: SgrAcc)
    requires a == Fg256 || a == Bg256
    ensures ParseAttrs([a, 5, n] + rest, acc) == ParseAttrs(rest, SetColor(acc, a, [a, 5, n]))
  {
    assert ([a, 5, n] + rest)[3..] == rest;
  }

  /** `38;2;r;g;b` / `48;2;r;g;b` consume four more parameters and store the 5-tuple. */
  lemma ExtendedRgbConsumes(a: nat, r: nat, g: nat, b: nat, rest: seq<nat>, acc: SgrAcc)
    requires a == Fg256 || a == Bg256
    ensures ParseAttrs([a, 2, r, g, b] + rest, acc) == ParseAttrs(rest, SetColor(acc, a, [a, 2, r, g, b]))
  {
    assert ([a, 2, r, g, b] + rest)[5..] == rest;
  }

  /** A truncated extended colour pops from an empty list. */
  lemma TruncatedExtendedColorFails(a: nat, acc: SgrAcc)
    requires a == Fg256 || a == Bg256
    ensures ParseAttrs([a], acc) == Err(IndexError)
    ensures ParseAttrs([a, 5], acc) == Err(IndexError)
    ensures forall r: nat, g: nat :: ParseAttrs([a, 2, r, g], acc) == Err(IndexError)
  {
  }

  /** A bright AIXTERM colour sets its channel and also adds bold (1). */
  lemma AixtermAddsBold(a: nat, rest: seq<nat>, acc: SgrAcc)
    requires IsFgAixterm(a) || IsBgAixterm(a)
    ensures IsFgAixterm(a) ==>
      ParseAttrs([a] + rest, acc) == ParseAttrs(rest, acc.(fg := Some(Codes([a])), added := acc.added + {Bold}))
    ensures IsBgAixterm(a) ==>
      ParseAttrs([a] + rest, acc) == ParseAttrs(rest, acc.(bg := Some(Codes([a])), added := acc.added + {Bold}))
  {
    assert ([a] + rest)[1..] == rest;
  }

  /** How many parameters a read consumes depends only on the parameters. */
  lemma ParseOneUsedIndependent(ps: seq<nat>, acc: SgrAcc)
    requires |ps| > 0
    ensures ParseOne(ps, acc).Ok? == ParseOne(ps, NoChange).Ok?
    ensures ParseOne(ps, acc).Ok? ==> ParseOne(ps, acc).value.used == ParseOne(ps, NoChange).value.used
  {
  }

  /** Only the codes a read names are added: parsing never adds anything but 1..9. */
  lemma {:induction false} AddedAreEmphasis(ps: seq<nat>, acc: SgrAcc)
    requires ParseAttrs(ps, acc).Ok?
    requires forall x :: x in acc.added ==> IsEmphasis(x)
    ensures forall x :: x in ParseAttrs(ps, acc).value.added ==> IsEmphasis(x)
    decreases |ps|
  {
    if |ps| > 0 {
      var step := ParseOne(ps, acc).value;
      AddedAreEmphasis(ps[step.used..], step.acc);
    }
  }

  /** A `0` read as a code removes every emphasis code 1..9, including ones
      added after it in the same list. */
  lemma {:induction false} ZeroRemovesAll(ps: seq<nat>, acc: SgrAcc)
    requires ParseAttrs(ps, acc).Ok?
    requires ResetTextAttrs <= acc.removed || 0 in CodesRead(ps)
    ensures ResetTextAttrs <= ParseAttrs(ps, acc).value.removed
    decreases |ps|
  {
    if |ps| > 0 {
      var step := ParseOne(ps, acc).value;
      ParseOneUsedIndependent(ps, acc);
      assert CodesRead(ps) == [ps[0]] + CodesRead(ps[step.used..]);
      ZeroRemovesAll(ps[step.used..], step.acc);
    }
  }

  /** Without a `0` read as a code, only the raw values 21..29 are ever removed,
      so they never clear an emphasis code 1..9. */
  lemma {:induction false} NoZeroRemovesOnlyHigh(ps: seq<nat>, acc: SgrAcc)
    requires ParseAttrs(ps, acc).Ok?
    requires 0 !in CodesRead(ps)
    ensures forall x :: x in ParseAttrs(ps, acc).value.removed ==> x in acc.removed || 21 <= x <= 29
    decreases |ps|
  {
    if |ps| > 0 {
      var step := ParseOne(ps, acc).value;
      ParseOneUsedIndependent(ps, acc);
      assert CodesRead(ps) == [ps[0]] + CodesRead(ps[step.used..]);
      NoZeroRemovesOnlyHigh(ps[step.used..], step.acc);
    }
  }

  /** A `0` read as a code leaves no emphasis at all in the new record. */
  lemma ZeroClearsEmphasis(cur: CharMeta, attrs: seq<nat>)
    requires EmphasisOk(cur.bold)
    requires NewMeta(cur, attrs).Ok?
    requires 0 in CodesRead(attrs)
    ensures NewMeta(cur, attrs).value.bold == []
  {
    var acc := ParseAttrs(attrs, NoChange).value;
    ZeroRemovesAll(attrs, NoChange);
    AddedAreEmphasis(attrs, NoChange);
    var m := NewMeta(cur, attrs).value;
    forall x | x in (set i | 0 <= i < |cur.bold| :: cur.bold[i]) + acc.added
      ensures x in acc.removed
    {
      if x !in acc.added {
        var i :| 0 <= i < |cur.bold| && cur.bold[i] == x;
        assert IsEmphasis(cur.bold[i]);
      }
      assert x in ResetTextAttrs;
    }
    assert NewEmphasis(cur, acc) == {};
  }

  /** Without a `0` read as a code, every emphasis code of the current record survives. */
  lemma HighCodesKeepEmphasis(cur: CharMeta, attrs: seq<nat>)
    requires EmphasisOk(cur.bold)
    requires NewMeta(cur, attrs).Ok?
    requires 0 !in CodesRead(attrs)
    ensures forall x :: x in cur.bold ==> x in NewMeta(cur, attrs).value.bold
  {
    var acc := ParseAttrs(attrs, NoChange).value;
    NoZeroRemovesOnlyHigh(attrs, NoChange);
    var m := NewMeta(cur, attrs).value;
    forall x | x in cur.bold
      ensures x in m.bold
    {
      var i :| 0 <= i < |cur.bold| && cur.bold[i] == x;
      assert x in NewEmphasis(cur, acc);
    }
  }
}

=== FILE: text.dfy ===
/** Small string helpers: decimal rendering of numbers and joining with a separator,
    as Python's `str(int)` and `sep.join(...)` do. */
module Text {

  predicate IsDigit(c: char) {
    '0' <= c <= '9'
  }

  function DigitChar(d: nat): (c: char)
    requires d < 10
    ensures IsDigit(c)
  {
    ['0', '1', '2', '3', '4', '5', '6', '7', '8', '9'][d]
  }

  function DigitValue(c: char): (d: nat)
    requires IsDigit(c)
    ensures d < 10
  {
    (c as int - '0' as int) as nat
  }

  /** Python's `str(n)` for a non-negative int. */
  function NatToString(n: nat): (s: string)
    ensures |s| > 0
    ensures forall i :: 0 <= i < |s| ==> IsDigit(s[i])
    ensures n > 0 ==> s[0] != '0'
    decreases n
  {
    if n < 10 then [DigitChar(n)] else NatToString(n / 10) + [DigitChar(n % 10)]
  }

  /** Python's `int(s)` for a string of decimal digits. */
  function ParseNat(s: string): nat
    requires forall i :: 0 <= i < |s| ==> IsDigit(s[i])
  {
    if |s| == 0 then 0 else 10 * ParseNat(s[..|s| - 1]) + DigitValue(s[|s| - 1])
  }

  /** Rendering a number and reading it back gives the number: `str` loses nothing. */
  lemma {:induction false} NatToStringRoundTrip(n: nat)
    ensures ParseNat(NatToString(n)) == n
    decreases n
  {
    var s := NatToString(n);
    if n < 10 {
      assert s[..0] == [];
    } else {
      NatToStringRoundTrip(n / 10);
      assert s[..|s| - 1] == NatToString(n / 10);
    }
  }

  /** Distinct numbers render to distinct strings. */
  lemma NatToStringInjective(a: nat, b: nat)
    requires NatToString(a) == NatToString(b)
    ensures a == b
  {
    NatToStringRoundTrip(a);
    NatToStringRoundTrip(b);
  }

  /** Python's `sep.join(parts)`. */
  function Join(parts: seq<string>, sep: string): (r: string)
    ensures |parts| == 0 ==> r == ""
    ensures |parts| == 1 ==> r == parts[0]
  {
    if |parts| == 0 then ""
    else if |parts| == 1 then parts[0]
    else parts[0] + sep + Join(parts[1..], sep)
  }

  /** Python's `"".join(parts)`. */
  function Concat(parts: seq<string>): (r: string)
    ensures |parts| == 0 ==> r == ""
  {
    if |parts| == 0 then "" else parts[0] + Concat(parts[1..])
  }

  predicate StartsWith(s: string, prefix: string) {
    |prefix| <= |s| && s[..|prefix|] == prefix
  }

  /** No character of `s` is `c`. */
  predicate Free(s: string, c: char) {
    forall i :: 0 <= i < |s| ==> s[i] != c
  }

  /** How many times `c` occurs in `s`. */
  function Count(s: string, c: char): nat {
    if |s| == 0 then 0 else (if s[0] == c then 1 else 0) + Count(s[1..], c)
  }

  /** Python's `s.split(sep)` for a one-character separator: the pieces
      between separators, always at least one. */
  function Split(s: string, sep: char): (parts: seq<string>)
    ensures |parts| == Count(s, sep) + 1
    ensures forall i :: 0 <= i < |parts| ==> Free(parts[i], sep)
    decreases |s|
  {
    if |s| == 0 then [""]
    else
      var rest := Split(s[1..], sep);
      if s[0] == sep then [""] + rest
      else [[s[0]] + rest[0]] + rest[1..]
  }

  /** Joining the pieces with the separator gives back the string. */
  lemma {:induction false} SplitJoin(s: string, sep: char)
    ensures Join(Split(s, sep), [sep]) == s
    decreases |s|
  {
    if |s| > 0 {
      var rest := Split(s[1..], sep);
      SplitJoin(s[1..], sep);
      var parts := Split(s, sep);
      if s[0] == sep {
        assert parts[1..] == rest;
        assert s == [sep] + s[1..];
      } else if |rest| == 1 {
        assert s == [s[0]] + s[1..];
      } else {
        assert parts[1..] == rest[1..];
        assert Join(rest, [sep]) == rest[0] + [sep] + Join(rest[1..], [sep]);
        assert s == [s[0]] + s[1..];
      }
    }
  }

  /** Splitting a separator-free prefix followed by more text: the prefix
      joins the first piece of the rest. */
  lemma {:induction false} SplitFreePrefix(a: string, t: string, sep: char)
    requires Free(a, sep)
    ensures Split(a + t, sep) == [a + Split(t, sep)[0]] + Split(t, sep)[1..]
    decreases |a|
  {
    if |a| > 0 {
      assert (a + t)[1..] == a[1..] + t;
      assert Free(a[1..], sep) by {
        forall i | 0 <= i < |a[1..]| ensures a[1..][i] != sep {
          assert a[1..][i] == a[i + 1];
        }
      }
      SplitFreePrefix(a[1..], t, sep);
      var r := Split(a[1..] + t, sep);
      var st := Split(t, sep);
      assert r[0] == a[1..] + st[0];
      assert r[1..] == st[1..];
      assert (a + t)[0] == a[0] && a[0] != sep;
      assert Split(a + t, sep) == [[a[0]] + r[0]] + r[1..];
      assert [a[0]] + (a[1..] + st[0]) == a + st[0];
    } else {
      var st := Split(t, sep);
      assert a + t == t;
      assert a + st[0] == st[0];
      assert st == [st[0]] + st[1..];
    }
  }

  /** Splitting pieces that hold no separator, once joined, gives back the pieces. */
  lemma {:induction false} JoinSplit(parts: seq<string>, sep: char)
    requires |parts| >= 1
    requires forall i :: 0 <= i < |parts| ==> Free(parts[i], sep)
    ensures Split(Join(parts, [sep]), sep) == parts
    decreases |parts|
  {
    if |parts| == 1 {
      SplitFreePrefix(parts[0], "", sep);
      assert parts[0] + "" == parts[0];
    } else {
      var tail := Join(parts[1..], [sep]);
      JoinSplit(parts[1..], sep);
      assert Join(parts, [sep]) == parts[0] + ([sep] + tail);
      SplitFreePrefix(parts[0], [sep] + tail, sep);
      assert ([sep] + tail)[1..] == tail;
      assert Split([sep] + tail, sep) == [""] + parts[1..];
      assert parts[0] + "" == parts[0];
      assert parts == [parts[0]] + parts[1..];
    }
  }

  lemma {:induction false} JoinAppend(parts: seq<string>, x: string, sep: string)
    requires |parts| >= 1
    ensures Join(parts + [x], sep) == Join(parts, sep) + sep + x
    decreases |parts|
  {
    if |parts| > 1 {
      assert (parts + [x])[1..] == parts[1..] + [x];
      JoinAppend(parts[1..], x, sep);
    }
  }

  /** Appending separator-free text to a string extends its last piece. */
  lemma SplitAppendFree(t: string, d: string, sep: char)
    requires Free(d, sep)
    ensures var s := Split(t, sep);
      Split(t + d, sep) == s[..|s| - 1] + [s[|s| - 1] + d]
  {
    var s := Split(t, sep);
    var p := s[..|s| - 1] + [s[|s| - 1] + d];
    SplitJoin(t, sep);
    if |s| == 1 {
      assert p == [s[0] + d];
    } else {
      JoinAppend(s[..|s| - 1], s[|s| - 1], [sep]);
      JoinAppend(s[..|s| - 1], s[|s| - 1] + d, [sep]);
      assert s[..|s| - 1] + [s[|s| - 1]] == s;
    }
    assert Join(p, [sep]) == t + d;
    assert Free(s[|s| - 1] + d, sep) by {
      var last := s[|s| - 1] + d;
      forall i | 0 <= i < |last| ensures last[i] != sep {
        if i < |s[|s| - 1]| {
          assert last[i] == s[|s| - 1][i];
        } else {
          assert last[i] == d[i - |s[|s| - 1]|];
        }
      }
    }
    JoinSplit(p, sep);
  }

  /** Appending a separator and separator-free text adds one piece. */
  lemma SplitAppendPiece(t: string, x: string, sep: char)
    requires Free(x, sep)
    ensures Split(t + [sep] + x, sep) == Split(t, sep) + [x]
  {
    var s := Split(t, sep);
    SplitJoin(t, sep);
    JoinAppend(s, x, [sep]);
    JoinSplit(s + [x], sep);
  }
}

=== FILE: titles.dfy ===
/** How src/multiplex/iterator.py names a box: `_extract_title`, the "N/A"
    default of `_to_iterator` and the `SPLIT` short-circuit of `to_iterator`.
    The adapters that turn an object into an async stream are I/O and only
    their outputs appear here. */
module Titles {
  import opened Wrappers
  import opened Text

  /** The kinds of object `_extract_title` distinguishes. `Object` stands for
      anything else, by the attributes it reads: `title`, `__name__` and
      `__class__.__name__` (`None` when absent). */
  datatype Source =
    | Str(s: string)
    | Path(p: string)
    | Object(title: Option<string>, name: Option<string>, className: Option<string>)

  /** Python truthiness of an optional string. */
  predicate Truthy(o: Option<string>) {
    o.Some? && o.value != ""
  }

  predicate At(s: string, pat: string, i: nat) {
    i + |pat| <= |s| && s[i..i + |pat|] == pat
  }

  /** The first occurrence of `pat` in `s` at or after `from`. */
  function Find(s: string, pat: string, from: nat): (r: Option<nat>)
    decreases |s| - from
    ensures r.Some? ==> from <= r.value && At(s, pat, r.value)
    ensures r.Some? ==> forall j :: from <= j < r.value ==> !At(s, pat, j)
    ensures r.None? ==> forall j :: from <= j ==> !At(s, pat, j)
  {
    if from + |pat| > |s| then None
    else if At(s, pat, from) then Some(from)
    else Find(s, pat, from + 1)
  }

  const Sep := "://"

  /** `s.split("://")[1]`: the text between the first and the second
      separator (or the end); `IndexError` when there is no separator. */
  function SecondPiece(s: string): (r: Result<string>)
    ensures Find(s, Sep, 0).None? <==> r.Err?
    ensures r.Err? ==> r.error == IndexError
    ensures r.Ok? ==> var i := Find(s, Sep, 0).value;
      && s[..i + 3] + r.value <= s
      && (forall j :: i + 3 <= j < i + 3 + |r.value| ==> !At(s, Sep, j))
      && (i + 3 + |r.value| == |s| || At(s, Sep, i + 3 + |r.value|))
  {
    match Find(s, Sep, 0)
    case None => Err(IndexError)
    case Some(i) =>
      match Find(s, Sep, i + 3)
      case None => Ok(s[i + 3..])
      case Some(k) => Ok(s[i + 3..k])
  }

  /** `_extract_title`: an explicit title wins; a `file://` or
      `asciinema://` string is named by its path, other strings and paths by
      themselves, other objects by their first truthy attribute. */
  function ExtractTitle(current: Option<string>, obj: Source): (r: Option<string>)
    ensures current.Some? ==> r == current
    ensures current.None? && obj.Str? && !(StartsWith(obj.s, "file://") || StartsWith(obj.s, "asciinema://")) ==>
              r == Some(obj.s)
    ensures current.None? && obj.Str? && (StartsWith(obj.s, "file://") || StartsWith(obj.s, "asciinema://")) ==>
              SecondPiece(obj.s).Ok? && r == Some(SecondPiece(obj.s).value)
    ensures current.None? && obj.Path? ==> r == Some(obj.p)
    ensures current.None? && obj.Object? ==>
              (r.Some? <==> Truthy(obj.title) || Truthy(obj.name) || Truthy(obj.className))
    ensures current.None? && obj.Object? && Truthy(obj.title) ==> r == obj.title
    ensures current.None? && obj.Object? && !Truthy(obj.title) && Truthy(obj.name) ==> r == obj.name
    ensures current.None? && obj.Object? && !Truthy(obj.title) && !Truthy(obj.name) && Truthy(obj.className) ==>
              r == obj.className
  {
    if current.Some? then current
    else match obj
      case Str(s) =>
        if StartsWith(s, "file://") || StartsWith(s, "asciinema://") then
          assert At(s, Sep, if StartsWith(s, "file://") then 4 else 9);
          Some(SecondPiece(s).value)
        else Some(s)
      case Path(p) => Some(p)
      case Object(t, n, c) =>
        if Truthy(t) then t else if Truthy(n) then n else if Truthy(c) then c else None
  }

  /** Behind a scheme without a colon, the first separator is the one after
      the scheme. */
  lemma FirstSeparator(scheme: string, p: string)
    requires forall i :: 0 <= i < |scheme| ==> scheme[i] != ':'
    ensures Find(scheme + Sep + p, Sep, 0) == Some(|scheme|)
  {
    var s := scheme + Sep + p;
    assert s[|scheme|..|scheme| + 3] == Sep;
    assert At(s, Sep, |scheme|);
    forall j: nat | j < |scheme| ensures !At(s, Sep, j) {
      assert s[j] == scheme[j];
      assert j + 3 <= |s| ==> s[j..j + 3][0] == s[j];
    }
  }

  /** An occurrence in the tail of a concatenation is an occurrence in the tail. */
  lemma AtTail(pre: string, q: string, j: nat)
    requires |pre| <= j && At(pre + q, Sep, j)
    ensures At(q, Sep, j - |pre|)
  {
    assert (pre + q)[j..j + 3] == q[j - |pre|..j - |pre| + 3];
  }

  /** A separator after the first one would be a separator in `p`. */
  lemma NoLaterSeparator(scheme: string, p: string)
    requires Find(p, Sep, 0).None?
    ensures Find(scheme + Sep + p, Sep, |scheme| + 3).None?
  {
    var r := Find(scheme + Sep + p, Sep, |scheme| + 3);
    if r.Some? {
      AtTail(scheme + Sep, p, r.value);
    }
  }

  /** Behind a scheme without a colon, the second piece is the path, when
      the path holds no separator. */
  lemma SchemePiece(scheme: string, p: string)
    requires forall i :: 0 <= i < |scheme| ==> scheme[i] != ':'
    requires Find(p, Sep, 0).None?
    ensures SecondPiece(scheme + Sep + p) == Ok(p)
  {
    var s := scheme + Sep + p;
    FirstSeparator(scheme, p);
    NoLaterSeparator(scheme, p);
    assert s[|scheme| + 3..] == p;
  }

  /** A scheme whose separator starts the string names it by its second piece. */
  lemma PrefixTitle(scheme: string, p: string)
    requires StartsWith(scheme + Sep + p, "file://") || StartsWith(scheme + Sep + p, "asciinema://")
    requires SecondPiece(scheme + Sep + p) == Ok(p)
    ensures ExtractTitle(None, Str(scheme + Sep + p)) == Some(p)
  {
  }

  lemma SchemeNoColon(scheme: string)
    requires scheme == "file" || scheme == "asciinema"
    ensures forall i :: 0 <= i < |scheme| ==> scheme[i] != ':'
  {
  }

  lemma SchemePrefix(scheme: string, p: string)
    requires scheme == "file" || scheme == "asciinema"
    ensures StartsWith(scheme + Sep + p, "file://") || StartsWith(scheme + Sep + p, "asciinema://")
  {
    var s := scheme + Sep + p;
    assert StartsWith(s, scheme + Sep);
    if scheme == "file" {
      assert scheme + Sep == "file://";
    } else {
      assert scheme + Sep == "asciinema://";
    }
  }

  /** A path without a separator in it is named by itself behind either scheme. */
  lemma SchemeTitle(scheme: string, p: string)
    requires scheme == "file" || scheme == "asciinema"
    requires Find(p, Sep, 0).None?
    ensures ExtractTitle(None, Str(scheme + Sep + p)) == Some(p)
  {
    SchemeNoColon(scheme);
    SchemePiece(scheme, p);
    SchemePrefix(scheme, p);
    PrefixTitle(scheme, p);
  }

  /** The record `to_iterator` builds. */
  datatype Iterator = Iterator(isSplit: bool, title: Option<string>, innerType: string, metadata: map<string, string>)

  datatype Target = Split | Stream(source: Source)

  /** `to_iterator`: `SPLIT` keeps the given title (even none) with inner type
      "split" and no metadata; anything else gets an extracted title, "N/A"
      when there is none, and the adapter's inner type and metadata. */
  function ToIterator(obj: Target, title: Option<string>, innerType: string, metadata: map<string, string>): (it: Iterator)
    ensures obj.Split? ==> it == Iterator(true, title, "split", map[])
    ensures obj.Stream? ==> !it.isSplit && it.title.Some? && it.innerType == innerType && it.metadata == metadata
    ensures obj.Stream? && title.Some? ==> it.title == title
    ensures obj.Stream? && ExtractTitle(title, obj.source).Some? ==> it.title == ExtractTitle(title, obj.source)
    ensures obj.Stream? ==> (it.title == Some("N/A") <==> ExtractTitle(title, obj.source) in {None, Some("N/A")})
  {
    match obj
    case Split => Iterator(true, title, "split", map[])
    case Stream(src) =>
      var t := ExtractTitle(title, src);
      Iterator(false, Some(t.GetOr("N/A")), innerType, metadata)
  }
}

=== FILE: viewer.dfy ===
/** The stack layout of src/multiplex/viewer.py: where each box's title, first
    and last rows fall on the screen for the current view line, keeping the
    focused box in view, the furthest the view may scroll, swapping boxes,
    rebalancing default heights, and how a key handler's result becomes a
    redraw request. */
module Viewers {
  import opened Wrappers
  import opened Handler
  import Box
  import Buffers
  import Help

  /** `MIN_BOX_HEIGHT`. */
  const MinBoxHeight := 7

  /** The viewer's state: the boxes in screen order, the focused index, the
      first stack row shown (`current_view_line`), maximize mode, the
      terminal size and the all-boxes toggles. */
  datatype Viewer = Viewer(
    holders: seq<Box.Holder>,
    focused: int,            // current_focused_box
    viewLine: int,           // current_view_line
    maximized: bool,
    lines: int,
    cols: nat,
    wrappedAll: bool,
    collapsedAll: bool,      // collaped_all
    help: Help.HelpState)

  /** Python's `seq[i]` position: negative indices count from the end, and
      anything outside `[-n, n)` raises `IndexError`. */
  function PyIndex(n: nat, i: int): (r: Result<nat>)
    ensures r.Ok? <==> -(n as int) <= i < n
    ensures r.Ok? ==> r.value < n && r.value == (if i < 0 then i + n else i)
    ensures r.Err? ==> r.error == IndexError
  {
    if 0 <= i < n then Ok(i) else if -(n as int) <= i < 0 then Ok(i + n) else Err(IndexError)
  }

  /** `get_max_box_line()`: the last screen row boxes may use; the status
      bar (`get_status_bar_line()`) is the row after it. */
  function MaxBoxLine(v: Viewer): int { v.lines - 2 }
  function StatusBarLine(v: Viewer): int { v.lines - 1 }

  function States(v: Viewer): (r: seq<Box.BoxState>)
    ensures |r| == |v.holders| && forall i :: 0 <= i < |r| ==> r[i] == v.holders[i].state
  {
    seq(|v.holders|, i requires 0 <= i < |v.holders| => v.holders[i].state)
  }

  // ---------------------------------------------------------------------------
  // Rows

  /** The stack rows a box takes: its title row, and its body unless collapsed. */
  function Rows(s: Box.BoxState): int {
    1 + (if s.collapsed then 0 else s.boxHeight)
  }

  /** The stack row of box `k`'s title: the rows of the boxes before it. */
  function Offset(states: seq<Box.BoxState>, k: nat): (y: int)
    requires k <= |states|
    ensures HeightsNonNeg(states) ==> y >= k
  {
    if k == 0 then 0 else Offset(states, k - 1) + Rows(states[k - 1])
  }

  predicate HeightsNonNeg(states: seq<Box.BoxState>) {
    forall i :: 0 <= i < |states| ==> states[i].boxHeight >= 0
  }

  /** The rows of a box the layout is asked about (`enums.BoxLine`). */
  datatype BoxLine = Title | Top | Bottom

  /** Where a row is relative to the box area (`enums.ViewLocation`). */
  datatype Location = Above | Below | InView | NotFocused

  /** A row's report: the screen row when in view, how far outside the
      box area it is when above or below. */
  datatype Placement = Placement(y: int, location: Location)

  /** The screen row a placement reports. */
  function ScreenRow(p: Placement, maxLine: int): int {
    match p.location
    case Above => -p.y
    case Below => maxLine + p.y
    case _ => p.y
  }

  /** Classification of a screen row against rows `[0, maxLine]`. */
  function Classify(screenY: int, maxLine: int): (p: Placement)
    ensures ScreenRow(p, maxLine) == screenY && p.location != NotFocused
    ensures p.location == InView <==> 0 <= screenY <= maxLine
    ensures p.location == Above <==> screenY < 0 && screenY <= maxLine
    ensures p.location == Below <==> screenY > maxLine
    ensures p.location != InView ==> p.y > 0
  {
    if screenY > maxLine then Placement(screenY - maxLine, Below)
    else if screenY < 0 then Placement(-screenY, Above)
    else Placement(screenY, InView)
  }

  /** The stack row of a line of box `index` (title, first body row, last
      body row) before the view line is subtracted; a negative index
      counts no boxes before it, as `range(index)` is empty. */
  function StackRow(states: seq<Box.BoxState>, index: int, k: nat, line: BoxLine): int
    requires k < |states| && index < |states|
  {
    (if index >= 0 then Offset(states, index) else 0)
      + (match line case Title => 0 case Top => 1 case Bottom => states[k].boxHeight)
  }

  /** `_get_box_line(index, box_line)`. */
  function GetBoxLine(v: Viewer, index: int, line: BoxLine): (r: Result<Placement>)
    ensures v.maximized ==> r.Ok?
    ensures v.maximized && (index != v.focused || line == Title) ==> r == Ok(Placement(0, NotFocused))
    ensures v.maximized && index == v.focused && line == Top ==> r == Ok(Placement(0, InView))
    ensures v.maximized && index == v.focused && line == Bottom ==> r == Ok(Placement(MaxBoxLine(v), InView))
    ensures !v.maximized ==> (r.Ok? <==> -|v.holders| <= index < |v.holders|)
    ensures !v.maximized && r.Ok? ==>
              var k := if index < 0 then index + |v.holders| else index;
              var s := v.holders[k].state;
              if s.collapsed && line != Title then r.value == Placement(0, NotFocused)
              else
                && r.value.location != NotFocused
                && ScreenRow(r.value, MaxBoxLine(v)) == StackRow(States(v), index, k, line) - v.viewLine
                && (r.value.location == InView <==> 0 <= StackRow(States(v), index, k, line) - v.viewLine <= MaxBoxLine(v))
  {
    if v.maximized then
      if index != v.focused then Ok(Placement(0, NotFocused))
      else
        match line
        case Title => Ok(Placement(0, NotFocused))
        case Top => Ok(Placement(0, InView))
        case Bottom => Ok(Placement(MaxBoxLine(v), InView))
    else
      var k :- PyIndex(|v.holders|, index);
      var s := v.holders[k].state;
      if s.collapsed && line != Title then Ok(Placement(0, NotFocused))
      else Ok(Classify(StackRow(States(v), index, k, line) - v.viewLine, MaxBoxLine(v)))
  }

  /** A maximized box runs from the top row to the row above the status bar. */
  lemma MaximizedFillsScreen(v: Viewer)
    requires v.maximized
    ensures ScreenRow(GetBoxLine(v, v.focused, Bottom).value, MaxBoxLine(v)) + 1 == StatusBarLine(v)
    ensures ScreenRow(GetBoxLine(v, v.focused, Top).value, MaxBoxLine(v)) == 0
  {
  }

  /** An expanded box's body starts the row after its title and ends
      `box_height - 1` rows after its first row. */
  lemma BodyFollowsTitle(v: Viewer, index: nat)
    requires !v.maximized && index < |v.holders| && !v.holders[index].state.collapsed
    ensures var m := MaxBoxLine(v);
      && ScreenRow(GetBoxLine(v, index, Top).value, m) == ScreenRow(GetBoxLine(v, index, Title).value, m) + 1
      && ScreenRow(GetBoxLine(v, index, Bottom).value, m)
           == ScreenRow(GetBoxLine(v, index, Top).value, m) + v.holders[index].state.boxHeight - 1
  {
  }

  /** The box after an expanded box has its title on the row after the
      box's last row; after a collapsed box, on the row after its title. */
  lemma NextTitleFollows(v: Viewer, index: nat)
    requires !v.maximized && index + 1 < |v.holders|
    ensures var m := MaxBoxLine(v);
      var title := ScreenRow(GetBoxLine(v, index, Title).value, m);
      ScreenRow(GetBoxLine(v, index + 1, Title).value, m)
        == (if v.holders[index].state.collapsed then title + 1
            else ScreenRow(GetBoxLine(v, index, Bottom).value, m) + 1)
  {
  }

  // ---------------------------------------------------------------------------
  // Keeping the focused box in view

  /** `verify_focused_box_in_view()`: scroll just enough that the focused
      box's last row is not below the box area, then that its title is
      neither above nor below it. Only the view line changes. */
  function VerifyFocusedBoxInView(v: Viewer): (r: Result<Viewer>)
    ensures v.maximized ==> r == Ok(v)
    ensures r.Ok? <==> v.maximized || -|v.holders| <= v.focused < |v.holders|
    ensures r.Ok? ==> r.value == v.(viewLine := r.value.viewLine)
  {
    if v.maximized then Ok(v)
    else
      var bottom :- GetBoxLine(v, v.focused, Bottom);
      if bottom.location == Below then Ok(v.(viewLine := v.viewLine + bottom.y))
      else
        var title := GetBoxLine(v, v.focused, Title).value;
        if title.location == Above then Ok(v.(viewLine := v.viewLine - title.y))
        else if title.location == Below then Ok(v.(viewLine := v.viewLine + title.y))
        else Ok(v)
  }

  /** The focused box fits the box area when it is collapsed or its height
      is at most `lines - 2`. */
  predicate FocusFits(v: Viewer)
    requires 0 <= v.focused < |v.holders|
  {
    var s := v.holders[v.focused].state;
    MaxBoxLine(v) >= 0 && (s.collapsed || 0 <= s.boxHeight <= MaxBoxLine(v))
  }

  /** After `verify_focused_box_in_view`, the focused box's title is in view,
      and so is its last row when it is expanded, whenever it fits. */
  lemma FocusedBoxInView(v: Viewer)
    requires !v.maximized && 0 <= v.focused < |v.holders| && FocusFits(v)
    ensures var w := VerifyFocusedBoxInView(v).value;
      && GetBoxLine(w, w.focused, Title).value.location == InView
      && (!v.holders[v.focused].state.collapsed ==> GetBoxLine(w, w.focused, Bottom).value.location == InView)
  {
    var w := VerifyFocusedBoxInView(v).value;
    assert States(w) == States(v);
  }

  /** The view line never goes above the stack's first row. */
  lemma ViewLineStaysNonNeg(v: Viewer)
    requires !v.maximized && 0 <= v.focused < |v.holders| && HeightsNonNeg(States(v)) && v.viewLine >= 0
    ensures VerifyFocusedBoxInView(v).value.viewLine >= 0
  {
  }

  /** Verifying twice changes nothing more when the box fits. */
  lemma VerifyIdempotent(v: Viewer)
    requires !v.maximized && 0 <= v.focused < |v.holders| && FocusFits(v)
    ensures var w := VerifyFocusedBoxInView(v).value;
      VerifyFocusedBoxInView(w) == Ok(w)
  {
    var w := VerifyFocusedBoxInView(v).value;
    FocusedBoxInView(v);
    assert States(w) == States(v);
  }

  // ---------------------------------------------------------------------------
  // Scroll range

  /** `max_current_line`: the furthest view line; there the stack's last row
      sits on screen row `MaxBoxLine(v) - 1`, the row above the last box row. */
  function MaxCurrentLine(v: Viewer): (r: int)
    ensures r >= 0
    ensures r >= Offset(States(v), |v.holders|) - MaxBoxLine(v)
    ensures r == 0 || r == Offset(States(v), |v.holders|) - MaxBoxLine(v)
  {
    var total := Offset(States(v), |v.holders|);
    if total - MaxBoxLine(v) >= 0 then total - MaxBoxLine(v) else 0
  }

  /** When the stack is taller than the box area, scrolling to the furthest
      view line puts the last expanded box's last row on the row above the
      last box row. */
  lemma LastBottomAtEdge(v: Viewer)
    requires !v.maximized && |v.holders| > 0 && !v.holders[|v.holders| - 1].state.collapsed
    requires Offset(States(v), |v.holders|) > MaxBoxLine(v)
    ensures var w := v.(viewLine := MaxCurrentLine(v));
      ScreenRow(GetBoxLine(w, |v.holders| - 1, Bottom).value, MaxBoxLine(v)) == MaxBoxLine(v) - 1
  {
    var w := v.(viewLine := MaxCurrentLine(v));
    assert States(w) == States(v);
  }

  // ---------------------------------------------------------------------------
  // Swapping

  /** `swap_indices(index1, index2)`: the two holders trade places and take
      each other's index; the focus follows the box it was on. */
  function SwapIndices(v: Viewer, i1: int, i2: int): (r: Result<Viewer>)
    ensures r.Ok? <==> -|v.holders| <= i1 < |v.holders| && -|v.holders| <= i2 < |v.holders|
    ensures r.Ok? ==> |r.value.holders| == |v.holders|
    ensures r.Ok? ==>
              var k1 := if i1 < 0 then i1 + |v.holders| else i1;
              var k2 := if i2 < 0 then i2 + |v.holders| else i2;
              && (k1 != k2 ==>
                    r.value.holders[k1] == v.holders[k2].(index := i1) && r.value.holders[k2] == v.holders[k1].(index := i2))
              && (forall j :: 0 <= j < |v.holders| && j != k1 && j != k2 ==> r.value.holders[j] == v.holders[j])
    ensures r.Ok? ==> r.value.focused == (if v.focused == i1 then i2 else if v.focused == i2 then i1 else v.focused)
    ensures r.Ok? ==> r.value == v.(holders := r.value.holders, focused := r.value.focused)
  {
    var k1 :- PyIndex(|v.holders|, i1);
    var k2 :- PyIndex(|v.holders|, i2);
    var h1 := v.holders[k1];
    var h2 := v.holders[k2];
    // the same holder object when k1 == k2: its index ends as index1
    var holders := v.holders[k1 := h2.(index := i1)][k2 := h1.(index := if k1 == k2 then i1 else i2)];
    var focused := if v.focused == i1 then i2 else if v.focused == i2 then i1 else v.focused;
    Ok(v.(holders := holders, focused := focused))
  }

  /** Every holder's index field is its position. */
  predicate Consistent(holders: seq<Box.Holder>) {
    forall j :: 0 <= j < |holders| ==> holders[j].index == j
  }

  /** Swapping two positions keeps the index fields consistent, and the
      focused position still holds the box that was focused. */
  lemma SwapKeepsConsistent(v: Viewer, i1: nat, i2: nat)
    requires Consistent(v.holders) && i1 < |v.holders| && i2 < |v.holders|
    requires 0 <= v.focused < |v.holders|
    ensures var w := SwapIndices(v, i1, i2).value;
      && Consistent(w.holders)
      && 0 <= w.focused < |w.holders|
      && w.holders[w.focused].(index := 0) == v.holders[v.focused].(index := 0)
  {
  }

  /** Swapping the same two positions again restores the stack and focus. */
  lemma SwapTwice(v: Viewer, i1: nat, i2: nat)
    requires Consistent(v.holders) && i1 < |v.holders| && i2 < |v.holders|
    ensures var w := SwapIndices(v, i1, i2).value;
      SwapIndices(w, i1, i2) == Ok(v)
  {
    var w := SwapIndices(v, i1, i2).value;
    var u := SwapIndices(w, i1, i2).value;
    assert u.holders == v.holders;
  }

  // ---------------------------------------------------------------------------
  // Default heights

  /** Python's `//`: division rounding toward negative infinity. */
  function FloorDiv(a: int, b: int): (q: int)
    requires b != 0
    ensures b > 0 ==> q * b <= a < q * b + b
    ensures b < 0 ==> q * b >= a > q * b + b
  {
    if b > 0 then a / b else (-a) / (-b)
  }

  /** The height of a box whose height was never changed:
      `max(MIN_BOX_HEIGHT, (lines - n - 1) // n)`. */
  function DefaultBoxHeight(lines: int, n: int): (h: int)
    requires n != 0
    ensures h >= MinBoxHeight
    ensures n > 0 && lines - n - 1 >= MinBoxHeight * n ==> h * n + n + 1 <= lines
  {
    var q := FloorDiv(lines - n - 1, n);
    if q >= MinBoxHeight then q else MinBoxHeight
  }

  /** The boxes one by one: a new width when the columns changed (which may
      fail as `set_width` does), the default height unless the height was
      changed. */
  function UpdateEach(holders: seq<Box.Holder>, height: int, changedCols: bool, cols: nat,
                      terminalColumns: nat, wide: char -> bool): (r: Result<seq<Box.Holder>>)
    requires AllValid(holders)
    ensures r.Ok? ==> |r.value| == |holders|
    ensures r.Ok? ==> forall i :: 0 <= i < |holders| ==> Updated(holders[i], r.value[i], height, changedCols)
  {
    if |holders| == 0 then Ok([])
    else
      var h' :- UpdateOne(holders[0], height, changedCols, cols, terminalColumns, wide);
      var tail := holders[1..];
      assert forall i :: 0 <= i < |tail| ==> tail[i] == holders[i + 1];
      assert AllValid(tail);
      var rest :- UpdateEach(tail, height, changedCols, cols, terminalColumns, wide);
      UpdatedCons(holders, h', rest, height, changedCols);
      Ok([h'] + rest)
  }

  /** Updating the first box and the rest updates them all. */
  lemma UpdatedCons(holders: seq<Box.Holder>, h': Box.Holder, rest: seq<Box.Holder>, height: int, changedCols: bool)
    requires |holders| == |rest| + 1 && Updated(holders[0], h', height, changedCols)
    requires forall i :: 0 <= i < |rest| ==> Updated(holders[1..][i], rest[i], height, changedCols)
    ensures forall i :: 0 <= i < |holders| ==> Updated(holders[i], ([h'] + rest)[i], height, changedCols)
  {
    forall i | 1 <= i < |holders| ensures Updated(holders[i], ([h'] + rest)[i], height, changedCols) {
      assert holders[i] == holders[1..][i - 1];
    }
  }

  /** Every box's buffer keeps its invariant. */
  ghost predicate AllValid(holders: seq<Box.Holder>) {
    forall i :: 0 <= i < |holders| ==> Buffers.Valid(holders[i].buffer)
  }

  /** The loop body of `_update_holders` for one box. */
  function UpdateOne(h: Box.Holder, height: int, changedCols: bool, cols: nat,
                     terminalColumns: nat, wide: char -> bool): (r: Result<Box.Holder>)
    requires Buffers.Valid(h.buffer)
    ensures r.Ok? ==> Updated(h, r.value, height, changedCols)
    ensures !changedCols ==> r.Ok?
  {
    var resized :- if changedCols then Box.SetWidth(h.state, h.buffer, cols, terminalColumns, wide)
                   else Ok(Box.Resized(h.state, h.buffer));
    var s := if resized.state.changedHeight then resized.state else resized.state.(boxHeight := height);
    Ok(h.(buffer := resized.buffer, state := s))
  }

  /** One box after `_update_holders`: same index and iterator, the given
      height unless the height was changed by hand; without a column change
      the height is the only thing that moves. */
  predicate Updated(h: Box.Holder, h': Box.Holder, height: int, changedCols: bool) {
    && h'.index == h.index && h'.iter == h.iter
    && h'.state.boxHeight == (if h.state.changedHeight then h.state.boxHeight else height)
    && h'.state.changedHeight == h.state.changedHeight
    && (!changedCols ==> h' == h.(state := h.state.(boxHeight := h'.state.boxHeight)))
  }

  /** `_update_holders(num_boxes, changed_cols)`: `num_boxes` falls back to
      the number of boxes when missing or zero, and dividing by zero boxes
      raises `ZeroDivisionError`. */
  function UpdateHolders(v: Viewer, numBoxes: Option<int>, changedCols: bool,
                         terminalColumns: nat, wide: char -> bool): (r: Result<Viewer>)
    requires AllValid(v.holders)
    ensures var n := if numBoxes.Some? && numBoxes.value != 0 then numBoxes.value else |v.holders|;
      && (n == 0 ==> r == Err(ZeroDivisionError))
      && (r.Ok? ==> n != 0 && Rebalanced(v, r.value, DefaultBoxHeight(v.lines, n), changedCols))
  {
    var n := if numBoxes.Some? && numBoxes.value != 0 then numBoxes.value else |v.holders|;
    if n == 0 then Err(ZeroDivisionError)
    else
      var height := DefaultBoxHeight(v.lines, n);
      var holders :- UpdateEach(v.holders, height, changedCols, v.cols, terminalColumns, wide);
      Ok(v.(holders := holders))
  }

  /** Only the boxes change, one for one: every box whose height was never
      changed by hand gets `height`, the others keep theirs (see `Updated`). */
  predicate Rebalanced(v: Viewer, v': Viewer, height: int, changedCols: bool) {
    && v' == v.(holders := v'.holders) && |v'.holders| == |v.holders|
    && forall i :: 0 <= i < |v.holders| ==> Updated(v.holders[i], v'.holders[i], height, changedCols)
  }

  /** Without a column change, rebalancing fails only for want of boxes. */
  lemma UpdateHoldersNoResize(v: Viewer, numBoxes: Option<int>, terminalColumns: nat, wide: char -> bool)
    requires AllValid(v.holders)
    requires (numBoxes.Some? && numBoxes.value != 0) || |v.holders| > 0
    ensures UpdateHolders(v, numBoxes, false, terminalColumns, wide).Ok?
  {
    var n := if numBoxes.Some? && numBoxes.value != 0 then numBoxes.value else |v.holders|;
    UpdateEachNoResize(v.holders, DefaultBoxHeight(v.lines, n), v.cols, terminalColumns, wide);
  }

  lemma {:induction false} UpdateEachNoResize(holders: seq<Box.Holder>, height: int, cols: nat,
                                               terminalColumns: nat, wide: char -> bool)
    requires AllValid(holders)
    ensures UpdateEach(holders, height, false, cols, terminalColumns, wide).Ok?
    decreases |holders|
  {
    if |holders| > 0 {
      UpdateEachNoResize(holders[1..], height, cols, terminalColumns, wide);
    }
  }

  // ---------------------------------------------------------------------------
  // Key handler results

  /** `_process_key_handler(fn)`, given the viewer before and after the
      handler and what it returned: a box index or a full refresh passes
      through; otherwise a moved focus or view line asks for a full refresh. */
  function ProcessKeyHandler(before: Viewer, after: Viewer, ret: Ret): (r: Ret)
    ensures ret.Index? || ret.FullRefresh? ==> r == ret
    ensures (ret.NoneRet? || ret.Bool?) ==>
              (r == FullRefresh <==> before.focused != after.focused || before.viewLine != after.viewLine)
    ensures (ret.NoneRet? || ret.Bool?) && r != FullRefresh ==> r == ret
  {
    if !ret.NoneRet? && !ret.Bool? then ret
    else if before.focused != after.focused then FullRefresh
    else if before.viewLine != after.viewLine then FullRefresh
    else ret
  }

  // ---------------------------------------------------------------------------
  // Drawing one box

  /** `is_visible` of the box at position `k`, which looks itself up by its
      own index: not when another box is maximized, not when collapsed
      (unless it is the maximized box), not when its first row is below
      the box area or its last row above it. */
  function IsVisible(v: Viewer, k: nat): (r: Result<bool>)
    requires k < |v.holders|
    ensures var index := v.holders[k].index;
      && (v.maximized ==> r == Ok(index == v.focused))
      && (!v.maximized && v.holders[k].state.collapsed ==> r == Ok(false))
      && (!v.maximized && !v.holders[k].state.collapsed ==>
            && (r.Ok? <==> -|v.holders| <= index < |v.holders|)
            && (r.Ok? ==> (r.value <==> && GetBoxLine(v, index, Top).value.location != Below
                                        && GetBoxLine(v, index, Bottom).value.location != Above)))
  {
    var index := v.holders[k].index;
    var focusedBox := index == v.focused;
    if v.maximized && !focusedBox then Ok(false)
    else if v.holders[k].state.collapsed && !(v.maximized && focusedBox) then Ok(false)
    else
      var top :- GetBoxLine(v, index, Top);
      if top.location == Below then Ok(false)
      else
        var bottom := GetBoxLine(v, index, Bottom).value;
        Ok(bottom.location != Above)
  }

  /** What `box.update` hands to the terminal: the text rows and the screen
      rows they go to. */
  datatype Drawn = Drawn(lines: seq<string>, fromRow: int, toRow: int)

  /** A Python slice bound: negative counts from the end, then clamped to
      `[0, n]`. */
  function SliceBound(i: int, n: nat): (b: nat)
    ensures b <= n
    ensures 0 <= i <= n ==> b == i
    ensures i > n ==> b == n
  {
    if i < 0 then (if i + n < 0 then 0 else i + n) else if i > n then n else i
  }

  /** The cropping in `box.update`: `lines[y:]` and drawing from row 0 when
      the first row is above the box area, `lines[:-y]` and drawing to the
      last box row when the last row is below it. */
  function Crop(lines: seq<string>, top: Placement, bottom: Placement, maxLine: int): (d: Drawn)
    ensures d.fromRow == if top.location == Above then 0 else top.y
    ensures d.toRow == if bottom.location == Below then maxLine else bottom.y
    ensures top.location != Above && bottom.location != Below ==> d.lines == lines
    ensures (top.location == Above ==> top.y >= 0) && (bottom.location == Below ==> bottom.y > 0) ==>
              var front := if top.location == Above then (if top.y <= |lines| then top.y else |lines|) else 0;
              var back := if bottom.location == Below then bottom.y else 0;
              d.lines == lines[front..if front + back <= |lines| then |lines| - back else front]
  {
    var afterTop := if top.location == Above then lines[SliceBound(top.y, |lines|)..] else lines;
    var fromRow := if top.location == Above then 0 else top.y;
    var afterBottom := if bottom.location == Below then afterTop[..SliceBound(-bottom.y, |afterTop|)] else afterTop;
    var toRow := if bottom.location == Below then maxLine else bottom.y;
    Drawn(afterBottom, fromRow, toRow)
  }

  /** `box.update` of box `index`, given the rows `update_text` produced. */
  function DrawBox(v: Viewer, index: int, lines: seq<string>): (r: Result<Drawn>)
    ensures r.Ok? <==> v.maximized || -|v.holders| <= index < |v.holders|
    ensures v.maximized && index == v.focused ==> r == Ok(Drawn(lines, 0, MaxBoxLine(v)))
  {
    var top :- GetBoxLine(v, index, Top);
    var bottom := GetBoxLine(v, index, Bottom).value;
    Ok(Crop(lines, top, bottom, MaxBoxLine(v)))
  }

  /** A visible box in its own position, given one text row per body row,
      draws exactly the rows that fall inside the box area, one per screen
      row from the row it is drawn from to the row it is drawn to. */
  lemma CropFits(v: Viewer, k: nat, lines: seq<string>)
    requires !v.maximized && k < |v.holders| && v.holders[k].index == k && MaxBoxLine(v) >= 0
    requires IsVisible(v, k) == Ok(true)
    requires |lines| == v.holders[k].state.boxHeight
    ensures var d := DrawBox(v, k, lines).value;
      var first := StackRow(States(v), k, k, Top) - v.viewLine;
      && 0 <= d.fromRow <= d.toRow + 1 && d.toRow <= MaxBoxLine(v)
      && |d.lines| == d.toRow - d.fromRow + 1
      && d.lines == lines[d.fromRow - first..d.toRow - first + 1]
  {
    var m := MaxBoxLine(v);
    var top := GetBoxLine(v, k, Top).value;
    var bottom := GetBoxLine(v, k, Bottom).value;
    var first := StackRow(States(v), k, k, Top) - v.viewLine;
    var last := StackRow(States(v), k, k, Bottom) - v.viewLine;
    assert last == first + |lines| - 1;
    assert ScreenRow(top, m) == first && ScreenRow(bottom, m) == last;
    assert first <= m && last >= 0;
    var d := Crop(lines, top, bottom, m);
    assert DrawBox(v, k, lines).value == d;
  }
}

=== FILE: wrappers.dfy ===
/** Failure-carrying result types shared by every module of the model.
    `Result` stands for a Python call that either returns a value or raises. */
module Wrappers {

  datatype Option<+T> = None | Some(value: T) {
    function GetOr(default: T): T {
      match this
      case Some(v) => v
      case None => default
    }
  }

  /** The exceptions the modelled code can raise, by the Python class that is raised. */
  datatype Error =
    | IndexError        // pop from an empty list, list index out of range
    | KeyError          // missing dict key
    | AttributeError    // missing attribute
    | TypeError         // wrong argument type
    | ZeroDivisionError
    | RuntimeError      // an explicit `raise RuntimeError(...)`

  datatype Result<+T> = Ok(value: T) | Err(error: Error) {
    predicate IsFailure() {
      Err?
    }

    function PropagateFailure<U>(): Result<U>
      requires Err?
    {
      Err(error)
    }

    function Extract(): T
      requires Ok?
    {
      value
    }
  }
}
